=== FILE: README.md ===
# Apicius recipe catalogue: a verified model of its string and list logic

Apicius is an Electron desktop recipe catalogue. Under its DOM wiring sits a
small layer of pure string and collection logic, and this Dafny project
models that layer and proves properties of it:

- **Free-text parsers** (`renderer/modules/utils.js`), in `duration.dfy` and `ingredient.dfy`.
  - `parseDuration` reads "1h 30m" or "45" as minutes.
  - `parseIngredient` strips a leading quantity, unit and "of" from a legacy ingredient line.
  - Each regular expression is modelled as an explicit leftmost-match scanner and proved equal to its literal reading.
- **Geo-tag resolver** (`renderer/countryData.js`), in `countries.dfy` and `countrytable.dfy`.
  - A JavaScript object literal with repeated keys is modelled as a list of entries. The later value wins and the key keeps its first position.
  - `getCountryIdFromTag`, `getAllCountries` and the scoring heuristic of `getAdjectiveFromId` are modelled over any such literal.
  - The real literal is transcribed entry for entry, in source order, as twelve constants of consecutive source lines.
- **Filter engine** (`renderer/modules/filters.js`), in `recipe.dfy`, `filters.dfy` and `seqs.dfy`.
  - The recipe filter is the conjunction of title search, tags, ingredients, duration bucket and minimum rating.
  - The tag and ingredient option lists agree with the filter: every offered option, checked alone, keeps some recipe.
  - The button caption is modelled too.
- **Recipe references** (`renderer/modules/recipe-references.js`), in `references.dfy` and `autocomplete.dfy`.
  - `@name` detection, resolution by case-insensitive title, and rendering.
  - The autocomplete trigger and query, candidates capped at five, the text splice on selection, and the highlight state machine.
- **Map aggregation** (`renderer/mapController.js`), in `mapview.dfy`.
  - Counts per country and for "other", given the set of country ids the map shows (`svg`).
  - The per-country and "other" recipe lists, the tooltip text and the list heading.
- **Form normalisation and tag autocomplete** (`renderer/modules/forms.js`), in `forms.dfy` and `autocomplete.dfy`.
  - '@' stripping on the title, and the submit handler's normalisation of labels, ingredient rows and sections, and steps.
  - The legacy quantity/name split and the edit form.
  - The tag helpers: current fragment, suggestions, `selectTag`, keyboard handling.
- **Recipe list handlers** (`main.js`), in `store.dfy`.
  - `save-recipe` replaces the recipe in place or appends it.
  - `delete-recipe` removes every recipe with the id.
  - `save-image` returns the stored path.
  - File reads and writes are left to the caller. The pictures to remove are returned rather than removed.

`wrappers.dfy` holds `Option`, and `text.dfy` the string helpers. JavaScript's
`trim`, `toLowerCase`, `split`, `join`, `indexOf` and `lastIndexOf` are
restricted to the characters the code meets.

Three behaviours of the code a reader may not expect:

- "See @Tomato Soup for base" does not link to the recipe "Tomato Soup". The name pattern is greedy over white space, so the captured name is "Tomato Soup for base", no title matches it, and the text stays unchanged (`References.ExampleGreedyName`).
- Keyboard selection in the recipe-reference list picks nothing. `Enter` calls `click()` on items that listen only for `mousedown` (finding 2 below).
- `findRecipeByName` trims neither the name nor the titles; only the name passed from rendering is trimmed, so a title with surrounding white space is never matched by a rendered reference.

## Model

| member | source | states |
|---|---|---|
| Duration.DigitRunEnd | renderer/modules/utils.js:8 | the greedy `\d+` run from `i` ends at the first non-digit (or the end), every character before it being a digit |
| Duration.DigitRunEndIs | renderer/modules/utils.js:8 | any index that closes a maximal digit run is the one `DigitRunEnd` finds |
| Duration.GreedyIsRegex | renderer/modules/utils.js:8 | the greedy scanner accepts at `i` exactly when `\d+\s*u` read literally (some digit run, some white space, the unit letter) matches there |
| Duration.FirstUnitMatch | renderer/modules/utils.js:8 | the leftmost match of `\d+\s*u`, when there is one, lies at or after the start and inside the text |
| Duration.FirstUnitMatchIsLeftmost | renderer/modules/utils.js:8 | the scan returns a real match with no match before it, and returns nothing exactly when no index matches |
| Duration.FirstUnitMatchFound | renderer/modules/utils.js:8 | a found index is a match and no earlier index matches |
| Duration.FirstUnitMatchNone | renderer/modules/utils.js:8 | finding nothing means no index matches |
| Duration.FirstMatchHere | renderer/modules/utils.js:8 | a match at the starting index is the leftmost one |
| Duration.FirstUnitMatchIs | renderer/modules/utils.js:8 | when `p` matches and nothing before it does, the scan returns `p` |
| Duration.ParseDuration | renderer/modules/utils.js:1-25 | empty text reads as zero minutes |
| Duration.NoUnitNoMatch | renderer/modules/utils.js:8-17 | without the unit letter the expression finds nothing and contributes zero |
| Duration.LowerOfDigitsAndSpaces | renderer/modules/utils.js:3 | lower-casing leaves digits and white space unchanged |
| Duration.BareNumberIsMinutes | renderer/modules/utils.js:19-22 | a number padded with white space reads as that many minutes |
| Duration.UnreadableIsZero | renderer/modules/utils.js:5-24 | text with neither unit letter (in either case) and no bare number reads as zero |
| Duration.NoMatchBefore | renderer/modules/utils.js:8-14 | in text that starts with a number, white space and a letter other than `u`, no match of `\d+\s*u` starts inside the number, the white space or at that letter |
| Duration.MatchAtNumeral | renderer/modules/utils.js:8-14 | a number directly followed by the unit letter is a match capturing exactly that number |
| Duration.AmountOfFirstMatch | renderer/modules/utils.js:9-17 | the amount taken is the value of the number captured by the leftmost match |
| Duration.TwoAmounts | renderer/modules/utils.js:8-17 | in "X u a Y v b", with white space allowed before each letter and no digit in `a`, the expression for `u` reads X and the one for `v` reads Y: each skips what the other reads |
| Duration.SecondAmount | renderer/modules/utils.js:14-17 | in text that starts "X u a Y v" with no digit in `a`, the amount read for `v` is Y, not X |
| Duration.NoMatchIn | renderer/modules/utils.js:8 | no match starts inside text without digits |
| Duration.OneAmount | renderer/modules/utils.js:8-17 | in "X u a" with no digit in `a`, the expression for `u` reads X and the one for any other letter reads nothing |
| Duration.NoAmountAfter | renderer/modules/utils.js:14-17 | in "X u a" with no digit in `a`, no other letter gets an amount |
| Duration.LowerPieces | renderer/modules/utils.js:3 | lower-casing numbers, white space, two letters and other text changes only the letters and the other text |
| Duration.LowerNoDigits | renderer/modules/utils.js:3 | lower-casing keeps text free of digits |
| Duration.SingleUnit | renderer/modules/utils.js:1-25 | a number followed by `h` or `H` reads as 60 times it and by `m` or `M` as itself, with or without white space before the letter and with any digit-free text after it |
| Duration.LetterNotNumeral | renderer/modules/utils.js:20 | a character that is neither digit nor white space keeps the bare-number rule out |
| Duration.HoursAndMinutesInEitherOrder | renderer/modules/utils.js:1-25 | "X h… Y m…" and "Y m… X h…" both read as 60·X + Y minutes, in either letter case, with optional white space before each letter and digit-free text after the first unit |
| Duration.HoursFirst | renderer/modules/utils.js:1-25 | "X h… Y m…" reads as 60·X + Y minutes when the text between the units lower-cases to no digit |
| Duration.MinutesFirst | renderer/modules/utils.js:1-25 | "Y m… X h…" reads as 60·X + Y minutes when the text between the units lower-cases to no digit |
| Duration.ExampleHoursThenMinutes | renderer/modules/utils.js:1-25 | "1h 30m" reads as 90 |
| Duration.ExampleMinutesThenHours | renderer/modules/utils.js:1-25 | "30m 1h" reads as 90 |
| Duration.ExampleBareNumber | renderer/modules/utils.js:19-22 | "45" reads as 45 |
| Duration.ExampleWords | renderer/modules/utils.js:1-25 | "2 Hours 15 min" reads as 135 |
| Duration.ExampleHoursOnly | renderer/modules/utils.js:1-25 | "2 hours" reads as 120 |
| Ingredients.UnitsAreWords | renderer/modules/utils.js:30 | every unit alternative of the expression is a lower-case word |
| Ingredients.NotAUnit | renderer/modules/utils.js:30 | a word in none of the alternative groups is not a unit |
| Ingredients.QuantityEnd | renderer/modules/utils.js:30 | the run of the quantity class `[\d\s/.¼-¾⅐-⅞↉]` ends at the first character outside it |
| Ingredients.QuantityEndIs | renderer/modules/utils.js:30 | any index closing a maximal quantity run is the one `QuantityEnd` finds |
| Ingredients.FoldStr | renderer/modules/utils.js:30 | the `i` flag's folding keeps the length and folds each character |
| Ingredients.FirstUnitFromSpec | renderer/modules/utils.js:30 | the alternatives from the `k`-th on are tried in order: the one kept fits, none before it fits, none is kept only when none fits |
| Ingredients.FirstUnitSpec | renderer/modules/utils.js:30 | the unit alternative kept is the first in the written order that fits, and none is kept only when none fits |
| Ingredients.WordEnd | renderer/modules/utils.js:30 | the word run from `p` ends at the first non-word character |
| Ingredients.WordEndIs | renderer/modules/utils.js:30 | any index closing a maximal word run is the one `WordEnd` finds |
| Ingredients.FittingWordIsWholeWord | renderer/modules/utils.js:30 | a unit matched case-insensitively and followed by `\b` is the whole word at that place |
| Ingredients.UnitRemovedIffWholeWord | renderer/modules/utils.js:30 | with `\b` after the group a unit is removed exactly when the whole word after the quantity is a unit, and the one removed is that word |
| Ingredients.AfterUnit | renderer/modules/utils.js:30 | the optional unit group ends at or after its start and inside the text |
| Ingredients.AfterOf | renderer/modules/utils.js:30 | the optional `of\b` takes either nothing or exactly two characters |
| Ingredients.StripEnd | renderer/modules/utils.js:30 | the removed prefix is empty exactly when the text is empty or does not begin with a quantity character (the `+` needs one) |
| Ingredients.StripEndFromSteps | renderer/modules/utils.js:30 | the prefix end is the composition quantity run, unit, white space, `of`, white space |
| Ingredients.Clean | renderer/modules/utils.js:27-32 | the result is trimmed, lower-case and no longer than the text; empty text gives "" |
| Ingredients.ParseIngredient | renderer/modules/utils.js:27-32 | the ingredient name is trimmed, lower-case and no longer than the text; empty text gives "" |
| Ingredients.KeepsRest | renderer/modules/utils.js:30-31 | every non-blank character after the removed prefix survives, lower-cased |
| Ingredients.NoQuantityNoStrip | renderer/modules/utils.js:30-31 | text not beginning with a quantity character is only trimmed and lower-cased |
| Ingredients.QuantityPrefix | renderer/modules/utils.js:30 | the quantity run of `qty + rest` is `qty` when `rest` starts outside the class |
| Ingredients.UnitAfterQuantity | renderer/modules/utils.js:30 | a unit word in any letter case right after the quantity, followed by a non-word character, is removed whole |
| Ingredients.SkipGap | renderer/modules/utils.js:30 | `\s*` consumes the whole white-space gap up to the next non-blank character |
| Ingredients.QuantityBeforeUnit | renderer/modules/utils.js:30 | the quantity run stops where the unit word starts |
| Ingredients.CleanFrom | renderer/modules/utils.js:30-31 | when the prefix ends at `e` and the rest is trimmed, the result is the rest lower-cased |
| Ingredients.GapThenName | renderer/modules/utils.js:30 | after the unit, white space and a name not beginning with "of", the prefix ends where the name begins |
| Ingredients.QuantityUnitName | renderer/modules/utils.js:27-32 | quantity + unit (any case) + white space + name keeps only the name, lower-cased |
| Ingredients.UnitNamePrefix | renderer/modules/utils.js:30 | for quantity + unit + gap + name the prefix ends just before the name |
| Ingredients.GapOfGap | renderer/modules/utils.js:30 | " of " between unit and name is consumed whole |
| Ingredients.QuantityUnitOfName | renderer/modules/utils.js:27-32 | quantity + unit + " of " + name keeps only the name, lower-cased |
| Ingredients.UnitOfNamePrefix | renderer/modules/utils.js:30 | for quantity + unit + " of " + name the prefix ends just before the name |
| Ingredients.QuantityThenOtherWord | renderer/modules/utils.js:27-32 | a quantity followed by a word that is not a unit nor "of" loses only the quantity, even when the word starts like a unit |
| Ingredients.WordAtOffset | renderer/modules/utils.js:30 | the word after the quantity is the word at the start of the rest |
| Ingredients.OfIsWholeWord | renderer/modules/utils.js:30 | `of` followed by a boundary is the whole word "of" |
| Ingredients.ExampleUnitAndOf | renderer/modules/utils.js:27-32 | "1 cup of flour" gives "flour" |
| Ingredients.ExampleUpperCaseUnit | renderer/modules/utils.js:27-32 | "2 TBSP Butter" gives "butter" |
| Ingredients.TbspIsAUnit | renderer/modules/utils.js:30 | "TBSP" folds to one of the units |
| Ingredients.ExampleUnitPrefixKept | renderer/modules/utils.js:27-32 | "2 large eggs" gives "large eggs": the `l` unit is refused by `\b` |
| Ingredients.LargeIsNoUnit | renderer/modules/utils.js:30 | "large" is not among the units |
| Recipes.AllItems | renderer/modules/filters.js:289-300 | an item is collected exactly when some ingredient section holds it |
| Recipes.Picked | renderer/modules/filters.js:161-169 | a value is collected exactly when some item yields it |
| Filters.FilterRecipes | renderer/modules/filters.js:282-317 | the result is the recipes that pass every criterion, in collection order, each passing recipe kept, as many as pass |
| Filters.ExactlyOneBucket | renderer/modules/filters.js:304-312 | for a known category a recipe passes exactly when its minutes are positive and fall in that category's range, the four ranges covering every positive count once |
| Filters.UnknownCategory | renderer/modules/filters.js:304-312 | a non-empty category matching no branch keeps every recipe whose minutes are not zero |
| Filters.NoCriteriaKeepsAll | renderer/modules/filters.js:282-317 | with nothing searched, chosen or rated, every recipe passes |
| Filters.MoreTagsNarrow | renderer/modules/filters.js:286 | checking more tags gives a subsequence of the previous result |
| Filters.HigherRatingNarrows | renderer/modules/filters.js:314 | raising the minimum rating gives a subsequence of the previous result |
| Filters.OptionIsKey | renderer/modules/filters.js:161-168 | the name the dropdown offers for an item is the name the filter compares, and a non-empty filter name is offered (with lines 292-297) |
| Filters.IngredientOptions | renderer/modules/filters.js:155-181 | the ingredient list is sorted, free of duplicates, and holds exactly the names some recipe contributes |
| Filters.AllOptions | renderer/modules/filters.js:156-173 | the collected names are exactly those some recipe contributes |
| Filters.KeepsWithoutSearch | renderer/modules/filters.js:282-317 | with no search, time or rating, only the checked tags and ingredients decide |
| Filters.OptionKeepsItsRecipe | renderer/modules/filters.js:161-168 | checking an ingredient offered because of a recipe keeps that recipe (with lines 292-302) |
| Filters.EveryIngredientOptionMatches | renderer/modules/filters.js:155-200 | every offered ingredient, checked alone, keeps at least one recipe (with lines 282-317) |
| Filters.TagOptions | renderer/modules/filters.js:122-136 | the tag list is sorted, free of duplicates, and holds exactly the labels of recipes whose labels are an array |
| Filters.AllListLabels | renderer/modules/filters.js:123-128 | the collected labels are exactly those of recipes whose labels are an array |
| Filters.EveryTagOptionMatches | renderer/modules/filters.js:122-153 | every offered tag, checked alone, keeps at least one recipe (with lines 282-317) |
| Filters.ButtonText | renderer/modules/filters.js:269-272 | no checked box gives "Filter by …"; otherwise the caption followed by the count in brackets (with lines 324-334) |
| Filters.ButtonTextInjective | renderer/modules/filters.js:269-272 | two different counts never give the same button text |
| Seqs.Filter | renderer/modules/filters.js:282 | `filter` keeps exactly the passing elements, in order |
| Seqs.FilterFilter | renderer/modules/filters.js:282 | filtering twice by two tests is filtering once by both |
| Seqs.SortedSet | renderer/modules/filters.js:136 | `Array.from(new Set(s)).sort()` is ascending, duplicate-free and has exactly the elements of `s` (with line 181) |
| Seqs.Distinct | renderer/modules/filters.js:123-136 | `new Set` keeps each element exactly once, every element of the result coming from the input, in the input's order |
| Seqs.DistinctKeepsFirstOrder | renderer/modules/filters.js:123-136 | an element that first occurs before another comes before it in the result |
| Seqs.SortStrings | renderer/modules/filters.js:136 | `sort()` gives an ascending permutation (with line 181) |
| Seqs.FindFirst | main.js:156 | `findIndex` gives the first passing index, and -1 exactly when none passes |
| Text.Trim | renderer/modules/forms.js:163-164 | `trim()` gives a trimmed string, empty exactly for all-blank input |
| Text.TrimKeeps | renderer/modules/utils.js:31 | `trim()` removes only white space |
| Text.Split | renderer/modules/forms.js:203 | `split` of a one-character separator gives separator-free pieces that join back to the string |
| Text.SplitJoin | renderer/modules/forms.js:47 | splitting a join of separator-free pieces gives the pieces back (with line 203) |
| Text.SplitCommaSpaceJoin | renderer/modules/forms.js:47 | a `join(", ")` of trimmed comma-free labels, split on ',' and trimmed, gives the labels back (with line 203) |
| Text.NatToString | renderer/modules/forms.js:191 | the decimal rendering of a number is a digit string without leading zero that denotes it |
| Text.LowerStr | renderer/modules/utils.js:3 | lower-casing keeps the length and maps each character on its own |
| Text.LowerStrIsLower | renderer/modules/utils.js:3 | a lower-cased string is lower case, so lower-casing twice is lower-casing once |
| Text.TrimLower | renderer/countryData.js:217 | trimming then lower-casing is lower-casing then trimming |
| Text.IndexOf | renderer/modules/forms.js:76 | `indexOf` gives the first occurrence, and -1 exactly when there is none |
| Text.LastIndexOf | renderer/modules/forms.js:415 | `lastIndexOf` gives a position holding the character with none after it, -1 meaning none anywhere |
| References.AtIsNoNameChar | renderer/modules/recipe-references.js:11 | `@` is not in the name class `[\p{L}\p{N}\s\-_]` |
| References.NameEnd | renderer/modules/recipe-references.js:11 | the greedy `+` takes the longest run of name characters |
| References.NameEndIs | renderer/modules/recipe-references.js:11 | any index closing a maximal name run is the one `NameEnd` finds |
| References.DetectFromSound | renderer/modules/recipe-references.js:10-23 | every reported match is one the expression makes at or after the start, and each begins after the previous one ends |
| References.DetectAt | renderer/modules/recipe-references.js:14-21 | a match starting at the scan position is reported first, then scanning resumes after it |
| References.DetectPlain | renderer/modules/recipe-references.js:14 | where no match starts the scan moves on one character |
| References.DetectComplete | renderer/modules/recipe-references.js:10-23 | every `@` followed by a name character outside earlier matches starts a reported match |
| References.Detect | renderer/modules/recipe-references.js:10-23 | the matches are real, ordered without overlap, and every `@` followed by a name character starts one |
| References.MatchShape | renderer/modules/recipe-references.js:15-20 | a match is `@`, then a non-empty name that cannot be extended, its length one more than the name's |
| References.DetectSkips | renderer/modules/recipe-references.js:14 | text where no match starts contributes no match |
| References.FindRecipeByName | renderer/modules/recipe-references.js:61-65 | an empty name finds nothing; otherwise the first recipe whose lower-cased title equals the lower-cased name, and nothing only when no title equals it |
| References.Link | renderer/modules/recipe-references.js:50 | the link is longer than the match it replaces |
| References.ParseLink | renderer/modules/recipe-references.js:50 | a link read back into an id and a name is the link those two build |
| References.LinkReadBack | renderer/modules/recipe-references.js:50 | for an id without `"`, the link gives back exactly its id and its name |
| References.Replacement | renderer/modules/recipe-references.js:44-53 | a match is kept as it is exactly when its name does not resolve |
| References.RenderFrom | renderer/modules/recipe-references.js:44-53 | the rendered text is never shorter than the text |
| References.NoneResolvesAll | renderer/modules/recipe-references.js:47-52 | no match resolves exactly when each match's name fails to resolve |
| References.RenderUnchangedIff | renderer/modules/recipe-references.js:44-53 | rendering from an index leaves the text as it is exactly when no match from there resolves |
| References.RenderPlainStep | renderer/modules/recipe-references.js:44 | the unchanged-iff property survives a character where no match starts |
| References.RenderMatchStep | renderer/modules/recipe-references.js:44-53 | the unchanged-iff property survives a match |
| References.RenderAt | renderer/modules/recipe-references.js:44-53 | at a match, output and input both split at the match's end |
| References.RenderPlain | renderer/modules/recipe-references.js:44 | where no match starts the character is copied |
| References.DetectHead | renderer/modules/recipe-references.js:14-21 | at a match, the first reported match is it and the rest come from after it |
| References.Render | renderer/modules/recipe-references.js:30-54 | empty text renders empty; the text comes back unchanged exactly when no match's trimmed name finds a recipe |
| References.RenderResolved | renderer/modules/recipe-references.js:30-54 | in `a + "@" + n + b`, with no match in `a` and `n` a whole name that finds a recipe, rendering copies `a`, turns `@n` into the link with that recipe's id and `n` as written, and renders `b` on its own |
| References.ResolvedReplacement | renderer/modules/recipe-references.js:47-52 | a name that finds a recipe is replaced by the link with its id |
| References.ReplaceAfterPrefix | renderer/modules/recipe-references.js:44-53 | `replace` on "text without matches, `@n` taken whole, rest" copies the text, puts the callback's value for `n`, then replaces in the rest on its own |
| References.ReplaceFirstMatch | renderer/modules/recipe-references.js:44-53 | up to the first match the text is copied, then the callback's value for its name, then the replacement of what follows |
| References.MatchAfterPrefix | renderer/modules/recipe-references.js:11 | after any prefix, `@` and a run of name characters not continued starts a match capturing exactly that run |
| References.ReplaceShift | renderer/modules/recipe-references.js:44-53 | matches depend only on the text from where they start: replacing from inside a suffix is replacing in the suffix alone |
| References.NameEndRun | renderer/modules/recipe-references.js:11 | the greedy name run holds only name characters and is not followed by one |
| References.ReplaceSkips | renderer/modules/recipe-references.js:44 | text in which no match starts is copied unchanged |
| References.GreedyTextScan | renderer/modules/recipe-references.js:11 | in "See @Tomato Soup for base" the only `@` is at 4 and everything after it is name characters |
| References.ExampleGreedyDetect | renderer/modules/recipe-references.js:10-23 | "See @Tomato Soup for base" gives one match whose name runs to the end of the text |
| References.GreedyNameUnresolved | renderer/modules/recipe-references.js:47-65 | that greedy name does not find the recipe titled "Tomato Soup" |
| References.ExampleGreedyName | renderer/modules/recipe-references.js:30-54 | so that text renders unchanged even though a recipe "Tomato Soup" exists |
| References.Prefix | renderer/modules/recipe-references.js:169 | `substring(0, n)` is a prefix of length `n`, clamped to the text |
| References.PlainTrigger | renderer/modules/recipe-references.js:167-186 | an opened list's `@` is the last one before the caret, at the start or after white space, and the query is what follows it |
| References.RichIsPlain | renderer/modules/recipe-references.js:128-147 | the rich-text rule with its no-break-space test opens exactly where the plain rule does, with the same query |
| References.ExampleEmail | renderer/modules/recipe-references.js:180-183 | "user@example" does not open the list |
| References.TriggerAfterSpace | renderer/modules/recipe-references.js:167-186 | an `@` at the start or after white space with no later `@` opens the list with the text typed since |
| References.Candidates | renderer/modules/recipe-references.js:188-191 | the candidates are the first (at most five) recipes whose lower-cased title contains the lower-cased query, in order |
| References.EmptyQueryOffersFirst | renderer/modules/recipe-references.js:188-191 | an empty query offers the first five recipes |
| References.SpliceTitle | renderer/modules/recipe-references.js:280-296 | the new value keeps the text before the `@` and after the caret, holds "@title " between, and the caret lands after the space |
| References.SpliceRetriggers | renderer/modules/recipe-references.js:167-186 | after inserting a title without `@`, reading the trigger before the inserted space gives the same `@` with the title as query (with lines 280-296) |
| References.OpenAfterSpace | renderer/modules/recipe-references.js:171-185 | an open list's `@` lies before the caret, at the start or after white space |
| References.SpliceAfterSpace | renderer/modules/recipe-references.js:280-296 | the re-trigger property for an `@` at the start or after white space |
| References.SplicePrefix | renderer/modules/recipe-references.js:289 | up to the inserted space the new value is the text before the `@`, the `@` and the title |
| Autocomplete.Down | renderer/modules/recipe-references.js:308-312 | `ArrowDown` moves the highlight one on, modulo the number of items |
| Autocomplete.Up | renderer/modules/recipe-references.js:313-317 | `ArrowUp` moves it one back modulo the count, from none to the last item |
| Autocomplete.UpUndoesDown | renderer/modules/recipe-references.js:308-317 | from a highlighted item the two arrows undo each other |
| Autocomplete.Downs | renderer/modules/recipe-references.js:308-312 | repeated `ArrowDown` keeps the highlight inside the list, and from a highlighted item `k` presses move it `k` items on modulo the count |
| Autocomplete.DownsIs | renderer/modules/recipe-references.js:308-312 | `k` presses, `k` up to the count, move `k` items on, wrapping once |
| Autocomplete.DownsRoundTrip | renderer/modules/recipe-references.js:308-312 | as many presses as items come back to the same item |
| Autocomplete.Close | renderer/modules/recipe-references.js:335-339 | closing hides the list and clears the highlight, the items staying |
| Autocomplete.Navigate | renderer/modules/recipe-references.js:308-325 | `ArrowDown` moves the highlight one on modulo the count, `ArrowUp` one back with none or the first going to the last, both keeping the list's visibility; `Escape` closes; other keys change nothing; the highlight stays valid |
| Autocomplete.ReferenceShow | renderer/modules/recipe-references.js:188-227 | the list shows the candidates' titles with no highlight, or is closed when there is none |
| Autocomplete.ReferenceKeyAsWritten | renderer/modules/recipe-references.js:301-326 | keys are ignored while the list is hidden or empty, and no key ever selects a title |
| Autocomplete.ReferenceKey | renderer/modules/recipe-references.js:206-209 | `Enter` selects the highlighted title exactly when the list is shown and an item is highlighted, then closes it (with lines 298, 318-322) |
| Autocomplete.ReferenceKeyOnlyFixesEnter | renderer/modules/recipe-references.js:301-326 | the corrected handler agrees with the written one on every other key |
| Autocomplete.EnterSelectsNothingAsWritten | renderer/modules/recipe-references.js:206 | `ArrowDown` then `Enter` on one suggestion leaves the list open and selects nothing (with line 321) |
| Autocomplete.DownEnterPicksFirst | renderer/modules/recipe-references.js:188-227 | with the fix, opening the list, `ArrowDown` and `Enter` pick the first candidate and close the list (with lines 308-322) |
| Forms.StripAt | renderer/modules/forms.js:129-133 | the cleaned title holds no '@', every other character is kept as often as before, and a title without '@' is unchanged |
| Forms.StripAtIdempotent | renderer/modules/forms.js:129-133 | cleaning a cleaned title changes nothing |
| Forms.Tags | renderer/modules/forms.js:203 | the kept labels are non-empty and trimmed, no more than the pieces |
| Forms.TagOf | renderer/modules/forms.js:203 | a piece gives no label exactly when it is blank, else its trimmed self |
| Forms.TagsAppend | renderer/modules/forms.js:203 | trimming and dropping blanks distributes over concatenation of the pieces |
| Forms.TagsCommaFree | renderer/modules/forms.js:203 | comma-free pieces give comma-free labels |
| Forms.TagsOfTrimmed | renderer/modules/forms.js:203 | pieces that trim to given non-empty labels give exactly those labels |
| Forms.SplitLabels | renderer/modules/forms.js:203 | every label read from the field is non-empty, trimmed and comma-free (with lines 406-410) |
| Forms.EditLabels | renderer/modules/forms.js:47 | a label array is joined with ", ", missing labels give "", and a non-empty label string (which has no `join`) makes the edit fail |
| Forms.LabelsRoundTrip | renderer/modules/forms.js:47 | labels shown by the edit form and saved again come back unchanged (with line 203) |
| Forms.SaveRow | renderer/modules/forms.js:158-171 | a saved row is trimmed; a quantity/name row is dropped exactly when both inputs are blank and is otherwise saved as an object; a single input is dropped exactly when blank |
| Forms.SaveRows | renderer/modules/forms.js:157-172 | the saved items are normalised, objects when all rows were quantity/name rows, no more than the rows |
| Forms.SaveSection | renderer/modules/forms.js:155-176 | a section is kept, with its title as typed, exactly when it has a title or an item left |
| Forms.SaveSections | renderer/modules/forms.js:154-176 | every saved section is normalised, and from quantity/name rows holds objects only |
| Forms.SaveSteps | renderer/modules/forms.js:181-184 | the kept steps are trimmed and non-blank, no more than the inputs |
| Forms.SaveStepSection | renderer/modules/forms.js:179-187 | a step section is kept, with its title, exactly when it has a title or a step left |
| Forms.SaveStepSections | renderer/modules/forms.js:178-188 | every saved step section is normalised |
| Forms.Submit | renderer/modules/forms.js:136-204 | a title with '@' is refused; otherwise the recipe is normalised and holds the form's title, time and rating, the labels split from the field, the saved ingredient and step sections, the edited id or the timestamp for a new recipe, and the uploaded picture or else the existing one |
| Forms.CleanTitleAccepted | renderer/modules/forms.js:129-143 | a title cleaned by the input handler is never refused |
| Forms.SplitLegacyWith | renderer/modules/forms.js:69-83 | the quantity is trimmed, and the whole line becomes the name exactly when the expression does not match (no leading quantity, or a line break after it) |
| Forms.UnitEndAt | renderer/modules/forms.js:70 | the first group ends at or after the quantity and inside the line |
| Forms.SplitAt | renderer/modules/forms.js:71-80 | both groups are trimmed, the plain split holding whenever the name is not blank |
| Forms.SplitLegacyAsWritten | renderer/modules/forms.js:69-83 | as written (no boundary after a unit) the quantity is trimmed, and the whole line is the name exactly when there is no leading quantity or a line break follows it |
| Forms.SplitLegacy | renderer/modules/forms.js:69-83 | with a boundary after a unit the quantity is trimmed, and the whole line is the name exactly when there is no leading quantity or a line break follows it |
| Forms.SplitLegacyKeepsName | renderer/modules/forms.js:69-83 | with a word boundary after the unit, quantity + a name whose first word is no unit splits into the trimmed quantity and the whole name |
| Forms.SplitLegacyAt | renderer/modules/forms.js:70-73 | a matching line with a non-blank rest splits right after the unit |
| Forms.CupcakeQuantity | renderer/modules/forms.js:70 | the quantity of "12 cupcake liners" is "12 " with no line break after it |
| Forms.NoBreakAfter | renderer/modules/forms.js:70 | a line break after the quantity can only come from the rest |
| Forms.CupFitsInCupcake | renderer/modules/forms.js:70 | without a boundary the unit "cup" is found at the start of "cupcake" |
| Forms.ExampleCupcakeAsWritten | renderer/modules/forms.js:69-83 | as written "12 cupcake liners" opens as quantity "12 cup" and name "cake liners" |
| Forms.CupcakeIsNoUnit | renderer/modules/forms.js:70 | "cupcake" is not a unit |
| Forms.ExampleCupcake | renderer/modules/forms.js:69-83 | with the boundary "12 cupcake liners" opens as "12" and "cupcake liners" |
| Forms.NoUnitInCupcake | renderer/modules/forms.js:70 | with the boundary no unit is found there |
| Forms.ShowItem | renderer/modules/forms.js:62-84 | an object item shows its own two fields; a text line is split as written, its quantity trimmed, and the whole line becomes the name exactly when it has no leading quantity or a line break follows the quantity |
| Forms.ShowItems | renderer/modules/forms.js:58-95 | each item becomes one row, in order |
| Forms.ShowSections | renderer/modules/forms.js:51-97 | each section becomes one form section |
| Forms.ShowStepSections | renderer/modules/forms.js:100-120 | each step section becomes one form section |
| Forms.EditForm | renderer/modules/forms.js:33-127 | the form fails exactly for a non-empty label string, and otherwise carries the recipe's id, title, time, rating and picture, its labels joined for editing, and one form section per ingredient and step section |
| Forms.SaveShowItems | renderer/modules/forms.js:58-95 | normalised object items shown and saved again come back unchanged (with lines 157-172) |
| Forms.SaveShowSections | renderer/modules/forms.js:51-97 | normalised sections shown and saved again come back unchanged (with lines 154-176) |
| Forms.SaveShowSteps | renderer/modules/forms.js:109-118 | normalised steps saved again come back unchanged (with lines 181-184) |
| Forms.SaveShowStepSections | renderer/modules/forms.js:100-120 | normalised step sections shown and saved again come back unchanged (with lines 178-188) |
| Forms.EditSaveRoundTrip | renderer/modules/forms.js:33-204 | opening a normalised saved recipe and saving it without change gives the same recipe |
| Forms.SaveIsStable | renderer/modules/forms.js:33-204 | a recipe saved from quantity/name rows, opened and saved again at any later time, stays the same |
| Forms.CurrentTag | renderer/modules/forms.js:413-417 | the tag being typed is trimmed and holds no comma |
| Forms.TagSuggestions | renderer/modules/forms.js:395-430 | a label is suggested exactly when it is a catalogue tag that contains the typed fragment, the fragment is non-empty and the label is not entered yet; suggestions keep the sorted order |
| Forms.SelectTag | renderer/modules/forms.js:460-473 | the new value ends with ", " after the tag |
| Forms.SplitLabelsOne | renderer/modules/forms.js:406-410 | a comma-free value reads as its trimmed self or nothing |
| Forms.SplitLabelsAround | renderer/modules/forms.js:406-410 | labels on the two sides of a comma are read independently |
| Forms.CurrentTagAfterComma | renderer/modules/forms.js:413-417 | the tag being typed is the trimmed text after the last comma |
| Forms.NoFragmentNoSuggestion | renderer/modules/forms.js:426-430 | with nothing being typed nothing is suggested |
| Forms.SplitLabelsTrailingComma | renderer/modules/forms.js:406-410 | a trailing comma adds no label |
| Forms.SelectTagShape | renderer/modules/forms.js:460-471 | the tag replaces the whole value when there is no comma, else everything after the last comma, followed by ", " |
| Forms.SelectTagClearsFragment | renderer/modules/forms.js:413-417 | after a selection nothing is being typed (with lines 460-473) |
| Forms.SelectTagLabels | renderer/modules/forms.js:406-410 | a selection keeps the labels before the last comma and adds the tag (with lines 460-473) |
| Forms.SelectTagReplacesFragment | renderer/modules/forms.js:406-476 | a selection keeps the earlier labels, adds the tag, leaves nothing being typed and so offers no suggestion |
| Forms.TagPress | renderer/modules/forms.js:497-521 | a key press keeps the dropdown valid and its items unchanged |
| Forms.ExampleDoubleInsertAsWritten | renderer/modules/forms.js:460-476 | as written "pas", `ArrowDown`, `Enter` gives "pasta, " and a second `Enter` gives "pasta, pasta, " (with lines 497-521) |
| Forms.ExampleSingleInsert | renderer/modules/forms.js:460-476 | with hidden lists ignored the second `Enter` changes nothing (with lines 497-521) |
| Autocomplete.TagShow | renderer/modules/forms.js:432-456 | the tag list holds the suggestions with no highlight and is shown exactly when there is one |
| Autocomplete.TagKeyAsWritten | renderer/modules/forms.js:497-521 | `Enter` selects the highlighted tag whenever items exist, hidden or not, and only hides the list (with line 474) |
| Autocomplete.TagKey | renderer/modules/forms.js:497-521 | with hidden lists ignored, `Enter` selects exactly when the list is shown and an item highlighted |
| Autocomplete.SecondEnterSelectsAgainAsWritten | renderer/modules/forms.js:474 | as written a second `Enter` selects the same tag again from the hidden list (with lines 512-516) |
| Autocomplete.SecondEnterSelectsNothing | renderer/modules/forms.js:497-521 | with hidden lists ignored a second `Enter` selects nothing |
| Forms.BlankLabels | renderer/modules/forms.js:203 | a blank field gives no labels |
| Forms.LabelAlone | renderer/modules/forms.js:203 | a field holding one normal label, with or without a leading space, gives that label |
| MapView.RecipeTags | renderer/mapController.js:261-263 | array labels are the tags as they are, a label string is split at its commas with each piece trimmed, and absent labels give no tag |
| MapView.LabelStringRoundTrip | renderer/mapController.js:263 | labels written as one ", "-joined string are read back as the same tags |
| MapView.Hits | renderer/mapController.js:264-279 | a country is hit exactly when the map has it and some tag resolves to it, at most once per tag |
| MapView.Contribution | renderer/mapController.js:258-285 | a recipe adds exactly the map's countries some tag resolves to, adds nothing exactly when it is unplaced, and adds each country once when counting per recipe |
| MapView.AllContributionsMembers | renderer/mapController.js:258-285 | a country is counted exactly when the map has it and some recipe has a tag for it |
| MapView.SomeTagForLast | renderer/mapController.js:258 | a tag for a country among the recipes is among all but the last or in the last |
| MapView.Unplaced | renderer/mapController.js:315-328 | the "other" list holds exactly the recipes no country on the map takes, in catalogue order |
| MapView.PlacedRecipes | renderer/mapController.js:264-284 | the placed recipes are exactly those with a tag resolving to a country on the map, in catalogue order |
| MapView.PlacedPlusOther | renderer/mapController.js:258-285 | placed recipes and `otherCount` add up to the number of recipes |
| MapView.Tagged | renderer/mapController.js:330-337 | a country's list holds exactly the recipes with a tag resolving to it, in catalogue order |
| MapView.ShowCountryRecipes | renderer/mapController.js:311-343 | "other" lists the unplaced recipes; any other id lists every recipe with a tag resolving to it, whether or not the map has the country |
| MapView.AddHits | renderer/mapController.js:270 | each hit adds one to its country's count, starting from zero |
| MapView.AddHitsCounted | renderer/mapController.js:258-285 | counting further hits extends the earlier counts |
| MapView.Tally | renderer/mapController.js:255-285 | the counted countries are exactly those on the map some recipe has a tag for, each count is its number of hits, and `otherCount` is the length of the "other" list |
| MapView.PrefixStep | renderer/mapController.js:258-285 | one more recipe appends its hits and adds one to `otherCount` exactly when it is unplaced |
| MapView.OtherIndicator | renderer/mapController.js:300-308 | the "other" indicator is lit exactly when some recipe is unplaced |
| MapView.CountIsListLength | renderer/mapController.js:255-298 | counting each recipe once per country, a country's count is the length of the list its click opens (with lines 330-337) |
| MapView.DoubleCountAsWritten | renderer/mapController.js:264-271 | as written a recipe with two tags for one country counts two on it while its list holds it once (with lines 330-337) |
| MapView.ExampleDoubleCount | renderer/mapController.js:264-271 | with the real table, " France " and "france" count two on France while its list holds one recipe (with lines 330-337) |
| MapView.UpdateMapData | renderer/mapController.js:243-298 | as written, the map lights exactly the countries on it that some recipe has a tag for, each showing the number of tags, over all recipes, resolving to it, and `otherCount` is the length of the "other" list |
| MapView.UpdateMapDataPerRecipe | renderer/mapController.js:243-298 | corrected, each recipe counting once per country over the corrected country table: the same countries light up, each showing the length of the list a click on it opens (with lines 330-337) |
| MapView.HitsAreTags | renderer/mapController.js:264-271 | a country on the map is hit once per tag that resolves to it |
| MapView.CountIsTagCount | renderer/mapController.js:258-285 | counting per tag, a country's count is the number of tags, over all recipes, resolving to it |
| MapView.TagsForPositive | renderer/mapController.js:264-271 | a recipe has a tag for a country exactly when at least one of its tags resolves to it |
| MapView.CountAtLeastListLength | renderer/mapController.js:255-285 | the count shown on a country is never below the length of its list (with lines 330-337) |
| MapView.Tooltip | renderer/mapController.js:219-221 | the tooltip starts with the title (or the id) and ": ", and ends in 's' exactly when the count is above one |
| MapView.TitleFor | renderer/mapController.js:410-411 | the heading ends in "Recipes", starts with the adjective when there is one, and is "Recipes" alone exactly when there is none |
| MapView.ListTitle | renderer/mapController.js:404-411 | an unknown id is headed "Recipes", and every heading ends in "Recipes" |
| MapView.ExampleListTitleOther | renderer/mapController.js:410-411 | the "other" list is headed "Global / Other Recipes" |
| MapView.ExampleListTitleUs | renderer/mapController.js:410-411 | the American list is headed "American Recipes" |
| MapView.TitleGlobal | renderer/mapController.js:410-411 | the "other" list is headed "Global / Other Recipes" |
| MapView.TitleAmerican | renderer/mapController.js:410-411 | the adjective "American" gives the heading "American Recipes" |
| Store.FindIndex | main.js:156 | the first position holding the id, with no earlier one, and -1 exactly when no recipe has it |
| Store.Save | main.js:154-178 | an existing id is replaced in place with every other recipe kept; a new id is appended after the unchanged list |
| Store.SaveThenFind | main.js:154-178 | after a save, looking the id up finds the saved recipe |
| Store.FindIndexIs | main.js:156 | the first position holding the id is the one `findIndex` returns |
| Store.SaveIdempotent | main.js:154-178 | saving the same recipe twice is saving it once |
| Store.SaveKeepsIdsDistinct | main.js:154-178 | a list with distinct ids keeps them distinct after a save |
| Store.Delete | main.js:195 | no recipe with the id is left, every other recipe stays, in order |
| Store.DeleteAbsent | main.js:195 | deleting an id that is not there changes nothing |
| Store.DeleteIdempotent | main.js:180-198 | deleting twice is deleting once |
| Store.DeleteUndoesAdd | main.js:154-198 | deleting a recipe just added with a new id gives back the list before |
| Store.DeleteAppended | main.js:174-195 | deleting the id of a recipe appended last, absent before, gives back the list before it |
| Store.ReplacedImage | main.js:158-171 | the old picture of the first recipe with the id is removed exactly when it and the new picture are both non-empty and differ; nothing is removed for a new recipe or an empty new picture |
| Store.KeptImageNotRemoved | main.js:162 | saving with the same picture or with none removes no picture |
| Store.DeletedImage | main.js:182-193 | the first recipe with the id has its picture removed whenever it has one; any picture removed is a non-empty picture of a recipe with the id, and none when the id is absent |
| Store.SaveImage | main.js:200-211 | no data gives nothing; otherwise the path is "images/", the decimal timestamp, '_' and the file name |
| Store.AfterFirst | main.js:207 | the text after the first occurrence of a character, nothing exactly when it does not occur |
| Store.AfterFirstIs | main.js:207 | the text after the first separator of "p + separator + q", when p has none, is q |
| Store.SaveImageRoundTrip | main.js:207-210 | the file name is what follows the first '_' of the returned path |
| Countries.FindKey | renderer/countryData.js:218 | the position of the first entry with the key, none exactly when no entry has it |
| Countries.Get | renderer/countryData.js:218 | `o[k]` is undefined exactly when no entry has the key |
| Countries.Put | renderer/countryData.js:4-213 | assigning keeps an existing key's position and adds a new key last |
| Countries.LastValue | renderer/countryData.js:4-213 | the reference reading: a key is present exactly when some entry has it, and its code is that of one of its entries |
| Countries.FindKeyByKeys | renderer/countryData.js:218 | finding a key depends only on the keys |
| Countries.PutGet | renderer/countryData.js:4-213 | after `o[k2] = v`, `o[k2]` is `v` and every other key is unchanged |
| Countries.FindKeyPrefix | renderer/countryData.js:218 | a key is found in the first part when there, else in the second, shifted |
| Countries.ObjectKeys | renderer/countryData.js:4-213 | the object's keys are the literal's distinct keys in first-occurrence order (with line 230) |
| Countries.ObjectGet | renderer/countryData.js:4-213 | a key's value in the object is the code of its last entry in the literal (with line 218) |
| Countries.ObjectEntry | renderer/countryData.js:230 | every object entry holds the code of the literal's last entry for its key |
| Countries.ObjectHasKey | renderer/countryData.js:4-213 | the object has a key exactly when the literal has one |
| Countries.CountryIdIn | renderer/countryData.js:215-219 | an empty tag gives nothing, and a code given is non-empty and one of the table's codes |
| Countries.LookupIsLastEntry | renderer/countryData.js:215-219 | a lookup reads the last entry for the trimmed, lower-cased tag, an empty code counting as none |
| Countries.LookupIgnoresCaseAndPadding | renderer/countryData.js:217 | tags equal after trimming and lower-casing get the same code |
| Countries.KeyWithUpperCaseUnreachable | renderer/countryData.js:217-218 | a key with a character lower-casing changes is never the key a lookup reads |
| Countries.AllCodesIn | renderer/countryData.js:221-223 | the code list has no duplicates |
| Countries.AllCodesAreLastValues | renderer/countryData.js:221-223 | a code is listed exactly when some key finally maps to it |
| Countries.Score | renderer/countryData.js:237-243 | the score is the key's length, plus 100 with an adjective suffix, minus 50 for a multi-word key without one |
| Countries.BestIndex | renderer/countryData.js:246 | the position of the first key of maximal score |
| Countries.BestIndexUnique | renderer/countryData.js:246 | a maximal-score position with only lower scores before it is the one `BestIndex` finds |
| Countries.InsertByScore | renderer/countryData.js:246 | one stable insertion step adds the key and keeps the others |
| Countries.SortByScore | renderer/countryData.js:246 | the sort by descending score is a permutation |
| Countries.SortHead | renderer/countryData.js:246 | the head of the stable sort is the first key of maximal score |
| Countries.KeysWithCode | renderer/countryData.js:230 | the candidates are exactly the keys of the entries with that code |
| Countries.CandidateKeys | renderer/countryData.js:230 | a key is a candidate exactly when its last entry has the code |
| Countries.CapitalizeFirst | renderer/countryData.js:248 | the first character is upper-cased and the rest kept |
| Countries.MapCapitalize | renderer/countryData.js:248 | each word is capitalised, in order |
| Countries.CapitalizeAfterSpaces | renderer/countryData.js:248 | the reference: the first character and each one after a space are upper-cased, nothing else changes |
| Countries.CapitalizeAfterSpacesJoin | renderer/countryData.js:248 | the reference distributes over a space |
| Countries.CapitalizeJoin | renderer/countryData.js:248 | capitalising space-free words and joining them agrees with the reference on the join |
| Countries.CapitalizeWord | renderer/countryData.js:248 | on one word both readings agree |
| Countries.CapitalizeWordsCharwise | renderer/countryData.js:248 | split, capitalise and join upper-cases exactly the first character and those after a space |
| Countries.AdjectiveIn | renderer/countryData.js:225-227 | a falsy id gives nothing and "other" gives "Global / Other" |
| Countries.BestKeyUnique | renderer/countryData.js:246 | at most one key is the best key for a code |
| Countries.AdjectivePick | renderer/countryData.js:225-252 | with no key for the id, the id itself; otherwise the best key (highest score, first in the object among equals) capitalised word by word |
| Countries.BestIsBestKey | renderer/countryData.js:237-246 | the key at the best position of the candidates is the best key |
| Countries.EarlierCandidate | renderer/countryData.js:230 | a candidate first occurring earlier in the literal is listed earlier |
| Countries.CandidatesInOrder | renderer/countryData.js:230 | in an object the candidates keep the order of the entries |
| Countries.LastValueSkip | renderer/countryData.js:4-213 | entries for other keys after the last one do not change its code |
| Countries.LastValueSuffix | renderer/countryData.js:4-213 | a key present in a later part takes its code from there |
| Countries.LastValueAt | renderer/countryData.js:4-213 | the entry with no later entry for its key gives its code |
| Countries.OnlyEntry | renderer/countryData.js:4-213 | a key found in neither part around one entry has that entry's code if it is the entry's key, and none otherwise |
| Countries.LastValueRekey | renderer/countryData.js:4-213 | when one entry's key is changed, every key other than the old and the new one keeps its code |
| Countries.FinalCodeRekey | renderer/countryData.js:4-213 | when neither key occurs elsewhere, a key maps to any code other than the entry's after re-keying exactly when it did before |
| Countries.BestKeyRekey | renderer/countryData.js:237-246 | re-keying an entry does not change the best key of any other code |
| Countries.AdjectiveRekey | renderer/countryData.js:225-252 | re-keying an entry changes no adjective except that of its own code |
| Countries.AllCodesRekey | renderer/countryData.js:221-223 | re-keying an entry leaves the listed codes as they were |
| Countries.LookupRekey | renderer/countryData.js:215-219 | a tag that reads neither key resolves alike before and after re-keying |
| Countries.LookupOldMisses | renderer/countryData.js:215-219 | before re-keying, a tag that reads only the new key finds nothing |
| CountryTable.Africa3GuineaBissau | renderer/countryData.js:185 | the table's one GW entry is keyed `guinea-Bissau`, with an upper-case B |
| CountryTable.Americas2Dominican | renderer/countryData.js:129-139 | `dominican` is listed twice, first with DO and last with DM |
| CountryTable.MappingFrance | renderer/countryData.js:8 | in the whole table `france` finally maps to FR |
| CountryTable.MappingBritish | renderer/countryData.js:11 | in the whole table `british` finally maps to GB |
| CountryTable.MappingAmerican | renderer/countryData.js:103 | in the whole table `american` finally maps to US |
| CountryTable.MappingDominican | renderer/countryData.js:129-139 | the later entry wins: `dominican` maps to DM, `dominican republic` to DO |
| CountryTable.GbEntries | renderer/countryData.js:11 | every GB entry of the table is one of the six keys of that line |
| CountryTable.UsEntries | renderer/countryData.js:103 | every US entry of the table is one of the five keys of that line |
| CountryTable.DoEntries | renderer/countryData.js:129 | every DO entry of the table is `dominican republic` or `dominican` |
| CountryTable.GwEntriesAsWritten | renderer/countryData.js:185 | as written, the only GW entry is keyed `guinea-Bissau` |
| CountryTable.GuineaBissauLast | renderer/countryData.js:185 | that entry is the last for its key, as written and corrected |
| CountryTable.GetCountryIdFromTag | renderer/countryData.js:215-219 | over the table as written: an empty tag gives null; a code returned is non-empty and one of the table's codes |
| CountryTable.GetCountryIdFromTagCorrected | renderer/countryData.js:215-219 | the same over the table with line 185's key in lower case |
| CountryTable.LookupAsWritten | renderer/countryData.js:185-219 | the written table resolves every tag as the corrected one does, except that a tag reading `guinea-bissau` finds nothing |
| CountryTable.MappingsSplice | renderer/countryData.js:185 | the written and the corrected table differ only in the key of line 185's entry |
| CountryTable.MappingsRekeyable | renderer/countryData.js:185 | neither spelling of that key occurs anywhere else in the table |
| CountryTable.GetAllCountries | renderer/countryData.js:221-223 | the list of codes has no duplicates |
| CountryTable.GetAllCountriesCorrected | renderer/countryData.js:221-223 | the corrected list has no duplicates either |
| CountryTable.AllCountriesAsWritten | renderer/countryData.js:221-223 | both tables list the same codes (with line 185) |
| CountryTable.GetAdjectiveFromId | renderer/countryData.js:225-227 | null exactly for an empty id; "other" gives "Global / Other" |
| CountryTable.GetAdjectiveFromIdCorrected | renderer/countryData.js:225-227 | the same over the corrected table |
| CountryTable.AdjectiveAsWritten | renderer/countryData.js:225-252 | every id but GW reads the same adjective over either table (with line 185) |
| CountryTable.ExampleFrance | renderer/countryData.js:8 | " France " and "france" both give FR (with lines 215-219) |
| CountryTable.FranceCorrected | renderer/countryData.js:8 | the same over the corrected table (with lines 215-219) |
| CountryTable.ExampleDominican | renderer/countryData.js:129 | "Dominican" gives DM and "Dominican Republic" DO (with lines 139, 215-219) |
| CountryTable.DominicanCorrected | renderer/countryData.js:129 | the same over the corrected table (with lines 139, 215-219) |
| CountryTable.DoOnlyViaDominicanRepublic | renderer/countryData.js:129 | a tag gives DO exactly when it reads `dominican republic` after trimming and lower-casing (with lines 139, 215-219) |
| CountryTable.DoOnlyViaDominicanRepublicCorrected | renderer/countryData.js:129 | the same over the corrected table (with lines 139, 215-219) |
| CountryTable.GuineaBissauUnreachable | renderer/countryData.js:185-218 | as written, no tag gives GW |
| CountryTable.GuineaBissauAsWritten | renderer/countryData.js:185-219 | as written, "Guinea-Bissau" finds no code |
| CountryTable.NoTagReadsGuineaBissau | renderer/countryData.js:217 | a trimmed, lower-cased tag is never `guinea-Bissau` |
| CountryTable.GwOnlyFromUpperKey | renderer/countryData.js:185 | as written, only the key `guinea-Bissau` maps to GW |
| CountryTable.GuineaBissauListed | renderer/countryData.js:185-223 | as written, GW is still among the listed codes |
| CountryTable.ExampleGuineaBissau | renderer/countryData.js:185-219 | with the key lower-cased, "Guinea-Bissau" gives GW |
| CountryTable.GwOnlyFromLowerKey | renderer/countryData.js:185 | in the corrected table only the key `guinea-bissau` maps to GW |
| CountryTable.GbKeyScores | renderer/countryData.js:11 | among the GB keys, only `british` and `english` reach the top score 107 (with lines 237-244) |
| CountryTable.UsKeyScores | renderer/countryData.js:103 | among the US keys, only `american` reaches the top score 108 (with lines 237-244) |
| CountryTable.BritishBeforeEnglish | renderer/countryData.js:11 | `british` comes before `english` in the object |
| CountryTable.GbBest | renderer/countryData.js:11 | `british` is the best key for GB (with lines 237-246) |
| CountryTable.UsBest | renderer/countryData.js:103 | `american` is the best key for US (with lines 237-246) |
| CountryTable.ExampleAdjectiveGb | renderer/countryData.js:225-252 | GB reads "British" |
| CountryTable.ExampleAdjectiveUs | renderer/countryData.js:225-252 | US reads "American" |
| CountryTable.AdjectiveGbCorrected | renderer/countryData.js:225-252 | over the corrected table GB still reads "British" |
| CountryTable.AdjectiveUsCorrected | renderer/countryData.js:225-252 | over the corrected table US still reads "American" |
| CountryTable.GbScoreBound | renderer/countryData.js:237-244 | every key finally mapping to GB scores at most 107, and only `british` and `english` reach it (with line 11) |
| CountryTable.UsScoreBound | renderer/countryData.js:237-244 | every key finally mapping to US scores at most 108, and only `american` reaches it (with line 103) |
| CountryTable.GwBestAsWritten | renderer/countryData.js:185 | as written, `guinea-Bissau` is the best key for GW (with lines 237-246) |
| CountryTable.GwBest | renderer/countryData.js:185 | corrected, `guinea-bissau` is the best key for GW (with lines 237-246) |
| CountryTable.CapitalizedGuineaBissau | renderer/countryData.js:248 | word-by-word capitalisation gives "Guinea-Bissau" for the written key and "Guinea-bissau" for the lower-case one: a hyphen does not start a word |
| CountryTable.ExampleAdjectiveGw | renderer/countryData.js:225-252 | as written GW reads "Guinea-Bissau" (with line 185) |
| CountryTable.ExampleAdjectiveGwCorrected | renderer/countryData.js:225-252 | with the key lower-cased GW reads "Guinea-bissau" (with line 185) |

## Left out

- DOM and event wiring are not modelled: element creation, `innerHTML`, dropdown positioning, listeners, modals, and click-outside handlers. Key presses and the list contents are modelled; rendering is not.
- HTML escaping is not modelled. The source escapes nothing, so row and link templates are modelled only as text.
- Rich-text caret resolution over DOM nodes and ranges is not modelled. The rich-text trigger rule is modelled on the text before the caret (`References.RichIsPlain`), and the splice on a single text buffer.
- The filter dropdown's type-ahead buffer is not modelled, because it is driven by an 800 ms timer.
- Star rendering is not modelled. A rating is a whole number of half-stars, with an absent rating as 0. `parseFloat` of a rating string is not modelled.
- Map zoom, pan, tooltip placement, and fetching and loading the SVG are not modelled.
- In the "other" indicator, the guard for an SVG element with id "other" is not modelled; only the lit/unlit decision is.
- Unicode is only partly modelled. Lower-casing, `\s`, `\p{L}` and `\p{N}` cover ASCII and Latin-1. Locale collation and full Unicode case mapping are not modelled.
- Sorting is modelled as a comparison of strings character by character, by Unicode code point. `loadRecipes`' `localeCompare` sort is not modelled; the catalogue order is taken as given.
- Seqs.StrLess: `sort()` compares UTF-16 code units, not code points. The two orders differ only for characters outside the Basic Multilingual Plane: JavaScript sorts "\u{1F600}" before "\u{FFFD}", because its first code unit is a surrogate below U+FFFD, while the model sorts it after. The surrogate encoding is not modelled.
- Prototype keys are not modelled. `countryMapping["constructor"]` and similar tags hit `Object.prototype` in JavaScript; the model's table has only its own keys.
- The key 'tÃ¼rkiye' (line 67 of renderer/countryData.js) is stored double-encoded and holds an upper-case letter. So, like 'guinea-Bissau', no lookup can reach it. It is transcribed as written but not reported as a finding, because TR is still reached through 'turkey' and 'turkish'.
- Falsy ids other than the empty string are not modelled. `null`, `undefined` and `0` are out of the model's string type.
- Other recipe fields are not modelled: description, yield, notes, servings and timestamps other than the id.
- The file system and IPC of main.js are not modelled. Reading and writing `recipes.json`, `existsSync`, `unlinkSync`, `mkdirSync` and the dialog are left out. The handlers are functions from the list read to the list written; the picture to delete is returned.
- Store.DeletedImage: `delete-recipe` removes only the first matching recipe's picture, even though it removes every recipe with the id. The model states that choice but does not model the file removal itself, nor `existsSync` or a failing `unlinkSync`.
- `dataset.existingImage` is not modelled as text. The string "undefined" it holds after editing a recipe without a picture is not modelled; a missing picture is "".
- `Date.now()` is a parameter (`now`), both for new ids and for stored picture names.
- A failing write in `save-image` is not modelled. `writeFileSync` (main.js:209) is not caught, so the handler's promise rejects, the `await` at renderer/modules/forms.js:151 throws and the submit stops before `saveRecipe`. Only the missing buffer, which returns null, is modelled.
- Console logging and error reporting are not modelled.
- Lookups over the full 414-entry country table are proved by assembling facts about its twelve constants. Concrete examples over the whole table cover only the keys they name: 'france', 'british', 'american', 'dominican', 'dominican republic' and 'guinea-bissau'.
- Duration.ParseDuration: JavaScript's `parseInt` returns a double, and `minutes` is a sum of doubles (renderer/modules/utils.js:10, 15 and 21). A digit run above 2^53 is rounded there, and so is a total above 2^53; the model reads every digit run exactly as an unbounded `nat` (`Text.DigitsValue`). Its results agree with the source only while every amount, the hours times 60 and the total stay at or below 2^53.
- Text.DigitsValue: the value of a digit string is exact and unbounded, where `parseInt` rounds above 2^53.
- Duration.ParseDuration: its own contract states only the empty case. Its reading of hours and minutes is stated by `Duration.TwoAmounts`, `Duration.OneAmount`, `Duration.SingleUnit`, `Duration.HoursAndMinutesInEitherOrder`, `Duration.BareNumberIsMinutes` and `Duration.UnreadableIsZero`.
- Forms.SelectTag: its own contract states only that the value ends with the tag and ", ". The full splice is stated by `Forms.SelectTagShape` and `Forms.SelectTagReplacesFragment`.
- References.Link: its own contract states only the length. The link's contents are stated by `References.LinkReadBack` and `References.ParseLink`, and where it appears in the rendered text by `References.RenderResolved`.

## Findings

| source | as written | input that shows it | evidently intended | confidence | as-written member | corrected member |
|---|---|---|---|---|---|---|
| renderer/countryData.js:185 | the key `'guinea-Bissau'` has an upper-case B, but lookups lower-case the tag | any tag, e.g. "Guinea-Bissau": no tag reaches GW, although `getAllCountries` lists GW | the key `'guinea-bissau'`, like every other key | high, not executed | CountryTable.GuineaBissauUnreachable | CountryTable.ExampleGuineaBissau |
| renderer/modules/recipe-references.js:206 | suggestion items listen for `mousedown`, and `Enter` calls `click()` on the highlighted one | a shown list with the one suggestion "Soup", `ArrowDown`, `Enter`: nothing is selected and the list stays open | `Enter` selects the highlighted suggestion | high, not executed | Autocomplete.EnterSelectsNothingAsWritten | Autocomplete.DownEnterPicksFirst |
| renderer/modules/forms.js:497-521 | the key handler ignores whether the list is shown, and `selectTag` only hides it | "pas", `ArrowDown`, `Enter`, `Enter`: the value becomes "pasta, pasta, " | a hidden list takes no keys | medium, not executed | Forms.ExampleDoubleInsertAsWritten | Forms.ExampleSingleInsert |
| renderer/mapController.js:264-271 | a country's count rises once per tag resolving to it | one recipe tagged " France " and "france": France shows 2, but its list holds 1 recipe | one per recipe, matching the list its click opens | medium, not executed | MapView.ExampleDoubleCount | MapView.UpdateMapDataPerRecipe |
| renderer/modules/forms.js:70 | the legacy split's unit group has no `\b` after it, unlike `parseIngredient` | "12 cupcake liners" opens as quantity "12 cup" and name "cake liners" | a unit only as a whole word, as in `parseIngredient` | high, not executed | Forms.ExampleCupcakeAsWritten | Forms.ExampleCupcake |

=== FILE: autocomplete.dfy ===
/** Keyboard handling of the two suggestion dropdowns: the `@` recipe-reference
    list (renderer/modules/recipe-references.js) and the tag list of the edit
    form (renderer/modules/forms.js).  Both keep a highlighted index
    `currentFocus`, -1 for none, that the arrow keys move round the items. */
module Autocomplete {
  import opened Wrappers
  import opened Recipes
  import References

  /** A dropdown: whether it is shown, the items it holds (hiding it leaves
      them in place) and the highlighted index, -1 for none. */
  datatype Menu = Menu(visible: bool, items: seq<string>, focus: int)

  /** The highlighted index is -1 or the index of an item. */
  predicate Valid(m: Menu) {
    -1 <= m.focus < |m.items|
  }

  datatype Key = ArrowDown | ArrowUp | Enter | Escape | OtherKey

  /** One key press: the dropdown afterwards and the item it selected, if any. */
  datatype Pressed = Pressed(menu: Menu, chosen: Option<string>)

  /** `ArrowDown`: one further, from the last item back to the first. */
  function Down(focus: int, n: nat): (r: int)
    requires n > 0 && -1 <= focus < n
    ensures 0 <= r < n
    ensures r == (focus + 1) % n
  {
    if focus + 1 >= n then 0 else focus + 1
  }

  /** `ArrowUp`: one back, from the first item (or none) to the last. */
  function Up(focus: int, n: nat): (r: int)
    requires n > 0 && -1 <= focus < n
    ensures 0 <= r < n
    ensures focus >= 0 ==> r == (focus - 1) % n
    ensures focus == -1 ==> r == n - 1
  {
    if focus - 1 < 0 then n - 1 else focus - 1
  }

  /** From a highlighted item, the two arrows undo each other. */
  lemma UpUndoesDown(focus: int, n: nat)
    requires n > 0 && 0 <= focus < n
    ensures Up(Down(focus, n), n) == focus
    ensures Down(Up(focus, n), n) == focus
  {
  }

  /** `k` presses of `ArrowDown`. */
  function Downs(focus: int, n: nat, k: nat): (r: int)
    requires n > 0 && -1 <= focus < n
    ensures -1 <= r < n
    ensures focus >= 0 ==> r == (focus + k) % n
    decreases k
  {
    if k == 0 then focus
    else
      ModAddOnce(k - 1, n);
      Downs(Down(focus, n), n, k - 1)
  }

  /** Going once more round the list ends on the same item. */
  lemma ModAddOnce(x: nat, n: nat)
    requires n > 0
    ensures (x + n) % n == x % n
  {
    var q, r := x / n, x % n;
    assert x + n == (q + 1) * n + r;
    ModUnique(x + n, q + 1, n, r);
  }

  /** The remainder is the only value in range that differs from the
      dividend by a multiple of the divisor. */
  lemma ModUnique(a: int, q: int, n: int, r: int)
    requires n > 0 && 0 <= r < n && a == q * n + r
    ensures a % n == r
  {
    var q2, r2 := a / n, a % n;
    var d := q - q2;
    assert d * n == r2 - r by {
      assert a == q2 * n + r2;
      assert q * n - q2 * n == (q - q2) * n;
    }
    if d > 0 {
      MulAtLeast(d, n);
    } else if d < 0 {
      MulAtLeast(-d, n);
    }
  }

  lemma {:induction false} MulAtLeast(d: nat, n: nat)
    requires d > 0
    ensures d * n >= n
    decreases d
  {
    if d > 1 {
      MulAtLeast(d - 1, n);
      assert d * n == (d - 1) * n + n;
    }
  }


  /** Pressing `ArrowDown` `k` times, for `k` up to the number of items,
      moves the highlight `k` items on, wrapping past the last item once. */
  lemma {:induction false} DownsIs(focus: int, n: nat, k: nat)
    requires n > 0 && 0 <= focus < n && k <= n
    ensures Downs(focus, n, k) == if focus + k < n then focus + k else focus + k - n
    decreases k
  {
    if k > 0 {
      DownsIs(Down(focus, n), n, k - 1);
    }
  }

  /** So going once round the list comes back to the same item. */
  lemma DownsRoundTrip(focus: int, n: nat)
    requires n > 0 && 0 <= focus < n
    ensures Downs(focus, n, n) == focus
  {
    DownsIs(focus, n, n);
  }

  /** Hiding the dropdown and clearing the highlight, as `closeAutocomplete`
      and the tag list's `Escape` do; the items stay. */
  function Close(m: Menu): (r: Menu)
    ensures !r.visible && r.focus == -1 && r.items == m.items
  {
    m.(visible := false, focus := -1)
  }

  /** The arrow keys and `Escape`, which both dropdowns handle alike once they
      handle the key at all; `Enter` and other keys change nothing here. */
  function Navigate(m: Menu, key: Key): (r: Menu)
    requires Valid(m) && |m.items| > 0
    ensures Valid(r) && r.items == m.items
    ensures key == ArrowDown ==> r.focus == (m.focus + 1) % |m.items| && r.visible == m.visible
    ensures key == ArrowUp ==>
      r.focus == (if m.focus <= 0 then |m.items| - 1 else m.focus - 1) && r.visible == m.visible
    ensures key == Escape ==> r == Close(m)
    ensures key == Enter || key == OtherKey ==> r == m
  {
    match key
    case ArrowDown => m.(focus := Down(m.focus, |m.items|))
    case ArrowUp => m.(focus := Up(m.focus, |m.items|))
    case Escape => Close(m)
    case _ => m
  }

  // ---------------------------------------------------------------------
  // The recipe-reference dropdown.

  /** `showSuggestions`: the titles of the candidate recipes, none highlighted;
      with no candidate the dropdown is closed instead, its old items left in
      place. */
  function ReferenceShow(m: Menu, recipes: seq<Recipe>, query: string): (r: Menu)
    ensures Valid(r) && r.focus == -1
    ensures var c := References.Candidates(recipes, query);
      && (r.visible <==> |c| > 0)
      && (|c| > 0 ==> |r.items| == |c| && forall i | 0 <= i < |c| :: r.items[i] == c[i].title)
      && (|c| == 0 ==> r == Close(m))
  {
    var c := References.Candidates(recipes, query);
    if |c| == 0 then Close(m)
    else Menu(true, seq(|c|, i requires 0 <= i < |c| => c[i].title), -1)
  }

  /** `handleKeydown` as written: keys are ignored while the dropdown is
      hidden or empty, and `Enter` calls `click()` on the highlighted item,
      whose only listener is for `mousedown` - so nothing is ever selected. */
  function ReferenceKeyAsWritten(m: Menu, key: Key): (r: Pressed)
    requires Valid(m)
    ensures Valid(r.menu) && r.chosen.None?
    ensures !m.visible || |m.items| == 0 ==> r.menu == m
  {
    if !m.visible || |m.items| == 0 then Pressed(m, None)
    else Pressed(Navigate(m, key), None)
  }

  /** `handleKeydown` with `Enter` selecting the highlighted title, as a
      `mousedown` on it does: `selectSuggestion` then closes the dropdown. */
  function ReferenceKey(m: Menu, key: Key): (r: Pressed)
    requires Valid(m)
    ensures Valid(r.menu)
    ensures r.chosen.Some? <==> m.visible && key == Enter && m.focus >= 0
    ensures r.chosen.Some? ==> r.chosen.value == m.items[m.focus] && r.menu == Close(m)
    ensures !m.visible || |m.items| == 0 ==> r == Pressed(m, None)
  {
    if !m.visible || |m.items| == 0 then Pressed(m, None)
    else if key == Enter && m.focus > -1 then Pressed(Close(m), Some(m.items[m.focus]))
    else Pressed(Navigate(m, key), None)
  }

  /** The two agree on every key but `Enter` with an item highlighted. */
  lemma ReferenceKeyOnlyFixesEnter(m: Menu, key: Key)
    requires Valid(m)
    requires key != Enter || m.focus == -1
    ensures ReferenceKey(m, key) == ReferenceKeyAsWritten(m, key)
  {
  }

  /** As written, highlighting the only suggestion and pressing `Enter`
      leaves the dropdown open and inserts nothing. */
  lemma EnterSelectsNothingAsWritten()
    ensures var m := Menu(true, ["Soup"], -1);
      var down := ReferenceKeyAsWritten(m, ArrowDown);
      && down.menu == Menu(true, ["Soup"], 0)
      && ReferenceKeyAsWritten(down.menu, Enter) == Pressed(Menu(true, ["Soup"], 0), None)
  {
  }

  /** With the selection on `Enter`, opening the list, pressing `ArrowDown`
      and `Enter` picks the first candidate's title and closes the list. */
  lemma DownEnterPicksFirst(m: Menu, recipes: seq<Recipe>, query: string)
    requires |References.Candidates(recipes, query)| > 0
    ensures var shown := ReferenceShow(m, recipes, query);
      var down := ReferenceKey(shown, ArrowDown);
      var enter := ReferenceKey(down.menu, Enter);
      && enter.chosen == Some(References.Candidates(recipes, query)[0].title)
      && !enter.menu.visible
  {
  }

  // ---------------------------------------------------------------------
  // The tag dropdown of the edit form.

  /** `showSuggestions` of the tag list: the items are replaced, none is
      highlighted, and the list is shown exactly when there is a suggestion. */
  function TagShow(suggestions: seq<string>): (r: Menu)
    ensures Valid(r) && r.items == suggestions && r.focus == -1
    ensures r.visible <==> |suggestions| > 0
  {
    Menu(|suggestions| > 0, suggestions, -1)
  }

  /** The tag list's `keydown` handler as written: it only checks that items
      exist, not that the list is shown, and `Enter` on a highlighted item
      runs `selectTag`, which hides the list but keeps the items and the
      highlight. */
  function TagKeyAsWritten(m: Menu, key: Key): (r: Pressed)
    requires Valid(m)
    ensures Valid(r.menu) && r.menu.items == m.items
    ensures r.chosen.Some? <==> |m.items| > 0 && key == Enter && m.focus >= 0
    ensures r.chosen.Some? ==> r.chosen.value == m.items[m.focus] && r.menu == m.(visible := false)
  {
    if |m.items| == 0 then Pressed(m, None)
    else if key == Enter && m.focus > -1 then Pressed(m.(visible := false), Some(m.items[m.focus]))
    else Pressed(Navigate(m, key), None)
  }

  /** The tag list's handler ignoring keys while the list is hidden, as the
      recipe-reference list does. */
  function TagKey(m: Menu, key: Key): (r: Pressed)
    requires Valid(m)
    ensures Valid(r.menu) && r.menu.items == m.items
    ensures r.chosen.Some? <==> m.visible && |m.items| > 0 && key == Enter && m.focus >= 0
    ensures r.chosen.Some? ==> r.chosen.value == m.items[m.focus] && !r.menu.visible
    ensures !m.visible ==> r == Pressed(m, None)
  {
    if !m.visible then Pressed(m, None) else TagKeyAsWritten(m, key)
  }

  /** As written, a second `Enter` after a selection selects the same tag
      again, although the list is no longer shown. */
  lemma SecondEnterSelectsAgainAsWritten()
    ensures var m := Menu(true, ["pasta"], 0);
      var first := TagKeyAsWritten(m, Enter);
      && first.chosen == Some("pasta")
      && !first.menu.visible
      && TagKeyAsWritten(first.menu, Enter).chosen == Some("pasta")
  {
  }

  /** With hidden lists ignored, one selection hides the list, so a second
      `Enter` selects nothing. */
  lemma SecondEnterSelectsNothing(m: Menu)
    requires Valid(m)
    requires TagKey(m, Enter).chosen.Some?
    ensures TagKey(TagKey(m, Enter).menu, Enter).chosen.None?
  {
  }
}

=== FILE: countries.dfy ===
/** The country tag table of renderer/countryData.js and the three lookups built
    on it: a recipe tag to an ISO 3166-1 alpha-2 code, the list of codes, and the
    display adjective for a code.

    The table is an object literal in which some keys repeat.  An object literal
    evaluates its entries left to right as assignments, so a repeated key keeps
    the position of its first occurrence and takes the value of its last one.
    `ObjectOf` models exactly that, and `LastValue` is the reference reading the
    lookups are proved against. */
module Countries {
  import opened Wrappers
  import opened Text
  import opened Seqs

  /** (key, code) pairs in source order; keys may repeat. */
  type Table = seq<(string, string)>

  function KeysOf(t: Table): (r: seq<string>)
    ensures |r| == |t|
    ensures forall i | 0 <= i < |t| :: r[i] == t[i].0
  {
    seq(|t|, i requires 0 <= i < |t| => t[i].0)
  }

  function CodesOf(t: Table): (r: seq<string>)
    ensures |r| == |t|
    ensures forall i | 0 <= i < |t| :: r[i] == t[i].1
  {
    seq(|t|, i requires 0 <= i < |t| => t[i].1)
  }

  /** The position of the first entry with key `k`. */
  function FindKey(o: Table, k: string): (r: Option<nat>)
    ensures r.Some? ==> r.value < |o| && o[r.value].0 == k
    ensures r.Some? ==> forall j | 0 <= j < r.value :: o[j].0 != k
    ensures r.None? <==> forall j | 0 <= j < |o| :: o[j].0 != k
  {
    if |o| == 0 then None
    else if o[0].0 == k then Some(0)
    else
      match FindKey(o[1..], k)
      case None => None
      case Some(i) => Some(i + 1)
  }

  /** `o[k]` on an object (`undefined` is `None`). */
  function Get(o: Table, k: string): (r: Option<string>)
    ensures r.None? <==> forall j | 0 <= j < |o| :: o[j].0 != k
  {
    match FindKey(o, k)
    case Some(i) => Some(o[i].1)
    case None => None
  }

  /** `o[k] = v`: an existing key keeps its position and takes the new value, a new
      key is added last. */
  function Put(o: Table, k: string, v: string): (r: Table)
    ensures KeysOf(r) == if k in KeysOf(o) then KeysOf(o) else KeysOf(o) + [k]
  {
    match FindKey(o, k)
    case Some(i) =>
      var r := o[i := (k, v)];
      assert KeysOf(r) == KeysOf(o);
      r
    case None =>
      assert k !in KeysOf(o);
      var r := o + [(k, v)];
      assert KeysOf(r) == KeysOf(o) + [k];
      r
  }

  /** The entries of `t` assigned one after the other to `o`. */
  function PutAll(o: Table, t: Table): Table {
    if |t| == 0 then o else Put(PutAll(o, t[..|t| - 1]), t[|t| - 1].0, t[|t| - 1].1)
  }

  /** The object an object literal with the entries `t` evaluates to. */
  function ObjectOf(t: Table): Table {
    PutAll([], t)
  }

  /** The reference reading of a lookup: the code of the last entry with key `k`. */
  function LastValue(t: Table, k: string): (r: Option<string>)
    ensures r.None? <==> k !in KeysOf(t)
    ensures r.Some? ==> (k, r.value) in t
  {
    if |t| == 0 then None
    else if t[|t| - 1].0 == k then Some(t[|t| - 1].1)
    else
      var r := LastValue(t[..|t| - 1], k);
      assert KeysOf(t) == KeysOf(t[..|t| - 1]) + [t[|t| - 1].0];
      assert r.Some? ==> (k, r.value) in t[..|t| - 1];
      r
  }

  /** Finding a key depends only on the keys. */
  lemma {:induction false} FindKeyByKeys(o: Table, p: Table, k: string)
    requires KeysOf(o) == KeysOf(p)
    ensures FindKey(o, k) == FindKey(p, k)
  {
    if |o| > 0 {
      assert o[0].0 == KeysOf(o)[0] == KeysOf(p)[0] == p[0].0;
      assert KeysOf(o[1..]) == KeysOf(o)[1..] == KeysOf(p)[1..] == KeysOf(p[1..]);
      FindKeyByKeys(o[1..], p[1..], k);
    }
  }

  /** After `o[k2] = v`, `o[k]` is `v` when `k` is `k2` and unchanged otherwise. */
  lemma PutGet(o: Table, k2: string, v: string, k: string)
    ensures Get(Put(o, k2, v), k) == if k == k2 then Some(v) else Get(o, k)
  {
    var r := Put(o, k2, v);
    match FindKey(o, k2)
    case Some(i) =>
      FindKeyByKeys(r, o, k);
    case None =>
      if k != k2 {
        var f := FindKey(o, k);
        assert forall j | 0 <= j < |o| :: r[j] == o[j];
        if f.None? {
          assert forall j | 0 <= j < |r| :: r[j].0 != k;
        } else {
          assert FindKey(r, k) == f by {
            FindKeyPrefix(o, [(k2, v)], k);
          }
        }
      } else {
        FindKeyPrefix(o, [(k2, v)], k);
      }
  }

  /** A key found in `o` is found at the same place in `o + p`; a key missing
      from `o` is looked for in `p`. */
  lemma {:induction false} FindKeyPrefix(o: Table, p: Table, k: string)
    ensures FindKey(o + p, k) == match FindKey(o, k)
      case Some(i) => Some(i)
      case None => match FindKey(p, k) case Some(j) => Some(|o| + j) case None => None
  {
    if |o| > 0 {
      assert (o + p)[1..] == o[1..] + p;
      FindKeyPrefix(o[1..], p, k);
    } else {
      assert o + p == p;
    }
  }

  /** The keys of the object are the distinct keys of the literal, in the order of
      their first occurrence. */
  lemma {:induction false} ObjectKeys(t: Table)
    ensures KeysOf(ObjectOf(t)) == Distinct(KeysOf(t))
  {
    if |t| > 0 {
      var init := t[..|t| - 1];
      ObjectKeys(init);
      assert KeysOf(t)[..|t| - 1] == KeysOf(init);
    }
  }

  /** Looking a key up in the object gives the code of its last entry. */
  lemma {:induction false} ObjectGet(t: Table, k: string)
    ensures Get(ObjectOf(t), k) == LastValue(t, k)
  {
    if |t| > 0 {
      var init := t[..|t| - 1];
      ObjectGet(init, k);
      PutGet(PutAll([], init), t[|t| - 1].0, t[|t| - 1].1, k);
    }
  }

  /** Every entry of the object holds the code of the last entry with its key. */
  lemma ObjectEntry(t: Table, i: nat)
    requires i < |ObjectOf(t)|
    ensures LastValue(t, ObjectOf(t)[i].0) == Some(ObjectOf(t)[i].1)
  {
    var o := ObjectOf(t);
    ObjectKeys(t);
    assert NoDuplicates(KeysOf(o));
    var f := FindKey(o, o[i].0);
    assert f.Some?;
    assert KeysOf(o)[f.value] == KeysOf(o)[i];
    assert f == Some(i);
    ObjectGet(t, o[i].0);
  }

  /** The object holds an entry for a key exactly when the literal has one. */
  lemma ObjectHasKey(t: Table, k: string)
    ensures k in KeysOf(ObjectOf(t)) <==> k in KeysOf(t)
  {
    ObjectKeys(t);
  }

  /** `getCountryIdFromTag(tag)` over a table: no code for an empty tag, otherwise
      the object's value for the trimmed, lower-cased tag (an empty value counts
      as none, as `|| null` makes it). */
  function CountryIdIn(t: Table, tag: string): (r: Option<string>)
    ensures tag == "" ==> r == None
    ensures r.Some? ==> r.value != "" && r.value in CodesOf(t)
  {
    if tag == "" then None
    else
      var key := LowerStr(Trim(tag));
      ObjectGet(t, key);
      match Get(ObjectOf(t), key)
      case Some(v) =>
        if v == "" then None
        else
          assert (key, v) in t;
          var i :| 0 <= i < |t| && t[i] == (key, v);
          assert CodesOf(t)[i] == v;
          Some(v)
      case None => None
  }

  /** A lookup reads the table's last entry for the trimmed, lower-cased tag. */
  lemma LookupIsLastEntry(t: Table, tag: string)
    requires tag != ""
    ensures CountryIdIn(t, tag) == match LastValue(t, LowerStr(Trim(tag)))
      case Some(v) => if v == "" then None else Some(v)
      case None => None
  {
    ObjectGet(t, LowerStr(Trim(tag)));
  }

  /** Two non-empty tags that agree after trimming and lower-casing get the same code. */
  lemma LookupIgnoresCaseAndPadding(t: Table, a: string, b: string)
    requires a != "" && b != ""
    requires LowerStr(Trim(a)) == LowerStr(Trim(b))
    ensures CountryIdIn(t, a) == CountryIdIn(t, b)
  {
  }

  /** A key holding a character that lower-casing changes (such as an upper-case
      letter) is never the key a lookup reads. */
  lemma KeyWithUpperCaseUnreachable(key: string, tag: string, i: nat)
    requires i < |key| && Lower(key[i]) != key[i]
    ensures LowerStr(Trim(tag)) != key
  {
    LowerStrIsLower(Trim(tag));
    LowerProperties(key[i]);
  }

  /** `[...new Set(Object.values(countryMapping))]` over a table. */
  function AllCodesIn(t: Table): (r: seq<string>)
    ensures NoDuplicates(r)
  {
    Distinct(CodesOf(ObjectOf(t)))
  }

  /** The code list holds each code that some key finally maps to, once, and
      nothing else: a code every one of whose keys is later reassigned is absent. */
  lemma AllCodesAreLastValues(t: Table, c: string)
    ensures c in AllCodesIn(t) <==> exists k :: LastValue(t, k) == Some(c)
  {
    var o := ObjectOf(t);
    if c in AllCodesIn(t) {
      var i :| 0 <= i < |o| && o[i].1 == c;
      ObjectEntry(t, i);
    }
    if k :| LastValue(t, k) == Some(c) {
      ObjectHasKey(t, k);
      var i :| 0 <= i < |o| && o[i].0 == k;
      ObjectEntry(t, i);
      assert CodesOf(o)[i] == c;
    }
  }

  /** `s.endsWith(suffix)`. */
  predicate EndsWith(s: string, suffix: string) {
    |suffix| <= |s| && s[|s| - |suffix|..] == suffix
  }

  /** The suffixes the adjective heuristic rewards, in source order. */
  const AdjectiveSuffixes: seq<string> := ["ese", "an", "ish", "ic", "i", "k", "h"]

  predicate HasAdjectiveSuffix(key: string) {
    exists i | 0 <= i < |AdjectiveSuffixes| :: EndsWith(key, AdjectiveSuffixes[i])
  }

  /** The score of a key: its length, 100 more with an adjective suffix, 50 less
      for a multi-word key without one. */
  function Score(key: string): (r: int)
    ensures HasAdjectiveSuffix(key) ==> r == |key| + 100
    ensures !HasAdjectiveSuffix(key) && ' ' in key ==> r == |key| - 50
    ensures !HasAdjectiveSuffix(key) && ' ' !in key ==> r == |key|
  {
    var bonus := if HasAdjectiveSuffix(key) then 100 else 0;
    var penalty := if ' ' in key && !HasAdjectiveSuffix(key) then 50 else 0;
    |key| + bonus - penalty
  }

  /** The position of the first key of maximal score. */
  function BestIndex(keys: seq<string>): (b: nat)
    requires |keys| > 0
    ensures b < |keys|
    ensures forall j | 0 <= j < |keys| :: Score(keys[j]) <= Score(keys[b])
    ensures forall j | 0 <= j < b :: Score(keys[j]) < Score(keys[b])
  {
    if |keys| == 1 then 0
    else
      var b := BestIndex(keys[..|keys| - 1]);
      assert forall j | 0 <= j < |keys| - 1 :: keys[j] == keys[..|keys| - 1][j];
      if Score(keys[|keys| - 1]) > Score(keys[b]) then |keys| - 1 else b
  }

  /** The two properties of `BestIndex` single it out. */
  lemma BestIndexUnique(keys: seq<string>, i: nat)
    requires i < |keys|
    requires forall j | 0 <= j < |keys| :: Score(keys[j]) <= Score(keys[i])
    requires forall j | 0 <= j < i :: Score(keys[j]) < Score(keys[i])
    ensures BestIndex(keys) == i
  {
  }

  /** One insertion step of a stable sort by descending score: `x` goes after
      every key scoring at least as much. */
  function InsertByScore(x: string, s: seq<string>): (r: seq<string>)
    ensures multiset(r) == multiset(s) + multiset{x}
    ensures |s| > 0 ==> r[0] == if Score(s[0]) < Score(x) then x else s[0]
  {
    if |s| == 0 then [x]
    else if Score(s[0]) < Score(x) then [x] + s
    else
      assert s == [s[0]] + s[1..];
      [s[0]] + InsertByScore(x, s[1..])
  }

  /** `keys.sort((a, b) => score(b) - score(a))`: a stable sort, so equal scores
      keep their order. */
  function SortByScore(keys: seq<string>): (r: seq<string>)
    ensures multiset(r) == multiset(keys)
  {
    if |keys| == 0 then []
    else
      assert keys == keys[..|keys| - 1] + [keys[|keys| - 1]];
      InsertByScore(keys[|keys| - 1], SortByScore(keys[..|keys| - 1]))
  }

  /** The head of the sorted keys is the first key of maximal score. */
  lemma {:induction false} SortHead(keys: seq<string>)
    requires |keys| > 0
    ensures SortByScore(keys)[0] == keys[BestIndex(keys)]
  {
    if |keys| > 1 {
      var init := keys[..|keys| - 1];
      SortHead(init);
      assert keys[BestIndex(init)] == init[BestIndex(init)];
    }
  }

  /** The keys of an object's entries with value `id`, in entry order. */
  function KeysWithCode(o: Table, id: string): (r: seq<string>)
    ensures forall x :: x in r <==> exists i | 0 <= i < |o| :: o[i] == (x, id)
  {
    if |o| == 0 then []
    else
      var rest := KeysWithCode(o[1..], id);
      assert forall i | 1 <= i < |o| :: o[i] == o[1..][i - 1];
      if o[0].1 == id then [o[0].0] + rest else rest
  }

  /** The candidate keys for a code are exactly the keys whose last entry has
      that code. */
  lemma CandidateKeys(t: Table, id: string, k: string)
    ensures k in KeysWithCode(ObjectOf(t), id) <==> LastValue(t, k) == Some(id)
  {
    var o := ObjectOf(t);
    if k in KeysWithCode(o, id) {
      var i :| 0 <= i < |o| && o[i] == (k, id);
      ObjectEntry(t, i);
    }
    if LastValue(t, k) == Some(id) {
      ObjectHasKey(t, k);
      var i :| 0 <= i < |o| && o[i].0 == k;
      ObjectEntry(t, i);
    }
  }

  /** `word.charAt(0).toUpperCase() + word.slice(1)`. */
  function CapitalizeFirst(w: string): (r: string)
    ensures |r| == |w|
    ensures |w| > 0 ==> r[0] == Upper(w[0]) && r[1..] == w[1..]
  {
    if |w| == 0 then "" else [Upper(w[0])] + w[1..]
  }

  function MapCapitalize(ws: seq<string>): (r: seq<string>)
    ensures |r| == |ws|
    ensures forall i | 0 <= i < |ws| :: r[i] == CapitalizeFirst(ws[i])
  {
    seq(|ws|, i requires 0 <= i < |ws| => CapitalizeFirst(ws[i]))
  }

  /** `s.split(' ').map(capitalize).join(' ')`. */
  function CapitalizeWords(s: string): string {
    Join(MapCapitalize(Split(s, ' ')), " ")
  }

  /** The reference reading of word capitalisation, character by character: the
      first character and every character after a space are upper-cased. */
  function CapitalizeAfterSpaces(s: string): (r: string)
    ensures |r| == |s|
    ensures forall i | 0 <= i < |s| :: r[i] == if i == 0 || s[i - 1] == ' ' then Upper(s[i]) else s[i]
  {
    seq(|s|, i requires 0 <= i < |s| => if i == 0 || s[i - 1] == ' ' then Upper(s[i]) else s[i])
  }

  lemma CapitalizeAfterSpacesJoin(a: string, b: string)
    ensures CapitalizeAfterSpaces(a + " " + b) == CapitalizeAfterSpaces(a) + " " + CapitalizeAfterSpaces(b)
  {
    var s := a + " " + b;
    assert forall i | |a| + 1 <= i < |s| :: s[i] == b[i - |a| - 1];
    assert forall i | 0 <= i < |a| :: s[i] == a[i];
  }

  lemma {:induction false} CapitalizeJoin(ws: seq<string>)
    requires |ws| >= 1
    requires forall i | 0 <= i < |ws| :: ' ' !in ws[i]
    ensures Join(MapCapitalize(ws), " ") == CapitalizeAfterSpaces(Join(ws, " "))
  {
    var w := ws[0];
    CapitalizeWord(w);
    if |ws| > 1 {
      CapitalizeJoin(ws[1..]);
      assert MapCapitalize(ws)[1..] == MapCapitalize(ws[1..]);
      CapitalizeAfterSpacesJoin(w, Join(ws[1..], " "));
    }
  }

  /** On a single word, capitalising the first character agrees with the reference. */
  lemma CapitalizeWord(w: string)
    requires ' ' !in w
    ensures CapitalizeFirst(w) == CapitalizeAfterSpaces(w)
  {
    assert forall j | 0 <= j < |w| :: w[j] != ' ';
  }

  /** Capitalising the words of a string upper-cases exactly its first character
      and each character that follows a space. */
  lemma CapitalizeWordsCharwise(s: string)
    ensures CapitalizeWords(s) == CapitalizeAfterSpaces(s)
  {
    CapitalizeJoin(Split(s, ' '));
  }

  lemma {:induction false} KeysWithCodeAppend(a: Table, b: Table, id: string)
    ensures KeysWithCode(a + b, id) == KeysWithCode(a, id) + KeysWithCode(b, id)
  {
    if |a| > 0 {
      assert (a + b)[1..] == a[1..] + b;
      KeysWithCodeAppend(a[1..], b, id);
    } else {
      assert a + b == b;
    }
  }

  /** `getAdjectiveFromId(id)` over a table.  A falsy id is the empty string. */
  function AdjectiveIn(t: Table, id: string): (r: Option<string>)
    ensures id == "" <==> r.None?
    ensures id == "other" ==> r == Some("Global / Other")
  {
    if id == "" then None
    else if id == "other" then Some("Global / Other")
    else
      var keys := KeysWithCode(ObjectOf(t), id);
      if |keys| == 0 then Some(id) else Some(CapitalizeWords(SortByScore(keys)[0]))
  }

  /** `k` is the key the heuristic should pick for `id`: a key that finally maps to
      `id`, with no such key scoring higher, and none scoring the same whose first
      occurrence in the literal comes earlier. */
  ghost predicate IsBestKey(t: Table, id: string, k: string) {
    && LastValue(t, k) == Some(id)
    && (forall k' | LastValue(t, k') == Some(id) :: Score(k') <= Score(k))
    && (forall k' | LastValue(t, k') == Some(id) && Score(k') == Score(k) :: !FirstBefore(KeysOf(t), k', k))
  }

  /** At most one key is the best key for a code. */
  lemma BestKeyUnique(t: Table, id: string, k1: string, k2: string)
    requires IsBestKey(t, id, k1) && IsBestKey(t, id, k2)
    ensures k1 == k2
  {
    if k1 != k2 {
      FirstBeforeTotal(KeysOf(t), k1, k2);
    }
  }

  /** For an id other than "" and "other": with no key mapping to it the id itself
      is returned, otherwise the best key, capitalised word by word. */
  lemma AdjectivePick(t: Table, id: string)
    requires id != "" && id != "other"
    ensures (forall k :: LastValue(t, k) != Some(id)) ==> AdjectiveIn(t, id) == Some(id)
    ensures (exists k :: LastValue(t, k) == Some(id)) ==>
      exists k :: IsBestKey(t, id, k) && AdjectiveIn(t, id) == Some(CapitalizeWords(k))
  {
    var o := ObjectOf(t);
    var keys := KeysWithCode(o, id);
    if |keys| == 0 {
      forall k ensures LastValue(t, k) != Some(id) {
        CandidateKeys(t, id, k);
      }
    } else {
      var b := BestIndex(keys);
      SortHead(keys);
      BestIsBestKey(t, id, b);
    }
  }

  /** The key at `BestIndex` of the candidates is the best key. */
  lemma BestIsBestKey(t: Table, id: string, b: nat)
    requires |KeysWithCode(ObjectOf(t), id)| > 0
    requires b == BestIndex(KeysWithCode(ObjectOf(t), id))
    ensures IsBestKey(t, id, KeysWithCode(ObjectOf(t), id)[b])
  {
    var keys := KeysWithCode(ObjectOf(t), id);
    var k := keys[b];
    CandidateKeys(t, id, k);
    forall k' | LastValue(t, k') == Some(id) ensures Score(k') <= Score(k) {
      CandidateKeys(t, id, k');
    }
    forall k' | LastValue(t, k') == Some(id) && Score(k') == Score(k)
      ensures !FirstBefore(KeysOf(t), k', k)
    {
      if FirstBefore(KeysOf(t), k', k) {
        EarlierCandidate(t, id, k', k, b);
      }
    }
  }

  /** A candidate whose first occurrence comes before that of the candidate at `b`
      is listed before position `b`. */
  lemma EarlierCandidate(t: Table, id: string, x: string, y: string, b: nat)
    requires LastValue(t, x) == Some(id)
    requires b < |KeysWithCode(ObjectOf(t), id)| && KeysWithCode(ObjectOf(t), id)[b] == y
    requires FirstBefore(KeysOf(t), x, y)
    ensures exists j | 0 <= j < b :: KeysWithCode(ObjectOf(t), id)[j] == x
  {
    var o := ObjectOf(t);
    ObjectKeys(t);
    var q :| 0 <= q < |o| && o[q] == (y, id);
    assert KeysOf(o)[q] == y;
    DistinctKeepsFirstOrder(KeysOf(t), x, y, q);
    var p :| 0 <= p < q && KeysOf(o)[p] == x;
    ObjectEntry(t, p);
    CandidatesInOrder(o, id, p, q, b);
  }

  /** In an object (no key twice), the candidates keep the order of the entries. */
  lemma CandidatesInOrder(o: Table, id: string, p: nat, q: nat, b: nat)
    requires NoDuplicates(KeysOf(o))
    requires p < q < |o| && o[p].1 == id
    requires b < |KeysWithCode(o, id)| && KeysWithCode(o, id)[b] == o[q].0
    ensures exists j | 0 <= j < b :: KeysWithCode(o, id)[j] == o[p].0
  {
    var front := KeysWithCode(o[..q], id);
    CandidatesSplit(o, id, q);
    CandidateIn(o[..q], id, p);
    assert forall i | 0 <= i < q :: KeysOf(o)[i] != KeysOf(o)[q];
    CandidateNotIn(o[..q], id, o[q].0);
    var j :| 0 <= j < |front| && front[j] == o[p].0;
    assert KeysWithCode(o, id)[j] == o[p].0;
  }

  lemma CandidatesSplit(o: Table, id: string, q: nat)
    requires q <= |o|
    ensures KeysWithCode(o, id) == KeysWithCode(o[..q], id) + KeysWithCode(o[q..], id)
  {
    assert o == o[..q] + o[q..];
    KeysWithCodeAppend(o[..q], o[q..], id);
  }

  lemma CandidateIn(o: Table, id: string, p: nat)
    requires p < |o| && o[p].1 == id
    ensures o[p].0 in KeysWithCode(o, id)
  {
    assert o[p] == (o[p].0, id);
  }

  lemma CandidateNotIn(o: Table, id: string, y: string)
    requires forall i | 0 <= i < |o| :: o[i].0 != y
    ensures y !in KeysWithCode(o, id)
  {
  }

  /** No entry of `t` has key `k`. */
  predicate Lacks(t: Table, k: string) {
    forall i | 0 <= i < |t| :: t[i].0 != k
  }

  /** No entry of `t` has code `c`. */
  predicate Uncoded(t: Table, c: string) {
    forall i | 0 <= i < |t| :: t[i].1 != c
  }

  lemma LacksAppend(a: Table, b: Table, k: string)
    requires Lacks(a, k) && Lacks(b, k)
    ensures Lacks(a + b, k)
  {
    assert forall i | |a| <= i < |a + b| :: (a + b)[i] == b[i - |a|];
  }

  lemma UncodedAppend(a: Table, b: Table, c: string)
    requires Uncoded(a, c) && Uncoded(b, c)
    ensures Uncoded(a + b, c)
  {
    assert forall i | |a| <= i < |a + b| :: (a + b)[i] == b[i - |a|];
  }

  /** An entry with code `c` of `a + b`, where `b` has none, is an entry of `a`. */
  lemma UncodedSuffix(a: Table, b: Table, c: string, k: string)
    requires Uncoded(b, c) && (k, c) in a + b
    ensures (k, c) in a
  {
    assert forall i | |a| <= i < |a + b| :: (a + b)[i] == b[i - |a|];
  }

  /** An entry with code `c` of `a + b`, where `a` has none, is an entry of `b`. */
  lemma UncodedPrefix(a: Table, b: Table, c: string, k: string)
    requires Uncoded(a, c) && (k, c) in a + b
    ensures (k, c) in b
  {
    assert forall i | |a| <= i < |a + b| :: (a + b)[i] == b[i - |a|];
  }

  lemma LacksUpdate(t: Table, i: nat, e: (string, string), k: string)
    requires i < |t| && Lacks(t, k) && e.0 != k
    ensures Lacks(t[i := e], k)
  {
  }

  lemma UncodedUpdate(t: Table, i: nat, e: (string, string), c: string)
    requires i < |t| && Uncoded(t, c) && e.1 != c
    ensures Uncoded(t[i := e], c)
  {
  }

  /** Entries after the last one for `k` do not change its code. */
  lemma {:induction false} LastValueSkip(a: Table, b: Table, k: string)
    requires Lacks(b, k)
    ensures LastValue(a + b, k) == LastValue(a, k)
  {
    if |b| > 0 {
      var b' := b[..|b| - 1];
      assert (a + b)[..|a + b| - 1] == a + b';
      LastValueSkip(a, b', k);
    } else {
      assert a + b == a;
    }
  }

  /** A key present in `b` takes its code from `b`, whatever precedes it. */
  lemma {:induction false} LastValueSuffix(a: Table, b: Table, k: string)
    requires LastValue(b, k).Some?
    ensures LastValue(a + b, k) == LastValue(b, k)
  {
    var b' := b[..|b| - 1];
    assert (a + b)[..|a + b| - 1] == a + b';
    if b[|b| - 1].0 != k {
      LastValueSuffix(a, b', k);
    }
  }

  /** The entry at `i` is the last one for its key. */
  lemma {:induction false} LastValueAt(t: Table, i: nat)
    requires i < |t|
    requires forall j | i < j < |t| :: t[j].0 != t[i].0
    ensures LastValue(t, t[i].0) == Some(t[i].1)
  {
    if i < |t| - 1 {
      var init := t[..|t| - 1];
      assert init[i] == t[i];
      LastValueAt(init, i);
    }
  }

  // Re-keying one entry: the entry `x` of `p + [x] + q` replaced by `y` with the
  // same code, where neither key occurs in `p` or `q`.

  /** The conditions under which re-keying `x` as `y` touches no other entry. */
  predicate Rekeyable(p: Table, x: (string, string), y: (string, string), q: Table) {
    x.1 == y.1 && Lacks(p, x.0) && Lacks(p, y.0) && Lacks(q, x.0) && Lacks(q, y.0)
  }

  lemma KeysOfSplice(p: Table, x: (string, string), q: Table)
    ensures KeysOf(p + [x] + q) == KeysOf(p) + [x.0] + KeysOf(q)
  {
    assert forall i | 0 <= i < |p| :: (p + [x] + q)[i] == p[i];
    assert forall i | |p| < i < |p| + 1 + |q| :: (p + [x] + q)[i] == q[i - |p| - 1];
  }

  /** A key that `p` and `q` lack has the code of `x` if it is `x`'s key, and none
      otherwise. */
  lemma OnlyEntry(p: Table, x: (string, string), q: Table, k: string)
    requires Lacks(p, k) && Lacks(q, k)
    ensures LastValue(p + [x] + q, k) == if x.0 == k then Some(x.1) else None
  {
    var t := p + [x] + q;
    LastValueSkip(p + [x], q, k);
    assert (p + [x])[..|p + [x]| - 1] == p;
    if x.0 != k {
      assert Lacks(p + [x], k);
      assert k !in KeysOf(p + [x]);
    }
  }

  /** Every key other than the two keeps its code when `x` is re-keyed as `y`. */
  lemma LastValueRekey(p: Table, x: (string, string), y: (string, string), q: Table, k: string)
    requires k != x.0 && k != y.0
    ensures LastValue(p + [y] + q, k) == LastValue(p + [x] + q, k)
  {
    if k in KeysOf(q) {
      LastValueSuffix(p + [x], q, k);
      LastValueSuffix(p + [y], q, k);
    } else {
      assert Lacks(q, k);
      LastValueSkip(p + [x], q, k);
      LastValueSkip(p + [y], q, k);
      assert (p + [x])[..|p + [x]| - 1] == p;
      assert (p + [y])[..|p + [y]| - 1] == p;
    }
  }

  /** A key maps to a code other than the re-keyed entry's after the change exactly
      when it did before. */
  lemma FinalCodeRekey(p: Table, x: (string, string), y: (string, string), q: Table, k: string, id: string)
    requires Rekeyable(p, x, y, q) && id != x.1
    ensures LastValue(p + [y] + q, k) == Some(id) <==> LastValue(p + [x] + q, k) == Some(id)
  {
    if k == x.0 || k == y.0 {
      OnlyEntry(p, x, q, k);
      OnlyEntry(p, y, q, k);
    } else {
      LastValueRekey(p, x, y, q, k);
    }
  }

  /** The best key for a code other than the re-keyed entry's does not change. */
  lemma BestKeyRekey(p: Table, x: (string, string), y: (string, string), q: Table, id: string, k: string)
    requires Rekeyable(p, x, y, q) && id != x.1
    ensures IsBestKey(p + [y] + q, id, k) <==> IsBestKey(p + [x] + q, id, k)
  {
    var tx, ty := p + [x] + q, p + [y] + q;
    forall k' ensures LastValue(ty, k') == Some(id) <==> LastValue(tx, k') == Some(id) {
      FinalCodeRekey(p, x, y, q, k', id);
    }
    if LastValue(tx, k) == Some(id) {
      KeysOfSplice(p, x, q);
      KeysOfSplice(p, y, q);
      OnlyEntry(p, x, q, x.0);
      OnlyEntry(p, y, q, y.0);
      forall k' | LastValue(tx, k') == Some(id)
        ensures FirstBefore(KeysOf(ty), k', k) <==> FirstBefore(KeysOf(tx), k', k)
      {
        OnlyEntry(p, x, q, y.0);
        OnlyEntry(p, y, q, x.0);
        FinalCodeRekey(p, x, y, q, k', id);
        FirstBeforeSplice(KeysOf(p), x.0, y.0, KeysOf(q), k', k);
      }
    }
  }

  /** Re-keying an entry changes no adjective but that of its own code. */
  lemma AdjectiveRekey(p: Table, x: (string, string), y: (string, string), q: Table, id: string)
    requires Rekeyable(p, x, y, q) && id != x.1
    ensures AdjectiveIn(p + [y] + q, id) == AdjectiveIn(p + [x] + q, id)
  {
    var tx, ty := p + [x] + q, p + [y] + q;
    if id != "" && id != "other" {
      forall k' ensures LastValue(ty, k') == Some(id) <==> LastValue(tx, k') == Some(id) {
        FinalCodeRekey(p, x, y, q, k', id);
      }
      AdjectivePick(tx, id);
      AdjectivePick(ty, id);
      if exists k :: LastValue(tx, k) == Some(id) {
        var kx :| IsBestKey(tx, id, kx) && AdjectiveIn(tx, id) == Some(CapitalizeWords(kx));
        var ky :| IsBestKey(ty, id, ky) && AdjectiveIn(ty, id) == Some(CapitalizeWords(ky));
        BestKeyRekey(p, x, y, q, id, kx);
        BestKeyUnique(ty, id, kx, ky);
      }
    }
  }

  /** Re-keying an entry leaves the set of listed codes as it was. */
  lemma AllCodesRekey(p: Table, x: (string, string), y: (string, string), q: Table, c: string)
    requires Rekeyable(p, x, y, q)
    ensures c in AllCodesIn(p + [y] + q) <==> c in AllCodesIn(p + [x] + q)
  {
    AllCodesAreLastValues(p + [x] + q, c);
    AllCodesAreLastValues(p + [y] + q, c);
    if c == x.1 {
      OnlyEntry(p, x, q, x.0);
      OnlyEntry(p, y, q, y.0);
    } else {
      FinalCodesRekey(p, x, y, q, c);
    }
  }

  lemma FinalCodesRekey(p: Table, x: (string, string), y: (string, string), q: Table, c: string)
    requires Rekeyable(p, x, y, q) && c != x.1
    ensures (exists k :: LastValue(p + [y] + q, k) == Some(c)) <==> (exists k :: LastValue(p + [x] + q, k) == Some(c))
  {
    if k :| LastValue(p + [y] + q, k) == Some(c) {
      FinalCodeRekey(p, x, y, q, k, c);
    }
    if k :| LastValue(p + [x] + q, k) == Some(c) {
      FinalCodeRekey(p, x, y, q, k, c);
    }
  }

  /** A tag that reads neither key resolves alike before and after re-keying. */
  lemma LookupRekey(p: Table, x: (string, string), y: (string, string), q: Table, tag: string)
    requires LowerStr(Trim(tag)) != x.0 && LowerStr(Trim(tag)) != y.0
    ensures CountryIdIn(p + [y] + q, tag) == CountryIdIn(p + [x] + q, tag)
  {
    if tag != "" {
      LookupIsLastEntry(p + [x] + q, tag);
      LookupIsLastEntry(p + [y] + q, tag);
      LastValueRekey(p, x, y, q, LowerStr(Trim(tag)));
    }
  }

  /** A tag that reads the new key finds nothing before re-keying. */
  lemma LookupOldMisses(p: Table, x: (string, string), y: (string, string), q: Table, tag: string)
    requires Rekeyable(p, x, y, q) && x.0 != y.0
    requires tag != "" && LowerStr(Trim(tag)) == y.0
    ensures CountryIdIn(p + [x] + q, tag) == None
  {
    LookupIsLastEntry(p + [x] + q, tag);
    OnlyEntry(p, x, q, y.0);
  }

  /** An entry of the re-keyed table other than `y` is an entry of the original. */
  lemma EntryRekey(p: Table, x: (string, string), y: (string, string), q: Table, e: (string, string))
    requires e in p + [y] + q && e != y
    ensures e in p + [x] + q
  {
    var i :| 0 <= i < |p + [y] + q| && (p + [y] + q)[i] == e;
    if i < |p| {
      assert (p + [x] + q)[i] == e;
    } else {
      assert (p + [x] + q)[i] == e;
    }
  }
}

=== FILE: countrytable.dfy ===
/** The literal `countryMapping` of renderer/countryData.js and the exported
    lookups over it, with the facts about particular entries that the source's
    behaviour hangs on.

    The literal is kept entry for entry, in source order, as twelve constants of
    consecutive source lines; the table is their concatenation.  Facts about the
    whole table are assembled from facts about each constant. */
module CountryTable {
  import opened Wrappers
  import opened Text
  import opened Seqs
  import opened Countries

  /** renderer/countryData.js lines 6-19 (33 entries). */
  const Europe1: Table := [
    ("portugal", "PT"), ("portuguese", "PT"),
    ("spain", "ES"), ("spanish", "ES"),
    ("france", "FR"), ("french", "FR"),
    ("italy", "IT"), ("italian", "IT"),
    ("germany", "DE"), ("german", "DE"),
    ("uk", "GB"), ("united kingdom", "GB"), ("britain", "GB"), ("british", "GB"), ("england", "GB"), ("english", "GB"),
    ("greece", "GR"), ("greek", "GR"),
    ("poland", "PL"), ("polish", "PL"),
    ("netherlands", "NL"), ("dutch", "NL"), ("holland", "NL"),
    ("belgium", "BE"), ("belgian", "BE"),
    ("austria", "AT"), ("austrian", "AT"),
    ("switzerland", "CH"), ("swiss", "CH"),
    ("sweden", "SE"), ("swedish", "SE"),
    ("norway", "NO"), ("norwegian", "NO")
  ]

  /** renderer/countryData.js lines 20-35 (33 entries). */
  const Europe2: Table := [
    ("denmark", "DK"), ("danish", "DK"),
    ("finland", "FI"), ("finnish", "FI"),
    ("ireland", "IE"), ("irish", "IE"),
    ("russia", "RU"), ("russian", "RU"),
    ("ukraine", "UA"), ("ukrainian", "UA"),
    ("romania", "RO"), ("romanian", "RO"),
    ("czech republic", "CZ"), ("czech", "CZ"), ("czechia", "CZ"),
    ("hungary", "HU"), ("hungarian", "HU"),
    ("croatia", "HR"), ("croatian", "HR"),
    ("serbia", "RS"), ("serbian", "RS"),
    ("bulgaria", "BG"), ("bulgarian", "BG"),
    ("slovakia", "SK"), ("slovak", "SK"),
    ("slovenia", "SI"), ("slovenian", "SI"),
    ("lithuania", "LT"), ("lithuanian", "LT"),
    ("latvia", "LV"), ("latvian", "LV"),
    ("estonia", "EE"), ("estonian", "EE")
  ]

  /** renderer/countryData.js lines 36-53 (37 entries). */
  const Europe3: Table := [
    ("iceland", "IS"), ("icelandic", "IS"),
    ("albania", "AL"), ("albanian", "AL"),
    ("malta", "MT"), ("maltese", "MT"),
    ("cyprus", "CY"), ("cypriot", "CY"),
    ("luxembourg", "LU"), ("luxembourgish", "LU"),
    ("monaco", "MC"), ("monegaske", "MC"),
    ("andorra", "AD"), ("andorran", "AD"),
    ("san marino", "SM"), ("sammarinese", "SM"),
    ("vatican city", "VA"), ("vatican", "VA"),
    ("moldova", "MD"), ("moldovan", "MD"),
    ("belarus", "BY"), ("belarusian", "BY"),
    ("bosnia and herzegovina", "BA"), ("bosnia", "BA"), ("bosnian", "BA"),
    ("montenegro", "ME"), ("montenegrin", "ME"),
    ("north macedonia", "MK"), ("macedonian", "MK"),
    ("georgia", "GE"), ("georgian", "GE"),
    ("armenia", "AM"), ("armenian", "AM"),
    ("azerbaijan", "AZ"), ("azerbaijani", "AZ"),
    ("liechtenstein", "LI"), ("liechtensteiner", "LI")
  ]

  /** renderer/countryData.js lines 56-69 (35 entries). */
  const Asia1: Table := [
    ("china", "CN"), ("chinese", "CN"), ("hong kong", "HK"), ("macau", "MO"),
    ("japan", "JP"), ("japanese", "JP"),
    ("korea", "KR"), ("south korea", "KR"), ("korean", "KR"),
    ("north korea", "KP"),
    ("india", "IN"), ("indian", "IN"),
    ("thailand", "TH"), ("thai", "TH"),
    ("vietnam", "VN"), ("vietnamese", "VN"),
    ("philippines", "PH"), ("filipino", "PH"),
    ("indonesia", "ID"), ("indonesian", "ID"),
    ("malaysia", "MY"), ("malaysian", "MY"),
    ("singapore", "SG"), ("singaporean", "SG"),
    ("turkey", "TR"), ("turkish", "TR"), ("t\U{00C3}\U{00BC}rkiye", "TR"),
    ("iran", "IR"), ("iranian", "IR"), ("persia", "IR"), ("persian", "IR"),
    ("israel", "IL"), ("israeli", "IL"), ("palestine", "PS"), ("palestinian", "PS")
  ]

  /** renderer/countryData.js lines 70-83 (32 entries). */
  const Asia2: Table := [
    ("lebanon", "LB"), ("lebanese", "LB"),
    ("saudi arabia", "SA"), ("saudi", "SA"),
    ("uae", "AE"), ("united arab emirates", "AE"), ("emirates", "AE"), ("emirati", "AE"),
    ("pakistan", "PK"), ("pakistani", "PK"),
    ("bangladesh", "BD"), ("bangladeshi", "BD"),
    ("afghanistan", "AF"), ("afghan", "AF"),
    ("iraq", "IQ"), ("iraqi", "IQ"),
    ("syria", "SY"), ("syrian", "SY"),
    ("jordan", "JO"), ("jordanian", "JO"),
    ("taiwan", "TW"), ("taiwanese", "TW"),
    ("sri lanka", "LK"), ("sri lankan", "LK"),
    ("nepal", "NP"), ("nepalese", "NP"), ("nepali", "NP"),
    ("mongolia", "MN"), ("mongolian", "MN"),
    ("cambodia", "KH"), ("cambodian", "KH"), ("khmer", "KH")
  ]

  /** renderer/countryData.js lines 84-100 (35 entries). */
  const Asia3: Table := [
    ("laos", "LA"), ("laotian", "LA"),
    ("myanmar", "MM"), ("burma", "MM"), ("burmese", "MM"),
    ("macau", "MO"), ("macanese", "MO"),
    ("uzbekistan", "UZ"), ("uzbek", "UZ"),
    ("kazakhstan", "KZ"), ("kazakh", "KZ"),
    ("kyrgyzstan", "KG"), ("kyrgyz", "KG"),
    ("tajikistan", "TJ"), ("tajik", "TJ"),
    ("turkmenistan", "TM"), ("turkmen", "TM"),
    ("bhutan", "BT"), ("bhutanese", "BT"),
    ("maldives", "MV"), ("maldivian", "MV"),
    ("brunei", "BN"), ("bruneian", "BN"),
    ("timor-leste", "TL"), ("east timor", "TL"),
    ("bahrain", "BH"), ("bahraini", "BH"),
    ("kuwait", "KW"), ("kuwaiti", "KW"),
    ("oman", "OM"), ("omani", "OM"),
    ("qatar", "QA"), ("qatari", "QA"),
    ("yemen", "YE"), ("yemeni", "YE")
  ]

  /** renderer/countryData.js lines 103-119 (37 entries). */
  const Americas1: Table := [
    ("usa", "US"), ("united states", "US"), ("america", "US"), ("american", "US"), ("us", "US"),
    ("mexico", "MX"), ("mexican", "MX"),
    ("canada", "CA"), ("canadian", "CA"),
    ("brazil", "BR"), ("brazilian", "BR"),
    ("argentina", "AR"), ("argentinian", "AR"), ("argentine", "AR"),
    ("chile", "CL"), ("chilean", "CL"),
    ("peru", "PE"), ("peruvian", "PE"),
    ("colombia", "CO"), ("colombian", "CO"),
    ("venezuela", "VE"), ("venezuelan", "VE"),
    ("paraguay", "PY"), ("paraguayan", "PY"),
    ("uruguay", "UY"), ("uruguayan", "UY"),
    ("ecuador", "EC"), ("ecuadorian", "EC"),
    ("bolivia", "BO"), ("bolivian", "BO"),
    ("guyana", "GY"), ("guyanese", "GY"),
    ("suriname", "SR"), ("surinamese", "SR"),
    ("french guiana", "GF"),
    ("panama", "PA"), ("panamanian", "PA")
  ]

  /** renderer/countryData.js lines 120-139 (40 entries). */
  const Americas2: Table := [
    ("costa rica", "CR"), ("costa rican", "CR"),
    ("nicaragua", "NI"), ("nicaraguan", "NI"),
    ("honduras", "HN"), ("honduran", "HN"),
    ("el salvador", "SV"), ("salvadoran", "SV"),
    ("guatemala", "GT"), ("guatemalan", "GT"),
    ("belize", "BZ"), ("belizean", "BZ"),
    ("cuba", "CU"), ("cuban", "CU"),
    ("jamaica", "JM"), ("jamaican", "JM"),
    ("haiti", "HT"), ("haitian", "HT"),
    ("dominican republic", "DO"), ("dominican", "DO"),
    ("puerto rico", "PR"), ("puerto rican", "PR"),
    ("bahamas", "BS"), ("bahamian", "BS"),
    ("barbados", "BB"), ("barbadian", "BB"),
    ("trinidad and tobago", "TT"), ("trinidadian", "TT"),
    ("st. lucia", "LC"), ("saint lucia", "LC"),
    ("grenada", "GD"), ("grenadian", "GD"),
    ("st. vincent", "VC"), ("saint vincent", "VC"),
    ("st. kitts", "KN"), ("saint kitts", "KN"),
    ("antigua", "AG"), ("antigua and barbuda", "AG"),
    ("dominica", "DM"), ("dominican", "DM")
  ]

  /** renderer/countryData.js lines 142-157 (33 entries). */
  const Africa1: Table := [
    ("morocco", "MA"), ("moroccan", "MA"),
    ("egypt", "EG"), ("egyptian", "EG"),
    ("south africa", "ZA"), ("south african", "ZA"),
    ("ethiopia", "ET"), ("ethiopian", "ET"),
    ("nigeria", "NG"), ("nigerian", "NG"),
    ("kenya", "KE"), ("kenyan", "KE"),
    ("tunisia", "TN"), ("tunisian", "TN"),
    ("algeria", "DZ"), ("algerian", "DZ"),
    ("libya", "LY"), ("libyan", "LY"),
    ("senegal", "SN"), ("senegalese", "SN"),
    ("ghana", "GH"), ("ghanaian", "GH"),
    ("ivory coast", "CI"), ("cote d'ivoire", "CI"), ("ivoirian", "CI"),
    ("cameroon", "CM"), ("cameroonian", "CM"),
    ("uganda", "UG"), ("ugandan", "UG"),
    ("tanzania", "TZ"), ("tanzanian", "TZ"),
    ("zimbabwe", "ZW"), ("zimbabwean", "ZW")
  ]

  /** renderer/countryData.js lines 158-174 (33 entries). */
  const Africa2: Table := [
    ("zambia", "ZM"), ("zambian", "ZM"),
    ("angola", "AO"), ("angolan", "AO"),
    ("mozambique", "MZ"), ("mozambican", "MZ"),
    ("madagascar", "MG"), ("malagasy", "MG"),
    ("mauritius", "MU"), ("mauritian", "MU"),
    ("namibia", "NA"), ("namibian", "NA"),
    ("botswana", "BW"), ("botswanan", "BW"),
    ("rwanda", "RW"), ("rwandan", "RW"),
    ("sudan", "SD"), ("sudanese", "SD"),
    ("mali", "ML"), ("malian", "ML"),
    ("congo", "CG"), ("congolese", "CG"),
    ("dr congo", "CD"),
    ("somalia", "SO"), ("somali", "SO"),
    ("benin", "BJ"), ("beninese", "BJ"),
    ("burkina faso", "BF"), ("burkinabe", "BF"),
    ("burundi", "BI"), ("burundian", "BI"),
    ("cape verde", "CV"), ("cabo verde", "CV")
  ]

  /** renderer/countryData.js lines 175-196 (39 entries). */
  const Africa3AsWritten: Table := [
    ("central african republic", "CF"),
    ("chad", "TD"), ("chadian", "TD"),
    ("comoros", "KM"), ("comorian", "KM"),
    ("djibouti", "DJ"), ("djiboutian", "DJ"),
    ("equatorial guinea", "GQ"),
    ("eritrea", "ER"), ("eritrean", "ER"),
    ("eswatini", "SZ"), ("swaziland", "SZ"),
    ("gabon", "GA"), ("gabonese", "GA"),
    ("gambia", "GM"), ("gambian", "GM"),
    ("guinea", "GN"), ("guinean", "GN"),
    ("guinea-Bissau", "GW"),
    ("lesotho", "LS"), ("basotho", "LS"),
    ("liberia", "LR"), ("liberian", "LR"),
    ("malawi", "MW"), ("malawian", "MW"),
    ("mauritania", "MR"), ("mauritanian", "MR"),
    ("niger", "NE"), ("nigerien", "NE"),
    ("sao tome", "ST"), ("sao tome and principe", "ST"),
    ("seychelles", "SC"), ("seychellois", "SC"),
    ("sierra leone", "SL"), ("sierra leonean", "SL"),
    ("togo", "TG"), ("togolese", "TG"),
    ("south sudan", "SS"),
    ("mauritania", "MR")
  ]

  /** renderer/countryData.js lines 199-212 (27 entries). */
  const Oceania: Table := [
    ("australia", "AU"), ("australian", "AU"),
    ("new zealand", "NZ"), ("new zealander", "NZ"), ("kiwi", "NZ"),
    ("fiji", "FJ"), ("fijian", "FJ"),
    ("papua new guinea", "PG"), ("papuan", "PG"),
    ("samoa", "WS"), ("samoan", "WS"),
    ("tonga", "TO"), ("tongan", "TO"),
    ("vanuatu", "VU"), ("vanuatuan", "VU"),
    ("kiribati", "KI"), ("i-kiribati", "KI"),
    ("marshall islands", "MH"),
    ("micronesia", "FM"), ("micronesian", "FM"),
    ("nauru", "NR"), ("nauruan", "NR"),
    ("palau", "PW"), ("palauan", "PW"),
    ("solomon islands", "SB"),
    ("tuvalu", "TV"), ("tuvaluan", "TV")
  ]


  /** Position of `'guinea-Bissau'` in `Africa3AsWritten`. */
  const GuineaBissauAt: nat := 18

  /** Line 185 with the key in lower case, as every other key is written. */
  const Africa3: Table := Africa3AsWritten[GuineaBissauAt := ("guinea-bissau", "GW")]

  const Europe: Table := Europe1 + Europe2 + Europe3
  const Asia: Table := Asia1 + Asia2 + Asia3
  const Americas: Table := Americas1 + Americas2
  const AfricaAsWritten: Table := Africa1 + Africa2 + Africa3AsWritten
  const Africa: Table := Africa1 + Africa2 + Africa3

  /** `countryMapping` as written. */
  const MappingAsWritten: Table := Europe + Asia + Americas + AfricaAsWritten + Oceania

  /** `countryMapping` with the key of line 185 in lower case. */
  const Mapping: Table := Europe + Asia + Americas + Africa + Oceania

  /** The entries before and after line 185, which the two tables share. */
  const Before: Table := Europe + Asia + Americas + Africa1 + Africa2 + Africa3AsWritten[..GuineaBissauAt]
  const After: Table := Africa3AsWritten[GuineaBissauAt + 1..] + Oceania


  // Facts read off single constants.

  lemma Europe2NoFranceBritish() ensures Lacks(Europe2, "france") && Lacks(Europe2, "british") { }
  lemma Europe3NoFranceBritish() ensures Lacks(Europe3, "france") && Lacks(Europe3, "british") { }
  lemma Asia1NoFranceBritish() ensures Lacks(Asia1, "france") && Lacks(Asia1, "british") { }
  lemma Asia2NoFranceBritish() ensures Lacks(Asia2, "france") && Lacks(Asia2, "british") { }
  lemma Asia3NoFranceBritish() ensures Lacks(Asia3, "france") && Lacks(Asia3, "british") { }
  lemma Americas1NoFranceBritish() ensures Lacks(Americas1, "france") && Lacks(Americas1, "british") { }
  lemma Americas2NoFranceBritish() ensures Lacks(Americas2, "france") && Lacks(Americas2, "british") { }
  lemma Africa1NoFranceBritish() ensures Lacks(Africa1, "france") && Lacks(Africa1, "british") { }
  lemma Africa2NoFranceBritish() ensures Lacks(Africa2, "france") && Lacks(Africa2, "british") { }
  lemma Africa3AsWrittenNoFranceBritish() ensures Lacks(Africa3AsWritten, "france") && Lacks(Africa3AsWritten, "british") { }
  lemma OceaniaNoFranceBritish() ensures Lacks(Oceania, "france") && Lacks(Oceania, "british") { }
  lemma Africa1NoAmericanDominican()
    ensures Lacks(Africa1, "american") && Lacks(Africa1, "dominican") && Lacks(Africa1, "dominican republic")
  {
  }
  lemma Africa2NoAmericanDominican()
    ensures Lacks(Africa2, "american") && Lacks(Africa2, "dominican") && Lacks(Africa2, "dominican republic")
  {
  }
  lemma Africa3AsWrittenNoAmericanDominican()
    ensures Lacks(Africa3AsWritten, "american") && Lacks(Africa3AsWritten, "dominican") && Lacks(Africa3AsWritten, "dominican republic")
  {
  }
  lemma OceaniaNoAmericanDominican()
    ensures Lacks(Oceania, "american") && Lacks(Oceania, "dominican") && Lacks(Oceania, "dominican republic")
  {
  }
  lemma Americas2NoAmerican() ensures Lacks(Americas2, "american") { }
  lemma Europe1NoUs() ensures Uncoded(Europe1, "US") { }
  lemma Europe2NoGbUs() ensures Uncoded(Europe2, "GB") && Uncoded(Europe2, "US") { }
  lemma Europe3NoGbUs() ensures Uncoded(Europe3, "GB") && Uncoded(Europe3, "US") { }
  lemma Asia1NoGbUs() ensures Uncoded(Asia1, "GB") && Uncoded(Asia1, "US") { }
  lemma Asia2NoGbUs() ensures Uncoded(Asia2, "GB") && Uncoded(Asia2, "US") { }
  lemma Asia3NoGbUs() ensures Uncoded(Asia3, "GB") && Uncoded(Asia3, "US") { }
  lemma Americas1NoGb() ensures Uncoded(Americas1, "GB") { }
  lemma Americas2NoGbUs() ensures Uncoded(Americas2, "GB") && Uncoded(Americas2, "US") { }
  lemma Africa1NoGbUs() ensures Uncoded(Africa1, "GB") && Uncoded(Africa1, "US") { }
  lemma Africa2NoGbUs() ensures Uncoded(Africa2, "GB") && Uncoded(Africa2, "US") { }
  lemma Africa3AsWrittenNoGbUs() ensures Uncoded(Africa3AsWritten, "GB") && Uncoded(Africa3AsWritten, "US") { }
  lemma OceaniaNoGbUs() ensures Uncoded(Oceania, "GB") && Uncoded(Oceania, "US") { }
  lemma Europe1NoGwDo() ensures Uncoded(Europe1, "GW") && Uncoded(Europe1, "DO") { }
  lemma Europe2NoGwDo() ensures Uncoded(Europe2, "GW") && Uncoded(Europe2, "DO") { }
  lemma Europe3NoGwDo() ensures Uncoded(Europe3, "GW") && Uncoded(Europe3, "DO") { }
  lemma Asia1NoGwDo() ensures Uncoded(Asia1, "GW") && Uncoded(Asia1, "DO") { }
  lemma Asia2NoGwDo() ensures Uncoded(Asia2, "GW") && Uncoded(Asia2, "DO") { }
  lemma Asia3NoGwDo() ensures Uncoded(Asia3, "GW") && Uncoded(Asia3, "DO") { }
  lemma Americas1NoGwDo() ensures Uncoded(Americas1, "GW") && Uncoded(Americas1, "DO") { }
  lemma Americas2NoGw() ensures Uncoded(Americas2, "GW") { }
  lemma Africa1NoGwDo() ensures Uncoded(Africa1, "GW") && Uncoded(Africa1, "DO") { }
  lemma Africa2NoGwDo() ensures Uncoded(Africa2, "GW") && Uncoded(Africa2, "DO") { }
  lemma Africa3AsWrittenNoDo() ensures Uncoded(Africa3AsWritten, "DO") { }
  lemma OceaniaNoGwDo() ensures Uncoded(Oceania, "GW") && Uncoded(Oceania, "DO") { }
  lemma OceaniaNoGuineaBissau() ensures Lacks(Oceania, "guinea-Bissau") && Lacks(Oceania, "guinea-bissau") { }
  lemma Europe1NoGuineaBissau() ensures Lacks(Europe1, "guinea-Bissau") && Lacks(Europe1, "guinea-bissau") { }
  lemma Europe2NoGuineaBissau() ensures Lacks(Europe2, "guinea-Bissau") && Lacks(Europe2, "guinea-bissau") { }
  lemma Europe3NoGuineaBissau() ensures Lacks(Europe3, "guinea-Bissau") && Lacks(Europe3, "guinea-bissau") { }
  lemma Asia1NoGuineaBissau() ensures Lacks(Asia1, "guinea-Bissau") && Lacks(Asia1, "guinea-bissau") { }
  lemma Asia2NoGuineaBissau() ensures Lacks(Asia2, "guinea-Bissau") && Lacks(Asia2, "guinea-bissau") { }
  lemma Asia3NoGuineaBissau() ensures Lacks(Asia3, "guinea-Bissau") && Lacks(Asia3, "guinea-bissau") { }
  lemma Americas1NoGuineaBissau() ensures Lacks(Americas1, "guinea-Bissau") && Lacks(Americas1, "guinea-bissau") { }
  lemma Americas2NoGuineaBissau() ensures Lacks(Americas2, "guinea-Bissau") && Lacks(Americas2, "guinea-bissau") { }
  lemma Africa1NoGuineaBissau() ensures Lacks(Africa1, "guinea-Bissau") && Lacks(Africa1, "guinea-bissau") { }
  lemma Africa2NoGuineaBissau() ensures Lacks(Africa2, "guinea-Bissau") && Lacks(Africa2, "guinea-bissau") { }
  lemma Africa3NoGuineaBissauBefore()
    ensures forall j | 0 <= j < GuineaBissauAt :: Africa3AsWritten[j].0 != "guinea-Bissau" && Africa3AsWritten[j].0 != "guinea-bissau"
  {
  }

  /** Line 7: `'france'` maps to FR, and no later entry of the constant has that key. */
  lemma Europe1France()
    ensures Europe1[4] == ("france", "FR")
    ensures forall j | 4 < j < |Europe1| :: Europe1[j].0 != "france"
  {
  }

  /** Line 11: the GB keys, `'british'` last among its own. */
  lemma Europe1British()
    ensures Europe1[13] == ("british", "GB")
    ensures forall j | 13 < j < |Europe1| :: Europe1[j].0 != "british"
  {
  }

  lemma Europe1GbEntries()
    ensures forall i | 0 <= i < |Europe1| && Europe1[i].1 == "GB" :: 10 <= i < 16
    ensures Europe1[10].0 == "uk" && Europe1[11].0 == "united kingdom" && Europe1[12].0 == "britain"
    ensures Europe1[13].0 == "british" && Europe1[14].0 == "england" && Europe1[15].0 == "english"
  {
  }

  lemma Europe1EnglishAfterBritish()
    ensures forall i | 0 <= i < 13 :: Europe1[i].0 != "english"
  {
  }

  /** Line 103: the US keys. */
  lemma Americas1American()
    ensures Americas1[3] == ("american", "US")
    ensures forall j | 3 < j < |Americas1| :: Americas1[j].0 != "american"
  {
  }

  lemma Americas1UsEntries()
    ensures forall i | 0 <= i < |Americas1| && Americas1[i].1 == "US" :: i < 5
    ensures Americas1[0].0 == "usa" && Americas1[1].0 == "united states" && Americas1[2].0 == "america"
    ensures Americas1[3].0 == "american" && Americas1[4].0 == "us"
  {
  }

  /** Lines 129 and 139: `'dominican'` twice, DO first and DM last. */
  lemma Americas2Dominican()
    ensures |Americas2| == 40 && Americas2[39] == ("dominican", "DM")
    ensures Americas2[18] == ("dominican republic", "DO") && Americas2[19] == ("dominican", "DO")
    ensures forall j | 18 < j < |Americas2| :: Americas2[j].0 != "dominican republic"
  {
  }

  lemma Americas2DoEntries()
    ensures forall i | 0 <= i < |Americas2| && Americas2[i].1 == "DO" :: 18 <= i < 20
  {
  }

  /** Line 185: the one GW entry, with an upper-case B. */
  lemma Africa3GuineaBissau()
    ensures GuineaBissauAt < |Africa3AsWritten|
    ensures Africa3AsWritten[GuineaBissauAt] == ("guinea-Bissau", "GW")
    ensures forall i | 0 <= i < |Africa3AsWritten| && Africa3AsWritten[i].1 == "GW" :: i == GuineaBissauAt
  {
  }

  lemma Africa3NoGuineaBissauAfter()
    ensures forall j | GuineaBissauAt < j < |Africa3AsWritten| ::
      Africa3AsWritten[j].0 != "guinea-Bissau" && Africa3AsWritten[j].0 != "guinea-bissau"
  {
  }


  // Facts about the whole table, assembled from the constants.

  /** Line 185 corrected changes no key or code other than its own. */
  lemma Africa3Lacks(k: string)
    requires Lacks(Africa3AsWritten, k) && k != "guinea-bissau"
    ensures Lacks(Africa3, k)
  {
    Africa3GuineaBissau();
    LacksUpdate(Africa3AsWritten, GuineaBissauAt, ("guinea-bissau", "GW"), k);
  }

  lemma Africa3Uncoded(c: string)
    requires Uncoded(Africa3AsWritten, c) && c != "GW"
    ensures Uncoded(Africa3, c)
  {
    Africa3GuineaBissau();
    UncodedUpdate(Africa3AsWritten, GuineaBissauAt, ("guinea-bissau", "GW"), c);
  }

  /** Four parts without a key do not change its code. */
  lemma SkipFour(a: Table, b: Table, c: Table, d: Table, e: Table, k: string)
    requires Lacks(b, k) && Lacks(c, k) && Lacks(d, k) && Lacks(e, k)
    ensures LastValue(a + b + c + d + e, k) == LastValue(a, k)
  {
    LastValueSkip(a + b + c + d, e, k);
    LastValueSkip(a + b + c, d, k);
    LastValueSkip(a + b, c, k);
    LastValueSkip(a, b, k);
  }

  /** Regions without a key, given that each of their constants lacks it. */
  lemma RegionsLack(k: string)
    requires Lacks(Asia1, k) && Lacks(Asia2, k) && Lacks(Asia3, k)
    requires Lacks(Africa1, k) && Lacks(Africa2, k) && Lacks(Africa3AsWritten, k)
    requires k != "guinea-bissau"
    ensures Lacks(Asia, k) && Lacks(Africa, k) && Lacks(AfricaAsWritten, k)
  {
    LacksAppend(Asia1, Asia2, k);
    LacksAppend(Asia1 + Asia2, Asia3, k);
    Africa3Lacks(k);
    LacksAppend(Africa1, Africa2, k);
    LacksAppend(Africa1 + Africa2, Africa3, k);
    LacksAppend(Africa1 + Africa2, Africa3AsWritten, k);
  }

  /** `'france'` and `'british'` occur in no constant after the first. */
  lemma OnlyInEurope1(k: string)
    requires k == "france" || k == "british"
    ensures LastValue(Europe, k) == LastValue(Europe1, k)
    ensures Lacks(Asia, k) && Lacks(Americas, k) && Lacks(Africa, k) && Lacks(AfricaAsWritten, k) && Lacks(Oceania, k)
  {
    Asia1NoFranceBritish();
    Asia2NoFranceBritish();
    Asia3NoFranceBritish();
    Africa1NoFranceBritish();
    Africa2NoFranceBritish();
    Africa3AsWrittenNoFranceBritish();
    RegionsLack(k);
    Americas1NoFranceBritish();
    Americas2NoFranceBritish();
    LacksAppend(Americas1, Americas2, k);
    OceaniaNoFranceBritish();
    Europe2NoFranceBritish();
    Europe3NoFranceBritish();
    LastValueSkip(Europe1 + Europe2, Europe3, k);
    LastValueSkip(Europe1, Europe2, k);
  }

  /** A key in no region after Europe takes its code from Europe. */
  lemma FromEurope(k: string)
    requires Lacks(Asia, k) && Lacks(Americas, k) && Lacks(Africa, k) && Lacks(AfricaAsWritten, k) && Lacks(Oceania, k)
    ensures LastValue(Mapping, k) == LastValue(Europe, k)
    ensures LastValue(MappingAsWritten, k) == LastValue(Europe, k)
  {
    SkipFour(Europe, Asia, Americas, Africa, Oceania, k);
    SkipFour(Europe, Asia, Americas, AfricaAsWritten, Oceania, k);
  }

  lemma Europe1Codes()
    ensures LastValue(Europe1, "france") == Some("FR")
    ensures LastValue(Europe1, "british") == Some("GB")
  {
    Europe1France();
    LastValueAt(Europe1, 4);
    Europe1British();
    LastValueAt(Europe1, 13);
  }

  lemma MappingFrance()
    ensures LastValue(Mapping, "france") == Some("FR")
  {
    OnlyInEurope1("france");
    FromEurope("france");
    Europe1Codes();
  }

  lemma MappingBritish()
    ensures LastValue(Mapping, "british") == Some("GB")
  {
    OnlyInEurope1("british");
    FromEurope("british");
    Europe1Codes();
  }

  /** `'american'` occurs in no constant after the first of the Americas. */
  lemma OnlyInAmericas1()
    ensures LastValue(Americas, "american") == Some("US")
    ensures Lacks(Africa, "american") && Lacks(Oceania, "american")
  {
    var k := "american";
    Americas1American();
    LastValueAt(Americas1, 3);
    Americas2NoAmerican();
    LastValueSkip(Americas1, Americas2, k);
    Africa1NoAmericanDominican();
    Africa2NoAmericanDominican();
    Africa3AsWrittenNoAmericanDominican();
    Africa3Lacks(k);
    LacksAppend(Africa1, Africa2, k);
    LacksAppend(Africa1 + Africa2, Africa3, k);
    OceaniaNoAmericanDominican();
  }

  /** Both `'dominican'` entries and `'dominican republic'` are in the second
      constant of the Americas, and no later constant has those keys. */
  lemma OnlyInAmericas2()
    ensures LastValue(Americas, "dominican") == Some("DM")
    ensures LastValue(Americas, "dominican republic") == Some("DO")
    ensures Lacks(Africa, "dominican") && Lacks(Oceania, "dominican")
    ensures Lacks(Africa, "dominican republic") && Lacks(Oceania, "dominican republic")
  {
    Americas2Dominican();
    LastValueAt(Americas2, 39);
    LastValueAt(Americas2, 18);
    LastValueSuffix(Americas1, Americas2, "dominican");
    LastValueSuffix(Americas1, Americas2, "dominican republic");
    Africa1NoAmericanDominican();
    Africa2NoAmericanDominican();
    Africa3AsWrittenNoAmericanDominican();
    OceaniaNoAmericanDominican();
    AfricaLacks("dominican");
    AfricaLacks("dominican republic");
  }

  lemma AfricaLacks(k: string)
    requires Lacks(Africa1, k) && Lacks(Africa2, k) && Lacks(Africa3AsWritten, k) && k != "guinea-bissau"
    ensures Lacks(Africa, k)
  {
    Africa3Lacks(k);
    LacksAppend(Africa1, Africa2, k);
    LacksAppend(Africa1 + Africa2, Africa3, k);
  }

  /** A key of the Americas in no later region takes its code from the Americas. */
  lemma FromAmericas(k: string)
    requires LastValue(Americas, k).Some? && Lacks(Africa, k) && Lacks(Oceania, k)
    ensures LastValue(Mapping, k) == LastValue(Americas, k)
  {
    LastValueSkip(Europe + Asia + Americas + Africa, Oceania, k);
    LastValueSkip(Europe + Asia + Americas, Africa, k);
    LastValueSuffix(Europe + Asia, Americas, k);
  }

  lemma MappingAmerican()
    ensures LastValue(Mapping, "american") == Some("US")
  {
    OnlyInAmericas1();
    FromAmericas("american");
  }

  lemma MappingDominican()
    ensures LastValue(Mapping, "dominican") == Some("DM")
    ensures LastValue(Mapping, "dominican republic") == Some("DO")
  {
    OnlyInAmericas2();
    FromAmericas("dominican");
    FromAmericas("dominican republic");
  }

  // Where the entries with a given code are.

  lemma EuropeUncoded(c: string)
    requires Uncoded(Europe1, c) && Uncoded(Europe2, c) && Uncoded(Europe3, c)
    ensures Uncoded(Europe, c)
  {
    UncodedAppend(Europe1, Europe2, c);
    UncodedAppend(Europe1 + Europe2, Europe3, c);
  }

  lemma AsiaUncoded(c: string)
    requires Uncoded(Asia1, c) && Uncoded(Asia2, c) && Uncoded(Asia3, c)
    ensures Uncoded(Asia, c)
  {
    UncodedAppend(Asia1, Asia2, c);
    UncodedAppend(Asia1 + Asia2, Asia3, c);
  }

  lemma AfricaUncoded(c: string)
    requires Uncoded(Africa1, c) && Uncoded(Africa2, c) && Uncoded(Africa3AsWritten, c) && c != "GW"
    ensures Uncoded(Africa, c)
  {
    Africa3Uncoded(c);
    UncodedAppend(Africa1, Africa2, c);
    UncodedAppend(Africa1 + Africa2, Africa3, c);
  }

  /** An entry of the table with a code that only Europe has is in Europe. */
  lemma InEurope(c: string, k: string)
    requires Uncoded(Asia, c) && Uncoded(Americas, c) && Uncoded(Africa, c) && Uncoded(Oceania, c)
    requires (k, c) in Mapping
    ensures (k, c) in Europe
  {
    UncodedSuffix(Europe + Asia + Americas + Africa, Oceania, c, k);
    UncodedSuffix(Europe + Asia + Americas, Africa, c, k);
    UncodedSuffix(Europe + Asia, Americas, c, k);
    UncodedSuffix(Europe, Asia, c, k);
  }

  /** An entry of the table with a code that only the Americas have is in the Americas. */
  lemma InAmericas(c: string, k: string)
    requires Uncoded(Europe, c) && Uncoded(Asia, c) && Uncoded(Africa, c) && Uncoded(Oceania, c)
    requires (k, c) in Mapping
    ensures (k, c) in Americas
  {
    UncodedSuffix(Europe + Asia + Americas + Africa, Oceania, c, k);
    UncodedSuffix(Europe + Asia + Americas, Africa, c, k);
    UncodedAppend(Europe, Asia, c);
    UncodedPrefix(Europe + Asia, Americas, c, k);
  }

  /** An entry of the table as written with a code that only Africa has is in Africa. */
  lemma InAfricaAsWritten(c: string, k: string)
    requires Uncoded(Europe, c) && Uncoded(Asia, c) && Uncoded(Americas, c) && Uncoded(Oceania, c)
    requires (k, c) in MappingAsWritten
    ensures (k, c) in AfricaAsWritten
  {
    UncodedSuffix(Europe + Asia + Americas + AfricaAsWritten, Oceania, c, k);
    UncodedAppend(Europe, Asia, c);
    UncodedAppend(Europe + Asia, Americas, c);
    UncodedPrefix(Europe + Asia + Americas, AfricaAsWritten, c, k);
  }

  /** Every GB entry is on line 11. */
  lemma GbEntries(k: string)
    requires (k, "GB") in Mapping
    ensures k == "uk" || k == "united kingdom" || k == "britain" || k == "british" || k == "england" || k == "english"
  {
    var c := "GB";
    Asia1NoGbUs();
    Asia2NoGbUs();
    Asia3NoGbUs();
    AsiaUncoded(c);
    Americas1NoGb();
    Americas2NoGbUs();
    UncodedAppend(Americas1, Americas2, c);
    Africa1NoGbUs();
    Africa2NoGbUs();
    Africa3AsWrittenNoGbUs();
    AfricaUncoded(c);
    OceaniaNoGbUs();
    InEurope(c, k);
    Europe2NoGbUs();
    Europe3NoGbUs();
    UncodedSuffix(Europe1 + Europe2, Europe3, c, k);
    UncodedSuffix(Europe1, Europe2, c, k);
    Europe1GbKey(k);
  }

  lemma Europe1GbKey(k: string)
    requires (k, "GB") in Europe1
    ensures k == "uk" || k == "united kingdom" || k == "britain" || k == "british" || k == "england" || k == "english"
  {
    Europe1GbEntries();
  }

  /** Every US entry is on line 103. */
  lemma UsEntries(k: string)
    requires (k, "US") in Mapping
    ensures k == "usa" || k == "united states" || k == "america" || k == "american" || k == "us"
  {
    var c := "US";
    Europe1NoUs();
    Europe2NoGbUs();
    Europe3NoGbUs();
    EuropeUncoded(c);
    Asia1NoGbUs();
    Asia2NoGbUs();
    Asia3NoGbUs();
    AsiaUncoded(c);
    Africa1NoGbUs();
    Africa2NoGbUs();
    Africa3AsWrittenNoGbUs();
    AfricaUncoded(c);
    OceaniaNoGbUs();
    InAmericas(c, k);
    Americas2NoGbUs();
    UncodedSuffix(Americas1, Americas2, c, k);
    Americas1UsKey(k);
  }

  lemma Americas1UsKey(k: string)
    requires (k, "US") in Americas1
    ensures k == "usa" || k == "united states" || k == "america" || k == "american" || k == "us"
  {
    Americas1UsEntries();
  }

  /** Every DO entry is on line 129. */
  lemma DoEntries(k: string)
    requires (k, "DO") in Mapping
    ensures k == "dominican republic" || k == "dominican"
  {
    var c := "DO";
    Europe1NoGwDo();
    Europe2NoGwDo();
    Europe3NoGwDo();
    EuropeUncoded(c);
    Asia1NoGwDo();
    Asia2NoGwDo();
    Asia3NoGwDo();
    AsiaUncoded(c);
    Africa1NoGwDo();
    Africa2NoGwDo();
    Africa3AsWrittenNoDo();
    AfricaUncoded(c);
    OceaniaNoGwDo();
    InAmericas(c, k);
    DoEntriesInAmericas(k);
  }

  lemma DoEntriesInAmericas(k: string)
    requires (k, "DO") in Americas
    ensures k == "dominican republic" || k == "dominican"
  {
    Americas1NoGwDo();
    UncodedPrefix(Americas1, Americas2, "DO", k);
    Americas2DoEntries();
    Americas2Dominican();
  }

  /** As written, the only GW entry is the one keyed `'guinea-Bissau'`. */
  lemma GwEntriesAsWritten(k: string)
    requires (k, "GW") in MappingAsWritten
    ensures k == "guinea-Bissau"
  {
    var c := "GW";
    Europe1NoGwDo();
    Europe2NoGwDo();
    Europe3NoGwDo();
    EuropeUncoded(c);
    Asia1NoGwDo();
    Asia2NoGwDo();
    Asia3NoGwDo();
    AsiaUncoded(c);
    Americas1NoGwDo();
    Americas2NoGw();
    UncodedAppend(Americas1, Americas2, c);
    OceaniaNoGwDo();
    InAfricaAsWritten(c, k);
    Africa1NoGwDo();
    Africa2NoGwDo();
    UncodedAppend(Africa1, Africa2, c);
    UncodedPrefix(Africa1 + Africa2, Africa3AsWritten, c, k);
    Africa3GuineaBissau();
  }

  /** The `'guinea-Bissau'` entry is the last one for its key, and so is the
      corrected entry for its own. */
  lemma GuineaBissauLastInAfrica()
    ensures LastValue(AfricaAsWritten, "guinea-Bissau") == Some("GW")
    ensures LastValue(Africa, "guinea-bissau") == Some("GW")
  {
    Africa3GuineaBissau();
    Africa3NoGuineaBissauAfter();
    LastValueAt(Africa3AsWritten, GuineaBissauAt);
    assert forall j | GuineaBissauAt < j < |Africa3| :: Africa3[j] == Africa3AsWritten[j];
    LastValueAt(Africa3, GuineaBissauAt);
    LastValueSuffix(Africa1 + Africa2, Africa3AsWritten, "guinea-Bissau");
    LastValueSuffix(Africa1 + Africa2, Africa3, "guinea-bissau");
  }

  lemma GuineaBissauLast()
    ensures LastValue(MappingAsWritten, "guinea-Bissau") == Some("GW")
    ensures LastValue(Mapping, "guinea-bissau") == Some("GW")
  {
    GuineaBissauLastInAfrica();
    OceaniaNoGuineaBissau();
    FromAfrica("guinea-Bissau", "guinea-bissau");
  }

  lemma FromAfrica(k1: string, k2: string)
    requires LastValue(AfricaAsWritten, k1).Some? && LastValue(Africa, k2).Some?
    requires Lacks(Oceania, k1) && Lacks(Oceania, k2)
    ensures LastValue(MappingAsWritten, k1) == LastValue(AfricaAsWritten, k1)
    ensures LastValue(Mapping, k2) == LastValue(Africa, k2)
  {
    LastValueSkip(Europe + Asia + Americas + AfricaAsWritten, Oceania, k1);
    LastValueSuffix(Europe + Asia + Americas, AfricaAsWritten, k1);
    LastValueSkip(Europe + Asia + Americas + Africa, Oceania, k2);
    LastValueSuffix(Europe + Asia + Americas, Africa, k2);
  }

  // The two tables differ in the key of one entry.

  lemma MappingsSplice()
    ensures MappingAsWritten == Before + [("guinea-Bissau", "GW")] + After
    ensures Mapping == Before + [("guinea-bissau", "GW")] + After
  {
    Africa3GuineaBissau();
    var w := Europe + Asia + Americas + Africa1 + Africa2;
    SpliceAt(w, Africa3AsWritten, GuineaBissauAt, ("guinea-bissau", "GW"), Oceania);
    assert MappingAsWritten == w + Africa3AsWritten + Oceania;
    assert Mapping == w + Africa3 + Oceania;
  }

  /** Neither spelling of the key occurs outside line 185. */
  lemma BeforeAfterLack(k: string)
    requires k == "guinea-Bissau" || k == "guinea-bissau"
    ensures Lacks(Before, k) && Lacks(After, k)
  {
    Europe1NoGuineaBissau();
    Europe2NoGuineaBissau();
    Europe3NoGuineaBissau();
    LacksAppend(Europe1, Europe2, k);
    LacksAppend(Europe1 + Europe2, Europe3, k);
    Asia1NoGuineaBissau();
    Asia2NoGuineaBissau();
    Asia3NoGuineaBissau();
    LacksAppend(Asia1, Asia2, k);
    LacksAppend(Asia1 + Asia2, Asia3, k);
    Americas1NoGuineaBissau();
    Americas2NoGuineaBissau();
    LacksAppend(Americas1, Americas2, k);
    Africa1NoGuineaBissau();
    Africa2NoGuineaBissau();
    BeforeLacks(k);
    Africa3NoGuineaBissauAfter();
    OceaniaNoGuineaBissau();
    LacksAppend(Africa3AsWritten[GuineaBissauAt + 1..], Oceania, k);
  }

  lemma BeforeLacks(k: string)
    requires k == "guinea-Bissau" || k == "guinea-bissau"
    requires Lacks(Europe, k) && Lacks(Asia, k) && Lacks(Americas, k) && Lacks(Africa1, k) && Lacks(Africa2, k)
    ensures Lacks(Before, k)
  {
    Africa3NoGuineaBissauBefore();
    var w := Europe + Asia + Americas + Africa1 + Africa2;
    LacksAppend(Europe, Asia, k);
    LacksAppend(Europe + Asia, Americas, k);
    LacksAppend(Europe + Asia + Americas, Africa1, k);
    LacksAppend(Europe + Asia + Americas + Africa1, Africa2, k);
    LacksAppend(w, Africa3AsWritten[..GuineaBissauAt], k);
  }

  lemma MappingsRekeyable()
    ensures Rekeyable(Before, ("guinea-Bissau", "GW"), ("guinea-bissau", "GW"), After)
  {
    BeforeAfterLack("guinea-Bissau");
    BeforeAfterLack("guinea-bissau");
  }

  // The exported functions, over the table as written.

  /** `getCountryIdFromTag(tag)`. */
  function GetCountryIdFromTag(tag: string): (r: Option<string>)
    ensures tag == "" ==> r == None
    ensures r.Some? ==> r.value != "" && r.value in CodesOf(MappingAsWritten)
  {
    CountryIdIn(MappingAsWritten, tag)
  }

  /** `getAllCountries()`. */
  function GetAllCountries(): (r: seq<string>)
    ensures NoDuplicates(r)
  {
    AllCodesIn(MappingAsWritten)
  }

  /** `getAdjectiveFromId(id)`. */
  function GetAdjectiveFromId(id: string): (r: Option<string>)
    ensures id == "" <==> r.None?
    ensures id == "other" ==> r == Some("Global / Other")
  {
    AdjectiveIn(MappingAsWritten, id)
  }

  // The same functions over the corrected table.

  function GetCountryIdFromTagCorrected(tag: string): (r: Option<string>)
    ensures tag == "" ==> r == None
    ensures r.Some? ==> r.value != "" && r.value in CodesOf(Mapping)
  {
    CountryIdIn(Mapping, tag)
  }

  function GetAllCountriesCorrected(): (r: seq<string>)
    ensures NoDuplicates(r)
  {
    AllCodesIn(Mapping)
  }

  function GetAdjectiveFromIdCorrected(id: string): (r: Option<string>)
    ensures id == "" <==> r.None?
    ensures id == "other" ==> r == Some("Global / Other")
  {
    AdjectiveIn(Mapping, id)
  }

  /** As written, a tag that reads `guinea-bissau` finds no code; every other tag
      resolves as it does over the corrected table. */
  lemma LookupAsWritten(tag: string)
    ensures GetCountryIdFromTag(tag) ==
      if tag != "" && LowerStr(Trim(tag)) == "guinea-bissau" then None else GetCountryIdFromTagCorrected(tag)
  {
    MappingsSplice();
    MappingsRekeyable();
    NoTagReadsGuineaBissau(tag);
    var x, y := ("guinea-Bissau", "GW"), ("guinea-bissau", "GW");
    if tag != "" && LowerStr(Trim(tag)) == "guinea-bissau" {
      LookupOldMisses(Before, x, y, After, tag);
    } else {
      LookupRekey(Before, x, y, After, tag);
    }
  }

  /** Every code but GW reads the same adjective over either table. */
  lemma AdjectiveAsWritten(id: string)
    requires id != "GW"
    ensures GetAdjectiveFromId(id) == GetAdjectiveFromIdCorrected(id)
  {
    MappingsSplice();
    MappingsRekeyable();
    AdjectiveRekey(Before, ("guinea-Bissau", "GW"), ("guinea-bissau", "GW"), After, id);
  }

  /** Both tables list the same codes. */
  lemma AllCountriesAsWritten(c: string)
    ensures c in GetAllCountries() <==> c in GetAllCountriesCorrected()
  {
    MappingsSplice();
    MappingsRekeyable();
    AllCodesRekey(Before, ("guinea-Bissau", "GW"), ("guinea-bissau", "GW"), After, c);
  }

  // Tags as a lookup sees them.

  lemma FranceTag()
    ensures LowerStr(Trim(" France ")) == "france"
    ensures LowerStr(Trim("france")) == "france"
  {
    FranceTrimmed();
    FranceLowered();
  }

  lemma FranceTrimmed()
    ensures Trim(" France ") == "France" && Trim("france") == "france"
  {
    assert " France " == " " + "France" + " ";
    TrimSurrounded(" ", "France", " ");
    TrimOfTrimmed("france");
  }

  lemma FranceLowered()
    ensures LowerStr("France") == "france" && LowerStr("france") == "france"
  {
  }

  lemma DominicanTags()
    ensures LowerStr(Trim("Dominican")) == "dominican"
    ensures LowerStr(Trim("Dominican Republic")) == "dominican republic"
  {
    DominicanTrimmed();
    DominicanLowered();
  }

  lemma DominicanTrimmed()
    ensures Trim("Dominican") == "Dominican" && Trim("Dominican Republic") == "Dominican Republic"
  {
    TrimOfTrimmed("Dominican");
    TrimOfTrimmed("Dominican Republic");
  }

  lemma DominicanLowered()
    ensures LowerStr("Dominican") == "dominican"
    ensures LowerStr("Dominican Republic") == "dominican republic"
  {
  }

  lemma GuineaBissauTag()
    ensures LowerStr(Trim("Guinea-Bissau")) == "guinea-bissau"
  {
    GuineaBissauTrimmed();
    GuineaBissauLowered();
  }

  lemma GuineaBissauTrimmed()
    ensures Trim("Guinea-Bissau") == "Guinea-Bissau"
  {
    TrimOfTrimmed("Guinea-Bissau");
  }

  lemma GuineaBissauLowered()
    ensures LowerStr("Guinea-Bissau") == "guinea-bissau"
  {
  }

  /** `" France "` and `"france"` both resolve to FR. */
  lemma ExampleFrance()
    ensures GetCountryIdFromTag(" France ") == Some("FR")
    ensures GetCountryIdFromTag("france") == Some("FR")
  {
    FranceCorrected();
    FranceTag();
    LookupAsWritten(" France ");
    LookupAsWritten("france");
  }

  lemma FranceCorrected()
    ensures GetCountryIdFromTagCorrected(" France ") == Some("FR")
    ensures GetCountryIdFromTagCorrected("france") == Some("FR")
  {
    FranceTag();
    MappingFrance();
    LookupIsLastEntry(Mapping, " France ");
    LookupIsLastEntry(Mapping, "france");
  }

  /** `'dominican'` is listed twice; the later entry wins, so it resolves to DM. */
  lemma ExampleDominican()
    ensures GetCountryIdFromTag("Dominican") == Some("DM")
    ensures GetCountryIdFromTag("Dominican Republic") == Some("DO")
  {
    DominicanCorrected();
    DominicanTags();
    LookupAsWritten("Dominican");
    LookupAsWritten("Dominican Republic");
  }

  lemma DominicanCorrected()
    ensures GetCountryIdFromTagCorrected("Dominican") == Some("DM")
    ensures GetCountryIdFromTagCorrected("Dominican Republic") == Some("DO")
  {
    DominicanTags();
    MappingDominican();
    LookupIsLastEntry(Mapping, "Dominican");
    LookupIsLastEntry(Mapping, "Dominican Republic");
  }

  /** DO is reached only through `'dominican republic'`. */
  lemma DoOnlyViaDominicanRepublic(tag: string)
    ensures GetCountryIdFromTag(tag) == Some("DO") <==> tag != "" && LowerStr(Trim(tag)) == "dominican republic"
  {
    LookupAsWritten(tag);
    DoOnlyViaDominicanRepublicCorrected(tag);
  }

  lemma DoOnlyViaDominicanRepublicCorrected(tag: string)
    ensures GetCountryIdFromTagCorrected(tag) == Some("DO") <==> tag != "" && LowerStr(Trim(tag)) == "dominican republic"
  {
    if tag != "" {
      var key := LowerStr(Trim(tag));
      LookupIsLastEntry(Mapping, tag);
      MappingDominican();
      if LastValue(Mapping, key) == Some("DO") {
        DoEntries(key);
      }
    }
  }

  /** As written, no tag resolves to GW: its one key has an upper-case letter. */
  lemma GuineaBissauUnreachable(tag: string)
    ensures GetCountryIdFromTag(tag) != Some("GW")
  {
    if tag != "" {
      LookupIsLastEntry(MappingAsWritten, tag);
      NoTagReadsGuineaBissau(tag);
      GwOnlyFromUpperKey(LowerStr(Trim(tag)));
    }
  }

  lemma NoTagReadsGuineaBissau(tag: string)
    ensures LowerStr(Trim(tag)) != "guinea-Bissau"
  {
    KeyWithUpperCaseUnreachable("guinea-Bissau", tag, 7);
  }

  lemma GwOnlyFromUpperKey(key: string)
    ensures LastValue(MappingAsWritten, key) == Some("GW") ==> key == "guinea-Bissau"
  {
    if LastValue(MappingAsWritten, key) == Some("GW") {
      GwEntriesAsWritten(key);
    }
  }

  /** As written, GW is still listed among the codes. */
  lemma GuineaBissauListed()
    ensures "GW" in GetAllCountries()
    ensures "GW" in GetAllCountriesCorrected()
  {
    GuineaBissauLast();
    AllCodesAreLastValues(MappingAsWritten, "GW");
    AllCodesAreLastValues(Mapping, "GW");
  }

  /** As written, "Guinea-Bissau" finds no code. */
  lemma GuineaBissauAsWritten()
    ensures GetCountryIdFromTag("Guinea-Bissau") == None
  {
    GuineaBissauTag();
    LookupAsWritten("Guinea-Bissau");
  }

  /** With the key in lower case, "Guinea-Bissau" resolves to GW. */
  lemma ExampleGuineaBissau()
    ensures GetCountryIdFromTagCorrected("Guinea-Bissau") == Some("GW")
  {
    GuineaBissauTag();
    GuineaBissauLast();
    LookupIsLastEntry(Mapping, "Guinea-Bissau");
  }

  // The adjectives for GB and US.

  lemma UkScore() ensures Score("uk") == 102 { assert EndsWith("uk", AdjectiveSuffixes[5]); }
  lemma UnitedKingdomScore() ensures Score("united kingdom") == -36 { }
  lemma BritainScore() ensures Score("britain") == 7 { }
  lemma BritishScore() ensures Score("british") == 107 { assert EndsWith("british", AdjectiveSuffixes[2]); }
  lemma EnglandScore() ensures Score("england") == 7 { }
  lemma EnglishScore() ensures Score("english") == 107 { assert EndsWith("english", AdjectiveSuffixes[2]); }
  lemma UsaScore() ensures Score("usa") == 3 { }
  lemma UnitedStatesScore() ensures Score("united states") == -37 { }
  lemma AmericaScore() ensures Score("america") == 7 { }
  lemma AmericanScore() ensures Score("american") == 108 { assert EndsWith("american", AdjectiveSuffixes[1]); }
  lemma UsScore() ensures Score("us") == 2 { }

  /** On line 11, `'british'` and `'english'` share the top score, 107. */
  lemma GbKeyScores(k: string)
    requires k == "uk" || k == "united kingdom" || k == "britain" || k == "british" || k == "england" || k == "english"
    ensures Score(k) <= 107
    ensures Score(k) == 107 ==> k == "british" || k == "english"
  {
    UkScore();
    UnitedKingdomScore();
    BritainScore();
    BritishScore();
    EnglandScore();
    EnglishScore();
  }

  /** On line 103, `'american'` alone has the top score, 108. */
  lemma UsKeyScores(k: string)
    requires k == "usa" || k == "united states" || k == "america" || k == "american" || k == "us"
    ensures Score(k) <= 108
    ensures Score(k) == 108 ==> k == "american"
  {
    UsaScore();
    UnitedStatesScore();
    AmericaScore();
    AmericanScore();
    UsScore();
  }

  lemma MappingStartsWithEurope1(i: nat)
    requires i < |Europe1|
    ensures Mapping[i] == Europe1[i]
  {
  }

  /** `'british'` is listed before `'english'`. */
  lemma BritishBeforeEnglish()
    ensures !FirstBefore(KeysOf(Mapping), "english", "british")
  {
    Europe1EnglishAfterBritish();
    Europe1British();
    forall i | 0 <= i < 14 ensures KeysOf(Mapping)[i] == Europe1[i].0 {
      MappingStartsWithEurope1(i);
    }
    NotFirstBefore(KeysOf(Mapping), "english", "british", 13);
  }

  lemma GbBest()
    ensures IsBestKey(Mapping, "GB", "british")
  {
    MappingBritish();
    BritishScore();
    forall k | LastValue(Mapping, k) == Some("GB")
      ensures Score(k) <= 107 && (Score(k) == 107 ==> k == "british" || k == "english")
    {
      GbScoreBound(k);
    }
    forall k | LastValue(Mapping, k) == Some("GB") && Score(k) == Score("british")
      ensures !FirstBefore(KeysOf(Mapping), k, "british")
    {
      GbScoreBound(k);
      if k == "english" {
        BritishBeforeEnglish();
      } else {
        FirstBeforeIrreflexive(KeysOf(Mapping), k);
      }
    }
  }

  lemma GbScoreBound(k: string)
    requires LastValue(Mapping, k) == Some("GB")
    ensures Score(k) <= 107 && (Score(k) == 107 ==> k == "british" || k == "english")
  {
    GbEntries(k);
    GbKeyScores(k);
  }

  lemma UsBest()
    ensures IsBestKey(Mapping, "US", "american")
  {
    MappingAmerican();
    AmericanScore();
    forall k | LastValue(Mapping, k) == Some("US")
      ensures Score(k) <= 108 && (Score(k) == 108 ==> k == "american")
    {
      UsScoreBound(k);
    }
    FirstBeforeIrreflexive(KeysOf(Mapping), "american");
  }

  lemma UsScoreBound(k: string)
    requires LastValue(Mapping, k) == Some("US")
    ensures Score(k) <= 108 && (Score(k) == 108 ==> k == "american")
  {
    UsEntries(k);
    UsKeyScores(k);
  }

  lemma CapitalizedBritishAmerican()
    ensures CapitalizeWords("british") == "British"
    ensures CapitalizeWords("american") == "American"
  {
    CapitalizeWordsCharwise("british");
    CapitalizeWordsCharwise("american");
    CapitalizedBritishAmericanChars();
  }

  lemma CapitalizedBritishAmericanChars()
    ensures CapitalizeAfterSpaces("british") == "British"
    ensures CapitalizeAfterSpaces("american") == "American"
  {
  }

  /** GB reads "British": `'british'` ties `'english'` at 107 and comes first. */
  lemma ExampleAdjectiveGb()
    ensures GetAdjectiveFromId("GB") == Some("British")
  {
    AdjectiveGbCorrected();
    AdjectiveAsWritten("GB");
  }

  lemma AdjectiveGbCorrected()
    ensures GetAdjectiveFromIdCorrected("GB") == Some("British")
  {
    GbBest();
    AdjectivePick(Mapping, "GB");
    var k :| IsBestKey(Mapping, "GB", k) && AdjectiveIn(Mapping, "GB") == Some(CapitalizeWords(k));
    BestKeyUnique(Mapping, "GB", k, "british");
    CapitalizedBritishAmerican();
  }

  /** US reads "American", the only key with an adjective suffix. */
  lemma ExampleAdjectiveUs()
    ensures GetAdjectiveFromId("US") == Some("American")
  {
    AdjectiveUsCorrected();
    AdjectiveAsWritten("US");
  }

  lemma AdjectiveUsCorrected()
    ensures GetAdjectiveFromIdCorrected("US") == Some("American")
  {
    UsBest();
    AdjectivePick(Mapping, "US");
    var k :| IsBestKey(Mapping, "US", k) && AdjectiveIn(Mapping, "US") == Some(CapitalizeWords(k));
    BestKeyUnique(Mapping, "US", k, "american");
    CapitalizedBritishAmerican();
  }

  // The adjective for GW.

  /** As written, GW reads "Guinea-Bissau": its one key keeps its upper-case B. */
  lemma ExampleAdjectiveGw()
    ensures GetAdjectiveFromId("GW") == Some("Guinea-Bissau")
  {
    GwBestAsWritten();
    AdjectivePick(MappingAsWritten, "GW");
    var k :| IsBestKey(MappingAsWritten, "GW", k) && AdjectiveIn(MappingAsWritten, "GW") == Some(CapitalizeWords(k));
    BestKeyUnique(MappingAsWritten, "GW", k, "guinea-Bissau");
    CapitalizedGuineaBissau();
  }

  /** With the key in lower case, GW reads "Guinea-bissau": only the first letter
      of a word is raised, and the hyphen does not start a word. */
  lemma ExampleAdjectiveGwCorrected()
    ensures GetAdjectiveFromIdCorrected("GW") == Some("Guinea-bissau")
  {
    GwBest();
    AdjectivePick(Mapping, "GW");
    var k :| IsBestKey(Mapping, "GW", k) && AdjectiveIn(Mapping, "GW") == Some(CapitalizeWords(k));
    BestKeyUnique(Mapping, "GW", k, "guinea-bissau");
    CapitalizedGuineaBissau();
  }

  lemma GwBestAsWritten()
    ensures IsBestKey(MappingAsWritten, "GW", "guinea-Bissau")
  {
    GuineaBissauLast();
    forall k | LastValue(MappingAsWritten, k) == Some("GW") ensures k == "guinea-Bissau" {
      GwOnlyFromUpperKey(k);
    }
    FirstBeforeIrreflexive(KeysOf(MappingAsWritten), "guinea-Bissau");
  }

  lemma GwBest()
    ensures IsBestKey(Mapping, "GW", "guinea-bissau")
  {
    GuineaBissauLast();
    forall k | LastValue(Mapping, k) == Some("GW") ensures k == "guinea-bissau" {
      GwOnlyFromLowerKey(k);
    }
    FirstBeforeIrreflexive(KeysOf(Mapping), "guinea-bissau");
  }

  /** In the corrected table the only GW entry is the lower-case one. */
  lemma GwOnlyFromLowerKey(k: string)
    requires LastValue(Mapping, k) == Some("GW")
    ensures k == "guinea-bissau"
  {
    var x, y := ("guinea-Bissau", "GW"), ("guinea-bissau", "GW");
    MappingsSplice();
    if (k, "GW") != y {
      EntryRekey(Before, x, y, After, (k, "GW"));
      GwEntriesAsWritten(k);
      BeforeAfterLack(k);
      OnlyEntry(Before, y, After, k);
    }
  }

  lemma CapitalizedGuineaBissau()
    ensures CapitalizeWords("guinea-Bissau") == "Guinea-Bissau"
    ensures CapitalizeWords("guinea-bissau") == "Guinea-bissau"
  {
    CapitalizeWordsCharwise("guinea-Bissau");
    CapitalizeWordsCharwise("guinea-bissau");
    CapitalizedGuineaBissauChars();
  }

  lemma CapitalizedGuineaBissauChars()
    ensures CapitalizeAfterSpaces("guinea-Bissau") == "Guinea-Bissau"
    ensures CapitalizeAfterSpaces("guinea-bissau") == "Guinea-bissau"
  {
  }
}

=== FILE: duration.dfy ===
/** Reading a free-text preparation time such as "1h 30m", "2 hours" or "45" as a
    number of minutes (`parseDuration` in renderer/modules/utils.js).

    The two regular expressions `(\d+)\s*(?:h|hr|hour)` and `(\d+)\s*(?:m|min)` are
    modelled as explicit leftmost-match scanners: the longer alternatives `hr`,
    `hour` and `min` all begin with the one-letter alternative, which is tried first
    and always suffices, so a unit is a single letter here. */
module Duration {
  import opened Text
  import opened Wrappers

  /** The end of the run of digits that starts at `i`. */
  function DigitRunEnd(s: string, i: nat): (j: nat)
    requires i <= |s|
    ensures i <= j <= |s|
    ensures forall k | i <= k < j :: IsDigit(s[k])
    ensures j == |s| || !IsDigit(s[j])
    decreases |s| - i
  {
    if i < |s| && IsDigit(s[i]) then DigitRunEnd(s, i + 1) else i
  }

  /** How a backtracking matcher reads `\d+\s*u` at index `i`: the digit run is
      taken greedily, and giving digits back can never help because the character
      after a shorter run is a digit, neither white space nor the unit letter. */
  predicate UnitMatchAt(s: string, i: nat, u: char)
    requires i <= |s|
  {
    && i < |s|
    && IsDigit(s[i])
    && var k := SkipSpaces(s, DigitRunEnd(s, i));
       k < |s| && s[k] == u
  }

  /** The characters from `i` up to `j` are all digits. */
  predicate DigitsBetween(s: string, i: nat, j: nat)
    requires i <= j <= |s|
  {
    forall m | i <= m < j :: IsDigit(s[m])
  }

  /** The characters from `j` up to `k` are all white space. */
  predicate SpacesBetween(s: string, j: nat, k: nat)
    requires j <= k <= |s|
  {
    forall m | j <= m < k :: IsSpace(s[m])
  }

  /** The regular expression `\d+\s*u` read literally: some non-empty digit run at
      `i`, then some white space, then `u`. */
  ghost predicate RegexMatchAt(s: string, i: nat, u: char) {
    exists j, k | i < j <= k < |s| :: DigitsBetween(s, i, j) && SpacesBetween(s, j, k) && s[k] == u
  }

  /** `DigitRunEnd` is the one index that ends a maximal digit run. */
  lemma {:induction false} DigitRunEndIs(s: string, i: nat, j: nat)
    requires i <= j <= |s| && DigitsBetween(s, i, j) && (j == |s| || !IsDigit(s[j]))
    ensures DigitRunEnd(s, i) == j
    decreases j - i
  {
    if i < j {
      DigitRunEndIs(s, i + 1, j);
    }
  }

  /** The greedy scanner accepts exactly where the regular expression matches. */
  lemma GreedyIsRegex(s: string, i: nat, u: char)
    requires i <= |s|
    requires !IsDigit(u) && !IsSpace(u)
    ensures UnitMatchAt(s, i, u) <==> RegexMatchAt(s, i, u)
  {
    if RegexMatchAt(s, i, u) {
      var j, k :| i < j <= k < |s| && DigitsBetween(s, i, j) && SpacesBetween(s, j, k) && s[k] == u;
      assert !IsDigit(s[j]);
      DigitRunEndIs(s, i, j);
      SkipSpacesIs(s, j, k);
    }
    if UnitMatchAt(s, i, u) {
      var j := DigitRunEnd(s, i);
      var k := SkipSpaces(s, j);
      assert i < j <= k < |s| && DigitsBetween(s, i, j) && SpacesBetween(s, j, k);
    }
  }

  /** The leftmost index at or after `from` where `\d+\s*u` matches. */
  function FirstUnitMatch(s: string, from: nat, u: char): (r: Option<nat>)
    requires from <= |s|
    ensures r.Some? ==> from <= r.value < |s|
    decreases |s| - from
  {
    if from == |s| then None
    else if UnitMatchAt(s, from, u) then Some(from)
    else FirstUnitMatch(s, from + 1, u)
  }

  /** The scan finds a match with none before it, and finds none exactly when
      there is none. */
  lemma FirstUnitMatchIsLeftmost(s: string, from: nat, u: char)
    requires from <= |s|
    ensures var r := FirstUnitMatch(s, from, u);
      && (r.Some? ==> UnitMatchAt(s, r.value, u) && forall i | from <= i < r.value :: !UnitMatchAt(s, i, u))
      && (r.None? <==> forall i | from <= i <= |s| :: !UnitMatchAt(s, i, u))
  {
    FirstUnitMatchFound(s, from, u);
    FirstUnitMatchNone(s, from, u);
  }

  lemma {:induction false} FirstUnitMatchFound(s: string, from: nat, u: char)
    requires from <= |s|
    ensures var r := FirstUnitMatch(s, from, u);
      r.Some? ==> UnitMatchAt(s, r.value, u) && forall i | from <= i < r.value :: !UnitMatchAt(s, i, u)
    decreases |s| - from
  {
    if from == |s| {
    } else if UnitMatchAt(s, from, u) {
      assert FirstUnitMatch(s, from, u) == Some(from);
    } else {
      FirstUnitMatchFound(s, from + 1, u);
      var r := FirstUnitMatch(s, from + 1, u);
      assert FirstUnitMatch(s, from, u) == r;
      if r.Some? {
        forall i | from <= i < r.value
          ensures !UnitMatchAt(s, i, u)
        {
          if i > from {
            assert from + 1 <= i < r.value;
          }
        }
      }
    }
  }

  lemma {:induction false} FirstUnitMatchNone(s: string, from: nat, u: char)
    requires from <= |s|
    ensures FirstUnitMatch(s, from, u).None? ==> forall i | from <= i <= |s| :: !UnitMatchAt(s, i, u)
    decreases |s| - from
  {
    if from < |s| && !UnitMatchAt(s, from, u) {
      FirstUnitMatchNone(s, from + 1, u);
      assert FirstUnitMatch(s, from, u) == FirstUnitMatch(s, from + 1, u);
    }
  }

  /** The number captured by the leftmost match of `\d+\s*u`, or 0 without one. */
  function UnitAmount(s: string, u: char): nat {
    match FirstUnitMatch(s, 0, u)
    case None => 0
    case Some(i) =>
      var j := DigitRunEnd(s, i);
      assert AllDigits(s[i..j]) by {
        assert forall m | 0 <= m < j - i :: s[i..j][m] == s[i + m];
      }
      DigitsValue(s[i..j])
  }

  /** A non-empty string of digits only: `/^\d+$/`. */
  predicate IsNumeral(s: string) {
    |s| > 0 && AllDigits(s)
  }

  /** `parseDuration(timeStr)`: hours times sixty plus minutes, each read from
      the first number followed by its unit letter; a bare number counts as
      minutes; anything else is zero. */
  function ParseDuration(text: string): (r: nat)
    ensures text == "" ==> r == 0
  {
    if text == "" then 0
    else
      var t := LowerStr(text);
      var minutes := 60 * UnitAmount(t, 'h') + UnitAmount(t, 'm');
      var trimmed := Trim(t);
      if minutes == 0 && IsNumeral(trimmed) then DigitsValue(trimmed) else minutes
  }

  /** A match starting right at `from` is the leftmost one. */
  lemma FirstMatchHere(s: string, from: nat, u: char)
    requires from <= |s| && UnitMatchAt(s, from, u)
    ensures FirstUnitMatch(s, from, u) == Some(from)
  {
  }

  /** Where the unit letter does not occur, the expression cannot match. */
  lemma NoUnitNoMatch(s: string, u: char)
    requires u !in s
    ensures UnitAmount(s, u) == 0
  {
    assert forall i | 0 <= i <= |s| :: !UnitMatchAt(s, i, u);
    FirstUnitMatchIsLeftmost(s, 0, u);
  }

  /** Lower-casing changes neither digits nor white space. */
  lemma LowerOfDigitsAndSpaces(s: string)
    requires forall k | 0 <= k < |s| :: IsDigit(s[k]) || IsSpace(s[k])
    ensures LowerStr(s) == s
  {
  }

  /** A bare number, possibly padded with white space, is read as minutes. */
  lemma BareNumberIsMinutes(text: string)
    requires IsNumeral(Trim(text))
    requires forall k | 0 <= k < |text| :: IsDigit(text[k]) || IsSpace(text[k])
    ensures ParseDuration(text) == DigitsValue(Trim(text))
  {
    LowerOfDigitsAndSpaces(text);
    NoUnitNoMatch(text, 'h');
    NoUnitNoMatch(text, 'm');
  }

  /** Text with no unit letter in either case and no bare number reads as zero. */
  lemma UnreadableIsZero(text: string)
    requires forall k | 0 <= k < |text| :: Lower(text[k]) != 'h' && Lower(text[k]) != 'm'
    requires !IsNumeral(Trim(LowerStr(text)))
    ensures ParseDuration(text) == 0
  {
    if text != "" {
      NoUnitNoMatch(LowerStr(text), 'h');
      NoUnitNoMatch(LowerStr(text), 'm');
    }
  }

  /** In text that starts with a number `x`, white space `w` and a letter `v`
      other than `u`, no match of `\d+\s*u` starts inside `x`, `w` or at `v`. */
  lemma NoMatchBefore(s: string, x: string, w: string, v: char, u: char)
    requires IsNumeral(x) && AllSpaces(w) && !IsDigit(v) && !IsSpace(v) && v != u
    requires |x| + |w| < |s| && s[..|x| + |w| + 1] == x + w + [v]
    ensures forall i | 0 <= i <= |x| + |w| :: !UnitMatchAt(s, i, u)
  {
    var e := |x| + |w|;
    assert forall m | 0 <= m < |x| :: s[m] == x[m];
    assert forall m | |x| <= m < e :: s[m] == w[m - |x|];
    assert s[e] == v;
    SkipSpacesIs(s, |x|, e);
    forall i | 0 <= i < |x|
      ensures DigitRunEnd(s, i) == |x|
    {
      DigitRunEndIs(s, i, |x|);
    }
  }

  /** A number, then white space, then the unit letter: a match that captures
      exactly the number. */
  lemma MatchAtNumeral(s: string, p: nat, y: string, w: string, u: char)
    requires IsNumeral(y) && AllSpaces(w) && !IsDigit(u) && !IsSpace(u)
    requires p + |y| + |w| < |s| && s[p..p + |y| + |w| + 1] == y + w + [u]
    ensures UnitMatchAt(s, p, u)
    ensures DigitRunEnd(s, p) == p + |y|
  {
    var e := p + |y| + |w|;
    assert forall m | p <= m < p + |y| :: s[m] == y[m - p];
    assert forall m | p + |y| <= m < e :: s[m] == w[m - p - |y|];
    assert s[e] == u;
    DigitRunEndIs(s, p, p + |y|);
    SkipSpacesIs(s, p + |y|, e);
  }

  /** When the first match of `\d+\s*u` is at `p` and captures `y`, the amount
      read is the value of `y`. */
  lemma AmountOfFirstMatch(s: string, p: nat, y: string, w: string, u: char)
    requires IsNumeral(y) && AllSpaces(w) && !IsDigit(u) && !IsSpace(u)
    requires p + |y| + |w| < |s| && s[p..p + |y| + |w| + 1] == y + w + [u]
    requires forall i | 0 <= i < p :: !UnitMatchAt(s, i, u)
    ensures UnitAmount(s, u) == DigitsValue(y)
  {
    MatchAtNumeral(s, p, y, w, u);
    FirstUnitMatchIs(s, 0, u, p);
    assert s[p..DigitRunEnd(s, p)] == s[p..p + |y| + |w| + 1][..|y|] == y;
  }

  /** The scan from `from` stops at the first match `p` after it. */
  lemma {:induction false} FirstUnitMatchIs(s: string, from: nat, u: char, p: nat)
    requires from <= p < |s| && UnitMatchAt(s, p, u)
    requires forall i | from <= i < p :: !UnitMatchAt(s, i, u)
    ensures FirstUnitMatch(s, from, u) == Some(p)
    decreases p - from
  {
    if from < p {
      FirstUnitMatchIs(s, from + 1, u, p);
      assert !UnitMatchAt(s, from, u);
      assert FirstUnitMatch(s, from, u) == FirstUnitMatch(s, from + 1, u);
      assert FirstUnitMatch(s, from, u) == Some(p);
    } else {
      FirstMatchHere(s, from, u);
      assert FirstUnitMatch(s, from, u) == Some(p);
    }
  }

  /** No digit, no match. */
  predicate NoDigits(a: string) {
    forall k | 0 <= k < |a| :: !IsDigit(a[k])
  }

  /** In "X u a Y v b", with white space allowed before each unit letter and no
      digit between the first letter and `Y`, the amount for `u` is X and the
      amount for `v` is Y: each expression skips what the other one reads. */
  lemma TwoAmounts(x: string, w1: string, u: char, a: string, y: string, w2: string, v: char, b: string)
    requires IsNumeral(x) && IsNumeral(y) && AllSpaces(w1) && AllSpaces(w2) && NoDigits(a)
    requires !IsDigit(u) && !IsSpace(u) && !IsDigit(v) && !IsSpace(v) && u != v
    ensures UnitAmount(x + w1 + [u] + a + y + w2 + [v] + b, u) == DigitsValue(x)
    ensures UnitAmount(x + w1 + [u] + a + y + w2 + [v] + b, v) == DigitsValue(y)
  {
    var head, tail := x + w1 + [u], y + w2 + [v];
    var s := head + a + tail + b;
    assert s == x + w1 + [u] + a + y + w2 + [v] + b;
    assert s[..|head|] == head;
    assert s[|head|..|head| + |a|] == a;
    assert s[|head| + |a|..|head| + |a| + |tail|] == tail;
    AmountOfFirstMatch(s, 0, x, w1, u);
    SecondAmount(s, x, w1, u, a, y, w2, v);
  }

  lemma SecondAmount(s: string, x: string, w1: string, u: char, a: string, y: string, w2: string, v: char)
    requires IsNumeral(x) && IsNumeral(y) && AllSpaces(w1) && AllSpaces(w2) && NoDigits(a)
    requires !IsDigit(u) && !IsSpace(u) && !IsDigit(v) && !IsSpace(v) && u != v
    requires var e := |x| + |w1| + 1; var p := e + |a|;
      && p + |y| + |w2| < |s|
      && s[..e] == x + w1 + [u] && s[e..p] == a && s[p..p + |y| + |w2| + 1] == y + w2 + [v]
    ensures UnitAmount(s, v) == DigitsValue(y)
  {
    var e := |x| + |w1| + 1;
    var p := e + |a|;
    NoMatchBefore(s, x, w1, u, v);
    NoMatchIn(s, e, a, v);
    forall i | 0 <= i < p
      ensures !UnitMatchAt(s, i, v)
    {
      if i >= e {
        assert e <= i < e + |a|;
      }
    }
    assert s[p..p + |y| + |w2| + 1] == y + w2 + [v];
    AmountOfFirstMatch(s, p, y, w2, v);
  }

  /** No match starts inside text without digits. */
  lemma NoMatchIn(s: string, e: nat, a: string, u: char)
    requires e + |a| <= |s| && s[e..e + |a|] == a && NoDigits(a)
    ensures forall i | e <= i < e + |a| :: !UnitMatchAt(s, i, u)
  {
    forall i | e <= i < e + |a|
      ensures !IsDigit(s[i])
    {
      assert s[i] == s[e..e + |a|][i - e];
    }
  }

  /** In "X u a", with no digit after the letter, the amount for `u` is X and
      there is none for any other letter `v`. */
  lemma OneAmount(x: string, w: string, u: char, a: string, v: char)
    requires IsNumeral(x) && AllSpaces(w) && NoDigits(a)
    requires !IsDigit(u) && !IsSpace(u) && u != v
    ensures UnitAmount(x + w + [u] + a, u) == DigitsValue(x)
    ensures UnitAmount(x + w + [u] + a, v) == 0
  {
    var head := x + w + [u];
    var s := head + a;
    assert s[..|head|] == head;
    AmountOfFirstMatch(s, 0, x, w, u);
    NoAmountAfter(s, x, w, u, a, v);
  }

  lemma NoAmountAfter(s: string, x: string, w: string, u: char, a: string, v: char)
    requires IsNumeral(x) && AllSpaces(w) && NoDigits(a)
    requires !IsDigit(u) && !IsSpace(u) && u != v
    requires s == x + w + [u] + a && s[..|x| + |w| + 1] == x + w + [u]
    ensures UnitAmount(s, v) == 0
  {
    var e := |x| + |w| + 1;
    NoMatchBefore(s, x, w, u, v);
    assert forall i | e <= i < |s| :: s[i] == a[i - e];
    FirstUnitMatchIsLeftmost(s, 0, v);
  }

  /** Lower-casing text made of numbers, white space, two unit letters and other
      text changes only the letters and the other text. */
  lemma LowerPieces(x: string, w1: string, c: char, a: string, y: string, w2: string, d: char, b: string)
    requires AllDigits(x) && AllDigits(y) && AllSpaces(w1) && AllSpaces(w2)
    ensures LowerStr(x + w1 + [c] + a + y + w2 + [d] + b)
      == x + w1 + [Lower(c)] + LowerStr(a) + y + w2 + [Lower(d)] + LowerStr(b)
  {
    LowerOfDigitsAndSpaces(x);
    LowerOfDigitsAndSpaces(w1);
    LowerOfDigitsAndSpaces(y);
    LowerOfDigitsAndSpaces(w2);
    LowerStrAppend(x + w1 + [c] + a + y + w2 + [d], b);
    LowerStrAppend(x + w1 + [c] + a + y + w2, [d]);
    LowerStrAppend(x + w1 + [c] + a + y, w2);
    LowerStrAppend(x + w1 + [c] + a, y);
    LowerStrAppend(x + w1 + [c], a);
    LowerStrAppend(x + w1, [c]);
    LowerStrAppend(x, w1);
  }

  /** Lower-casing keeps text free of digits. */
  lemma LowerNoDigits(a: string)
    requires NoDigits(a)
    ensures NoDigits(LowerStr(a))
  {
    forall k | 0 <= k < |a| ensures !IsDigit(LowerStr(a)[k]) {
      LowerProperties(a[k]);
    }
  }

  /** Text holding a character that is neither a digit nor white space is no
      bare number. */
  lemma LetterNotNumeral(t: string, k: nat)
    requires k < |t| && !IsDigit(t[k]) && !IsSpace(t[k])
    ensures !IsNumeral(Trim(t))
  {
    TrimKeeps(t, k);
  }

  /** "X hours Y minutes" and "Y minutes X hours", in either case, with or
      without white space before each unit and with any text free of digits
      after the first unit, read as 60·X + Y minutes: the two units are found
      independently of their order. */
  lemma HoursAndMinutesInEitherOrder(x: string, w1: string, h: char, a: string, y: string, w2: string, m: char, b: string)
    requires IsNumeral(x) && IsNumeral(y) && AllSpaces(w1) && AllSpaces(w2) && NoDigits(a)
    requires Lower(h) == 'h' && Lower(m) == 'm'
    ensures ParseDuration(x + w1 + [h] + a + y + w2 + [m] + b) == 60 * DigitsValue(x) + DigitsValue(y)
    ensures ParseDuration(y + w2 + [m] + a + x + w1 + [h] + b) == 60 * DigitsValue(x) + DigitsValue(y)
  {
    LowerNoDigits(a);
    HoursFirst(x, w1, h, a, y, w2, m, b);
    MinutesFirst(x, w1, h, a, y, w2, m, b);
  }

  lemma HoursFirst(x: string, w1: string, h: char, a: string, y: string, w2: string, m: char, b: string)
    requires IsNumeral(x) && IsNumeral(y) && AllSpaces(w1) && AllSpaces(w2) && NoDigits(LowerStr(a))
    requires Lower(h) == 'h' && Lower(m) == 'm'
    ensures ParseDuration(x + w1 + [h] + a + y + w2 + [m] + b) == 60 * DigitsValue(x) + DigitsValue(y)
  {
    var l := x + w1 + ['h'] + LowerStr(a) + y + w2 + ['m'] + LowerStr(b);
    LowerPieces(x, w1, h, a, y, w2, m, b);
    TwoAmounts(x, w1, 'h', LowerStr(a), y, w2, 'm', LowerStr(b));
    // When both numbers are zero, the unit letter keeps the bare-number rule out.
    assert l[|x| + |w1|] == 'h';
    LetterNotNumeral(l, |x| + |w1|);
  }

  lemma MinutesFirst(x: string, w1: string, h: char, a: string, y: string, w2: string, m: char, b: string)
    requires IsNumeral(x) && IsNumeral(y) && AllSpaces(w1) && AllSpaces(w2) && NoDigits(LowerStr(a))
    requires Lower(h) == 'h' && Lower(m) == 'm'
    ensures ParseDuration(y + w2 + [m] + a + x + w1 + [h] + b) == 60 * DigitsValue(x) + DigitsValue(y)
  {
    var l := y + w2 + ['m'] + LowerStr(a) + x + w1 + ['h'] + LowerStr(b);
    LowerPieces(y, w2, m, a, x, w1, h, b);
    TwoAmounts(y, w2, 'm', LowerStr(a), x, w1, 'h', LowerStr(b));
    assert l[|y| + |w2|] == 'm';
    LetterNotNumeral(l, |y| + |w2|);
  }

  /** "X hours" reads as 60·X minutes and "X minutes" as X, in either case, with
      or without white space before the unit and any text free of digits after it. */
  lemma SingleUnit(x: string, w: string, c: char, a: string)
    requires IsNumeral(x) && AllSpaces(w) && NoDigits(a)
    requires Lower(c) == 'h' || Lower(c) == 'm'
    ensures ParseDuration(x + w + [c] + a) == if Lower(c) == 'h' then 60 * DigitsValue(x) else DigitsValue(x)
  {
    var l := x + w + [Lower(c)] + LowerStr(a);
    LowerThree(x, w, c, a);
    LowerNoDigits(a);
    OneAmount(x, w, Lower(c), LowerStr(a), if Lower(c) == 'h' then 'm' else 'h');
    assert l[|x| + |w|] == Lower(c);
    LetterNotNumeral(l, |x| + |w|);
  }

  lemma LowerThree(x: string, w: string, c: char, a: string)
    requires AllDigits(x) && AllSpaces(w)
    ensures LowerStr(x + w + [c] + a) == x + w + [Lower(c)] + LowerStr(a)
  {
    LowerOfDigitsAndSpaces(x);
    LowerOfDigitsAndSpaces(w);
    LowerStrAppend(x + w + [c], a);
    LowerStrAppend(x + w, [c]);
    LowerStrAppend(x, w);
  }

  lemma ExampleHoursThenMinutes()
    ensures ParseDuration("1h 30m") == 90
  {
    var x, y := "1", "30";
    assert x + "" + ['h'] + " " + y + "" + ['m'] + "" == "1h 30m";
    assert DigitsValue(x) == 1;
    assert DigitsValue(y) == 30 by { assert y[..1] == "3"; }
    HoursAndMinutesInEitherOrder(x, "", 'h', " ", y, "", 'm', "");
  }

  lemma ExampleMinutesThenHours()
    ensures ParseDuration("30m 1h") == 90
  {
    var x, y := "1", "30";
    assert y + "" + ['m'] + " " + x + "" + ['h'] + "" == "30m 1h";
    assert DigitsValue(x) == 1;
    assert DigitsValue(y) == 30 by { assert y[..1] == "3"; }
    HoursAndMinutesInEitherOrder(x, "", 'h', " ", y, "", 'm', "");
  }

  /** Whole words and capitals: "2 Hours 15 min" reads as 135. */
  lemma ExampleWords()
    ensures ParseDuration("2 Hours 15 min") == 135
  {
    var x, y := "2", "15";
    assert x + " " + ['H'] + "ours " + y + " " + ['m'] + "in" == "2 Hours 15 min";
    assert DigitsValue(x) == 2;
    assert DigitsValue(y) == 15 by { assert y[..1] == "1"; }
    HoursAndMinutesInEitherOrder(x, " ", 'H', "ours ", y, " ", 'm', "in");
  }

  /** "2 hours" reads as 120. */
  lemma ExampleHoursOnly()
    ensures ParseDuration("2 hours") == 120
  {
    assert "2" + " " + ['h'] + "ours" == "2 hours";
    assert DigitsValue("2") == 2;
    SingleUnit("2", " ", 'h', "ours");
  }

  lemma ExampleBareNumber()
    ensures ParseDuration("45") == 45
  {
    TrimOfTrimmed("45");
    BareNumberIsMinutes("45");
    assert DigitsValue("45") == 45 by { assert "45"[..1] == "4"; }
  }
}

=== FILE: filters.dfy ===
/** The filter engine of the recipe list (renderer/modules/filters.js): the
    predicate `filterRecipes` applies to each recipe, the option lists of the
    tag and ingredient dropdowns, and the dropdown button captions. */
module Filters {
  import opened Wrappers
  import opened Text
  import opened Seqs
  import opened Recipes
  import Duration
  import Ingredients

  /** What the user has selected: the search box, the checked tags and
      ingredients, the time category ("" for any) and the minimum rating in
      half-stars (0 for any). */
  datatype Criteria = Criteria(
    query: string,
    tags: seq<string>,
    ingredients: seq<string>,
    timeCategory: string,
    minRating: nat)

  /** Nothing selected: what `clearAllFilters` restores. */
  const NoCriteria := Criteria("", [], [], "", 0)

  /** The title contains the search text, both lower-cased. */
  predicate MatchesSearch(r: Recipe, query: string) {
    Contains(LowerStr(r.title), LowerStr(query))
  }

  /** `(recipe.labels || []).includes(tag)`: membership for an array, but a
      substring search for a non-empty label string, and never for absent
      labels or an empty string. */
  predicate LabelsInclude(labels: Labels, tag: string) {
    match labels
    case LabelList(ls) => tag in ls
    case LabelText(s) => s != "" && Contains(s, tag)
    case NoLabels => false
  }

  /** Every selected tag is among the recipe's labels. */
  predicate MatchesTags(r: Recipe, tags: seq<string>) {
    forall i | 0 <= i < |tags| :: LabelsInclude(r.labels, tags[i])
  }

  /** What the filter reads from one item: the lower-cased name of an object
      with a non-empty name, and the parsed name of a text line (even an empty
      one). */
  function ItemKey(item: Item): Option<string> {
    match item
    case Structured(_, name) => if name != "" then Some(LowerStr(name)) else None
    case Legacy(text) => Some(Ingredients.ParseIngredient(text))
  }

  /** What the ingredient dropdown reads from one item: the object's name or
      the parsed text line, lower-cased, when it is non-empty. */
  function ItemOption(item: Item): Option<string> {
    var name := match item
      case Structured(_, name) => name
      case Legacy(text) => Ingredients.ParseIngredient(text);
    if name != "" then Some(LowerStr(name)) else None
  }

  /** The ingredient names the filter compares against. */
  function RecipeKeys(r: Recipe): seq<string> {
    Picked(AllItems(r.ingredients), ItemKey)
  }

  /** The ingredient names a recipe contributes to the dropdown. */
  function RecipeOptions(r: Recipe): seq<string> {
    Picked(AllItems(r.ingredients), ItemOption)
  }

  /** Every selected ingredient is one of the recipe's ingredient names, exactly. */
  predicate MatchesIngredients(r: Recipe, ingredients: seq<string>) {
    forall i | 0 <= i < |ingredients| :: ingredients[i] in RecipeKeys(r)
  }

  /** The time category test: with a category chosen, a recipe whose total
      time reads as 0 minutes is excluded; the four known categories are
      ranges of minutes; any other category keeps the rest. */
  predicate MatchesTime(r: Recipe, category: string) {
    if category == "" then true
    else
      var minutes := Duration.ParseDuration(r.totalTime);
      if minutes == 0 then false
      else if category == "quick" then minutes < 30
      else if category == "medium" then minutes >= 30 && minutes <= 90
      else if category == "long" then minutes > 90 && minutes <= 1440
      else if category == "multiday" then minutes > 1440
      else true
  }

  predicate MatchesRating(r: Recipe, minRating: nat) {
    r.rating >= minRating
  }

  /** The predicate `filterRecipes` applies to each recipe. */
  predicate Keeps(c: Criteria, r: Recipe) {
    && MatchesRating(r, c.minRating)
    && MatchesSearch(r, c.query)
    && MatchesTags(r, c.tags)
    && MatchesIngredients(r, c.ingredients)
    && MatchesTime(r, c.timeCategory)
  }

  /** `filterRecipes`: the recipes that pass, in collection order. */
  function FilterRecipes(recipes: seq<Recipe>, c: Criteria): (r: seq<Recipe>)
    ensures IsSubsequence(r, recipes)
    ensures forall i | 0 <= i < |r| :: Keeps(c, r[i])
    ensures forall i | 0 <= i < |recipes| :: Keeps(c, recipes[i]) ==> recipes[i] in r
    ensures |r| == Count(recipes, x => Keeps(c, x))
  {
    Filter(recipes, x => Keeps(c, x))
  }

  /** The category a positive number of minutes falls in, read off from the
      upper ends of the ranges. */
  function Bucket(minutes: nat): string
    requires minutes > 0
  {
    if minutes < 30 then "quick"
    else if minutes <= 90 then "medium"
    else if minutes <= 1440 then "long"
    else "multiday"
  }

  const Categories: seq<string> := ["quick", "medium", "long", "multiday"]

  /** Each known category keeps a recipe exactly when its total time is
      positive and falls in that category's range: the ranges do not overlap
      and leave no positive minute count out. */
  lemma ExactlyOneBucket(r: Recipe, category: string)
    requires category in Categories
    ensures MatchesTime(r, category) <==>
      var minutes := Duration.ParseDuration(r.totalTime);
      minutes > 0 && category == Bucket(minutes)
  {
  }

  /** A category the dropdown does not know keeps every recipe with a
      readable total time. */
  lemma UnknownCategory(r: Recipe, category: string)
    requires category != "" && category !in Categories
    ensures MatchesTime(r, category) <==> Duration.ParseDuration(r.totalTime) != 0
  {
  }

  /** With nothing selected, every recipe passes. */
  lemma NoCriteriaKeepsAll(recipes: seq<Recipe>)
    ensures FilterRecipes(recipes, NoCriteria) == recipes
  {
    forall i | 0 <= i < |recipes| ensures Keeps(NoCriteria, recipes[i]) {
      ContainsEmpty(LowerStr(recipes[i].title));
    }
    FilterAll(recipes, x => Keeps(NoCriteria, x));
  }

  /** Selecting more tags (and changing nothing else) never lets more recipes
      through: the new result is a subsequence of the old one. */
  lemma MoreTagsNarrow(recipes: seq<Recipe>, c: Criteria, tags: seq<string>)
    requires forall i | 0 <= i < |c.tags| :: c.tags[i] in tags
    ensures IsSubsequence(FilterRecipes(recipes, c.(tags := tags)), FilterRecipes(recipes, c))
  {
    var d := c.(tags := tags);
    forall x | Keeps(d, x) ensures Keeps(c, x) {
      forall i | 0 <= i < |c.tags| ensures LabelsInclude(x.labels, c.tags[i]) {
        var j :| 0 <= j < |tags| && tags[j] == c.tags[i];
      }
    }
    FilterMonotone(recipes, x => Keeps(d, x), x => Keeps(c, x));
  }

  /** Raising the minimum rating never lets more recipes through. */
  lemma HigherRatingNarrows(recipes: seq<Recipe>, c: Criteria, minRating: nat)
    requires minRating >= c.minRating
    ensures IsSubsequence(FilterRecipes(recipes, c.(minRating := minRating)), FilterRecipes(recipes, c))
  {
    var d := c.(minRating := minRating);
    FilterMonotone(recipes, x => Keeps(d, x), x => Keeps(c, x));
  }

  /** The dropdown's reading of an item is the filter's reading, whenever the
      dropdown shows one; and the filter's reading, when non-empty, is what
      the dropdown shows. */
  lemma OptionIsKey(item: Item)
    ensures ItemOption(item).Some? ==> ItemKey(item) == ItemOption(item)
    ensures ItemOption(item).Some? ==> ItemOption(item).value != ""
    ensures ItemKey(item).Some? && ItemKey(item).value != "" ==> ItemOption(item) == ItemKey(item)
  {
    if item.Legacy? {
      var p := Ingredients.ParseIngredient(item.text);
      LowerStrOfLower(p);
    }
  }

  /** The ingredient dropdown: the distinct names all recipes contribute, sorted. */
  function IngredientOptions(recipes: seq<Recipe>): (r: seq<string>)
    ensures Sorted(r) && NoDuplicates(r)
    ensures forall x :: x in r <==> exists i | 0 <= i < |recipes| :: x in RecipeOptions(recipes[i])
  {
    SortedSet(AllOptions(recipes))
  }

  function AllOptions(recipes: seq<Recipe>): (r: seq<string>)
    ensures forall x :: x in r <==> exists i | 0 <= i < |recipes| :: x in RecipeOptions(recipes[i])
  {
    if |recipes| == 0 then []
    else
      assert forall i | 1 <= i < |recipes| :: recipes[i] == recipes[1..][i - 1];
      RecipeOptions(recipes[0]) + AllOptions(recipes[1..])
  }

  /** With no search text, no time category and no minimum rating, only the
      checked tags and ingredients decide. */
  lemma KeepsWithoutSearch(c: Criteria, r: Recipe)
    requires c.query == "" && c.timeCategory == "" && c.minRating == 0
    ensures Keeps(c, r) <==> MatchesTags(r, c.tags) && MatchesIngredients(r, c.ingredients)
  {
    ContainsEmpty(LowerStr(r.title));
    assert LowerStr("") == "";
  }

  /** Checking an ingredient offered because of recipe `r` and nothing else
      keeps `r`. */
  lemma OptionKeepsItsRecipe(r: Recipe, x: string)
    requires x in RecipeOptions(r)
    ensures Keeps(NoCriteria.(ingredients := [x]), r)
  {
    var items := AllItems(r.ingredients);
    var it :| it in items && ItemOption(it) == Some(x);
    OptionIsKey(it);
    assert x in RecipeKeys(r);
    assert MatchesIngredients(r, [x]);
    KeepsWithoutSearch(NoCriteria.(ingredients := [x]), r);
  }

  /** Every ingredient the dropdown offers, checked alone, keeps at least one
      recipe. */
  lemma EveryIngredientOptionMatches(recipes: seq<Recipe>, x: string)
    requires x in IngredientOptions(recipes)
    ensures |FilterRecipes(recipes, NoCriteria.(ingredients := [x]))| > 0
  {
    var i :| 0 <= i < |recipes| && x in RecipeOptions(recipes[i]);
    OptionKeepsItsRecipe(recipes[i], x);
  }

  /** The tag dropdown (and the label autocomplete): the distinct labels of
      the recipes whose labels are an array, sorted. */
  function TagOptions(recipes: seq<Recipe>): (r: seq<string>)
    ensures Sorted(r) && NoDuplicates(r)
    ensures forall x :: x in r <==> exists i | 0 <= i < |recipes| :: x in ListLabels(recipes[i].labels)
  {
    SortedSet(AllListLabels(recipes))
  }

  function AllListLabels(recipes: seq<Recipe>): (r: seq<string>)
    ensures forall x :: x in r <==> exists i | 0 <= i < |recipes| :: x in ListLabels(recipes[i].labels)
  {
    if |recipes| == 0 then []
    else
      assert forall i | 1 <= i < |recipes| :: recipes[i] == recipes[1..][i - 1];
      ListLabels(recipes[0].labels) + AllListLabels(recipes[1..])
  }

  /** Every tag the dropdown offers, checked alone, keeps at least one recipe. */
  lemma EveryTagOptionMatches(recipes: seq<Recipe>, x: string)
    requires x in TagOptions(recipes)
    ensures |FilterRecipes(recipes, NoCriteria.(tags := [x]))| > 0
  {
    var i :| 0 <= i < |recipes| && x in ListLabels(recipes[i].labels);
    assert MatchesTags(recipes[i], [x]);
    KeepsWithoutSearch(NoCriteria.(tags := [x]), recipes[i]);
  }

  /** `updateFilterButtonText` and the captions `filterRecipes` sets: the
      number of checked boxes in brackets, or "Filter by ..." when none is. */
  function ButtonText(caption: string, count: nat): (r: string)
    ensures count == 0 ==> r == "Filter by " + caption
    ensures count > 0 ==> |r| > |caption| + 3 && r[..|caption|] == caption && r[|r| - 1] == ')'
  {
    if count > 0 then caption + " (" + NatToString(count) + ")" else "Filter by " + caption
  }

  /** The caption tells how many boxes are checked: two counts give two
      different captions, for any caption not beginning with 'F' (such as
      "Tags" and "Ingredients"). */
  lemma ButtonTextInjective(caption: string, m: nat, n: nat)
    requires |caption| > 0 && caption[0] != 'F'
    requires ButtonText(caption, m) == ButtonText(caption, n)
    ensures m == n
  {
    var a, b := ButtonText(caption, m), ButtonText(caption, n);
    assert a[0] == 'F' <==> m == 0;
    assert b[0] == 'F' <==> n == 0;
    if m > 0 && n > 0 {
      var k := |caption| + 2;
      assert a[k..|a| - 1] == NatToString(m);
      assert b[k..|b| - 1] == NatToString(n);
    }
  }
}

=== FILE: forms.dfy ===
/** The add/edit form of renderer/modules/forms.js: what a submitted form
    saves (trimmed rows, blank rows and untitled empty sections dropped, the
    label field split at commas), how the edit button fills the form from a
    recipe (including the split of an old free-text ingredient line into
    quantity and name), the '@' guard on the title, and the tag autocomplete
    of the label field. */
module Forms {
  import opened Wrappers
  import opened Text
  import opened Seqs
  import opened Recipes
  import Ingredients
  import Filters
  import Autocomplete

  // ---------------------------------------------------------------------
  // The title field.

  /** The title field's `input` handler: every '@' removed, everything else
      kept. */
  function StripAt(s: string): (r: string)
    ensures '@' !in r
    ensures forall c | c != '@' :: multiset(r)[c] == multiset(s)[c]
    ensures '@' !in s ==> r == s
  {
    if |s| == 0 then ""
    else
      assert s == [s[0]] + s[1..];
      (if s[0] == '@' then "" else [s[0]]) + StripAt(s[1..])
  }

  /** Removing the '@'s twice is removing them once. */
  lemma StripAtIdempotent(s: string)
    ensures StripAt(StripAt(s)) == StripAt(s)
  {
  }

  // ---------------------------------------------------------------------
  // The label field.

  /** A label as the form saves it: non-empty, trimmed, without a comma. */
  predicate NormalLabel(l: string) {
    l != "" && IsTrimmed(l) && ',' !in l
  }

  /** `.map(s => s.trim()).filter(s => s)`: the pieces trimmed, the empty ones
      dropped. */
  function Tags(pieces: seq<string>): (r: seq<string>)
    ensures forall i | 0 <= i < |r| :: r[i] != "" && IsTrimmed(r[i])
    ensures |r| <= |pieces|
  {
    if |pieces| == 0 then [] else TagOf(pieces[0]) + Tags(pieces[1..])
  }

  /** One piece: trimmed, or nothing when it is blank. */
  function TagOf(piece: string): (r: seq<string>)
    ensures r == [] <==> AllSpaces(piece)
    ensures r != [] ==> r == [Trim(piece)]
    ensures forall i | 0 <= i < |r| :: r[i] != "" && IsTrimmed(r[i])
  {
    var t := Trim(piece);
    if t != "" then [t] else []
  }

  lemma {:induction false} TagsAppend(a: seq<string>, b: seq<string>)
    ensures Tags(a + b) == Tags(a) + Tags(b)
  {
    if |a| == 0 {
      assert a + b == b;
    } else {
      assert (a + b)[1..] == a[1..] + b;
      TagsAppend(a[1..], b);
    }
  }

  lemma {:induction false} TagsCommaFree(ps: seq<string>)
    requires forall i | 0 <= i < |ps| :: ',' !in ps[i]
    ensures forall i | 0 <= i < |Tags(ps)| :: ',' !in Tags(ps)[i]
  {
    if |ps| > 0 {
      TrimWithin(ps[0]);
      TagsCommaFree(ps[1..]);
    }
  }

  /** Pieces that trim to the given non-empty labels give those labels. */
  lemma {:induction false} TagsOfTrimmed(ps: seq<string>, ls: seq<string>)
    requires |ps| == |ls|
    requires forall i | 0 <= i < |ps| :: ls[i] != "" && Trim(ps[i]) == ls[i]
    ensures Tags(ps) == ls
  {
    if |ps| > 0 {
      assert TagOf(ps[0]) == [ls[0]];
      TagsOfTrimmed(ps[1..], ls[1..]);
      assert ls == [ls[0]] + ls[1..];
    }
  }

  /** The label field as `submit` and `getEnteredTags` read it:
      `value.split(',').map(s => s.trim()).filter(s => s)`. */
  function SplitLabels(value: string): (r: seq<string>)
    ensures forall i | 0 <= i < |r| :: NormalLabel(r[i])
  {
    var ps := Split(value, ',');
    TagsCommaFree(ps);
    Tags(ps)
  }

  /** The edit button's `(recipe.labels || []).join(', ')`: a label string
      that is not empty has no `join`, so opening the form fails. */
  function EditLabels(labels: Labels): (r: Option<string>)
    ensures r.None? <==> labels.LabelText? && labels.text != ""
    ensures labels.LabelList? ==> r == Some(Join(labels.list, ", "))
    ensures labels.NoLabels? ==> r == Some("")
  {
    match labels
    case LabelList(list) => Some(Join(list, ", "))
    case LabelText(text) => if text == "" then Some("") else None
    case NoLabels => Some("")
  }

  /** Labels shown by the edit form and saved again come back unchanged. */
  lemma LabelsRoundTrip(ls: seq<string>)
    requires forall i | 0 <= i < |ls| :: NormalLabel(ls[i])
    ensures SplitLabels(Join(ls, ", ")) == ls
  {
    if |ls| == 0 {
      assert Split("", ',') == [""];
    } else {
      SplitCommaSpaceJoin(ls);
      TagsOfTrimmed(Split(Join(ls, ", "), ','), ls);
    }
  }

  // ---------------------------------------------------------------------
  // Rows and sections.

  /** A row of an ingredient section: the quantity and name inputs, or (for a
      row with a single `.item-input`) one value. */
  datatype Row = QtyName(quantity: string, name: string) | Single(value: string)

  /** An ingredient section of the form: its title input and its rows. */
  datatype SectionInput = SectionInput(title: string, rows: seq<Row>)

  /** An instruction section of the form: its title input and its step inputs. */
  datatype StepsInput = StepsInput(title: string, values: seq<string>)

  /** The fields of the form the model keeps: the id of the recipe being
      edited ("" when adding), the inputs, and the image the recipe had. */
  datatype FormInput = FormInput(
    editId: string,
    title: string,
    totalTime: string,
    rating: nat,
    labels: string,
    ingredients: seq<SectionInput>,
    instructions: seq<StepsInput>,
    existingImage: string)

  /** Every row is a quantity/name pair, as the form builds them. */
  predicate PairRows(rows: seq<Row>) {
    forall j | 0 <= j < |rows| :: rows[j].QtyName?
  }

  /** Every item is a quantity/name pair. */
  predicate StructuredItems(items: seq<Item>) {
    forall j | 0 <= j < |items| :: items[j].Structured?
  }

  /** An ingredient as `submit` saves it: trimmed fields, not both empty; or a
      trimmed, non-empty line. */
  predicate NormalItem(it: Item) {
    match it
    case Structured(q, n) => IsTrimmed(q) && IsTrimmed(n) && (q != "" || n != "")
    case Legacy(t) => t != "" && IsTrimmed(t)
  }

  /** A row as `submit` saves it: the inputs trimmed, and the row dropped when
      both are blank. */
  function SaveRow(row: Row): (r: Option<Item>)
    ensures r.Some? ==> NormalItem(r.value)
    ensures row.QtyName? ==> (r.None? <==> AllSpaces(row.quantity) && AllSpaces(row.name))
    ensures row.QtyName? && r.Some? ==> r.value.Structured?
    ensures row.Single? ==> (r.None? <==> AllSpaces(row.value))
  {
    match row
    case QtyName(q, n) =>
      var tq, tn := Trim(q), Trim(n);
      if tn != "" || tq != "" then Some(Structured(tq, tn)) else None
    case Single(v) =>
      var t := Trim(v);
      if t != "" then Some(Legacy(t)) else None
  }

  function SaveRows(rows: seq<Row>): (r: seq<Item>)
    ensures forall i | 0 <= i < |r| :: NormalItem(r[i])
    ensures PairRows(rows) ==> StructuredItems(r)
    ensures |r| <= |rows|
  {
    if |rows| == 0 then []
    else
      assert PairRows(rows) ==> PairRows(rows[1..]);
      (match SaveRow(rows[0]) case Some(it) => [it] case None => []) + SaveRows(rows[1..])
  }

  /** An ingredient section as `submit` saves it: titled or not empty, with
      saved items. */
  predicate NormalSection(s: IngredientSection) {
    && (|s.items| > 0 || s.title != "")
    && forall i | 0 <= i < |s.items| :: NormalItem(s.items[i])
  }

  /** A section is kept when it has an item left or a title; the title is
      kept as typed. */
  function SaveSection(s: SectionInput): (r: Option<IngredientSection>)
    ensures r.Some? ==> NormalSection(r.value) && r.value.title == s.title
    ensures r.None? <==> s.title == "" && |SaveRows(s.rows)| == 0
  {
    var items := SaveRows(s.rows);
    if |items| > 0 || s.title != "" then Some(IngredientSection(s.title, items)) else None
  }

  function SaveSections(ss: seq<SectionInput>): (r: seq<IngredientSection>)
    ensures forall i | 0 <= i < |r| :: NormalSection(r[i])
    ensures (forall i | 0 <= i < |ss| :: PairRows(ss[i].rows)) ==> forall i | 0 <= i < |r| :: StructuredItems(r[i].items)
    ensures |r| <= |ss|
  {
    if |ss| == 0 then []
    else (match SaveSection(ss[0]) case Some(s) => [s] case None => []) + SaveSections(ss[1..])
  }

  /** A step as `submit` saves it. */
  predicate NormalStep(s: string) {
    s != "" && IsTrimmed(s)
  }

  /** The step inputs trimmed, the blank ones dropped. */
  function SaveSteps(values: seq<string>): (r: seq<string>)
    ensures forall i | 0 <= i < |r| :: NormalStep(r[i])
    ensures |r| <= |values|
  {
    if |values| == 0 then []
    else
      var t := Trim(values[0]);
      (if t != "" then [t] else []) + SaveSteps(values[1..])
  }

  predicate NormalStepSection(s: StepSection) {
    && (|s.steps| > 0 || s.title != "")
    && forall i | 0 <= i < |s.steps| :: NormalStep(s.steps[i])
  }

  function SaveStepSection(s: StepsInput): (r: Option<StepSection>)
    ensures r.Some? ==> NormalStepSection(r.value) && r.value.title == s.title
    ensures r.None? <==> s.title == "" && |SaveSteps(s.values)| == 0
  {
    var steps := SaveSteps(s.values);
    if |steps| > 0 || s.title != "" then Some(StepSection(s.title, steps)) else None
  }

  function SaveStepSections(ss: seq<StepsInput>): (r: seq<StepSection>)
    ensures forall i | 0 <= i < |r| :: NormalStepSection(r[i])
    ensures |r| <= |ss|
  {
    if |ss| == 0 then []
    else (match SaveStepSection(ss[0]) case Some(s) => [s] case None => []) + SaveStepSections(ss[1..])
  }

  // ---------------------------------------------------------------------
  // Submitting.

  /** A recipe as `submit` leaves it. */
  predicate Normalised(r: Recipe) {
    && '@' !in r.title
    && r.labels.LabelList?
    && (forall i | 0 <= i < |r.labels.list| :: NormalLabel(r.labels.list[i]))
    && (forall i | 0 <= i < |r.ingredients| :: NormalSection(r.ingredients[i]))
    && (forall i | 0 <= i < |r.instructions| :: NormalStepSection(r.instructions[i]))
  }

  /** Every ingredient is a quantity/name pair, as the form's rows give. */
  predicate AllStructured(r: Recipe) {
    forall i | 0 <= i < |r.ingredients| :: StructuredItems(r.ingredients[i].items)
  }

  /** The form's `submit` handler: refused when the title holds an '@';
      otherwise the recipe with the id being edited (or `now`, the
      decimal timestamp, for a new one), the saved rows and labels, and the uploaded
      image's path when a file was chosen (or the image the recipe had). */
  function Submit(f: FormInput, now: nat, upload: Option<string>): (r: Option<Recipe>)
    ensures r.None? <==> '@' in f.title
    ensures r.Some? ==> Normalised(r.value) && r.value.id != ""
    ensures r.Some? && f.editId != "" ==> r.value.id == f.editId
    ensures r.Some? && upload.None? ==> r.value.image == f.existingImage
    ensures r.Some? && upload.Some? ==> r.value.image == upload.value
    ensures r.Some? && f.editId == "" ==> r.value.id == NatToString(now)
    ensures r.Some? ==> r.value.title == f.title && r.value.totalTime == f.totalTime && r.value.rating == f.rating
    ensures r.Some? ==> r.value.labels == LabelList(SplitLabels(f.labels))
    ensures r.Some? ==> r.value.ingredients == SaveSections(f.ingredients) && r.value.instructions == SaveStepSections(f.instructions)
  {
    if '@' in f.title then None
    else
      Some(Recipe(
        if f.editId != "" then f.editId else NatToString(now),
        f.title,
        f.totalTime,
        f.rating,
        LabelList(SplitLabels(f.labels)),
        SaveSections(f.ingredients),
        SaveStepSections(f.instructions),
        upload.GetOr(f.existingImage)))
  }

  /** A title cleaned by the `input` handler is never refused. */
  lemma CleanTitleAccepted(f: FormInput, now: nat, upload: Option<string>)
    ensures Submit(f.(title := StripAt(f.title)), now, upload).Some?
  {
  }

  // ---------------------------------------------------------------------
  // The split of an old free-text ingredient line.

  /** The edit button's split of a free-text line with
      `^([quantity]+(?:units)?)(.*)$` (case-insensitive), `follow` saying what
      must come after a unit: nothing in particular as written, or a word
      boundary.  Without a match (no leading quantity character, or a line
      terminator after the quantity) the whole line is the name.  When the
      name comes out empty but the quantity does not, the name is
      `parseIngredient(item)` and the quantity what precedes it. */
  function SplitLegacyWith(item: string, follow: Ingredients.UnitEnd): (r: Row)
    ensures r.QtyName? && IsTrimmed(r.quantity)
    ensures var q := Ingredients.QuantityEnd(item, 0);
      q == 0 || !Ingredients.NoLineTerminatorFrom(item, q) <==> r == QtyName("", item)
  {
    var q := Ingredients.QuantityEnd(item, 0);
    if q == 0 || !Ingredients.NoLineTerminatorFrom(item, q) then QtyName("", item)
    else SplitAt(item, UnitEndAt(item, q, follow))
  }

  /** Where the first group ends: after the unit found at `q`, or at `q`. */
  function UnitEndAt(item: string, q: nat, follow: Ingredients.UnitEnd): (e: nat)
    requires q <= |item|
    ensures q <= e <= |item|
  {
    match Ingredients.FirstUnit(item, q, Ingredients.Units, follow)
    case Some(k) => q + |Ingredients.Units[k]|
    case None => q
  }

  /** The two groups of a match whose first group ends at `e`, trimmed, with
      the `parseIngredient` fallback for an empty name. */
  function SplitAt(item: string, e: nat): (r: Row)
    requires 0 < e <= |item|
    ensures r.QtyName? && IsTrimmed(r.quantity)
    ensures Trim(item[e..]) != "" ==> r == QtyName(Trim(item[..e]), Trim(item[e..]))
  {
    var quantity, name := Trim(item[..e]), Trim(item[e..]);
    if name == "" && quantity != "" then
      var n := Ingredients.ParseIngredient(item);
      var at := IndexOf(LowerStr(item), LowerStr(n));
      QtyName(if at > 0 then Trim(item[..at]) else quantity, n)
    else QtyName(quantity, name)
  }

  /** The split as written: a unit needs no word boundary after it. */
  function SplitLegacyAsWritten(item: string): (r: Row)
    ensures r.QtyName? && IsTrimmed(r.quantity)
    ensures var q := Ingredients.QuantityEnd(item, 0);
      q == 0 || !Ingredients.NoLineTerminatorFrom(item, q) <==> r == QtyName("", item)
  {
    SplitLegacyWith(item, Ingredients.RestOfInput)
  }

  /** The split with a word boundary after the unit, as `parseIngredient`
      has it. */
  function SplitLegacy(item: string): (r: Row)
    ensures r.QtyName? && IsTrimmed(r.quantity)
    ensures var q := Ingredients.QuantityEnd(item, 0);
      q == 0 || !Ingredients.NoLineTerminatorFrom(item, q) <==> r == QtyName("", item)
  {
    SplitLegacyWith(item, Ingredients.WordBoundary)
  }

  /** With the boundary, a name whose first word is not a unit stays whole
      after the quantity. */
  lemma SplitLegacyKeepsName(qty: string, rest: string)
    requires |qty| > 0 && forall k | 0 <= k < |qty| :: Ingredients.IsQuantityChar(qty[k])
    requires |rest| > 0 && !Ingredients.IsQuantityChar(rest[0]) && IsTrimmed(rest)
    requires forall k | 0 <= k < |rest| :: !IsLineTerminator(rest[k])
    requires Ingredients.FoldedWordAt(rest, 0) !in Ingredients.Units
    ensures SplitLegacy(qty + rest) == QtyName(Trim(qty), rest)
  {
    var text := qty + rest;
    var q := |qty|;
    Ingredients.QuantityPrefix(qty, rest);
    assert text[q..] == rest;
    assert text[..q] == qty;
    NoBreakAfter(qty, rest);
    Ingredients.WordAtOffset(qty, rest);
    Ingredients.UnitsAreWords();
    Ingredients.UnitRemovedIffWholeWord(text, q, Ingredients.Units);
    TrimOfTrimmed(rest);
  }

  /** When the quantity is followed by a unit (or none) and something else,
      the line splits right after the unit. */
  lemma SplitLegacyAt(item: string, follow: Ingredients.UnitEnd, e: nat)
    requires Ingredients.QuantityEnd(item, 0) > 0
    requires Ingredients.NoLineTerminatorFrom(item, Ingredients.QuantityEnd(item, 0))
    requires e == UnitEndAt(item, Ingredients.QuantityEnd(item, 0), follow)
    requires Trim(item[e..]) != ""
    ensures SplitLegacyWith(item, follow) == QtyName(Trim(item[..e]), Trim(item[e..]))
  {
  }

  /** The quantity of "12 cupcake liners" is "12 ", with no line break after it. */
  lemma CupcakeQuantity()
    ensures Ingredients.QuantityEnd("12 cupcake liners", 0) == 3
    ensures Ingredients.NoLineTerminatorFrom("12 cupcake liners", 3)
  {
    assert "12 cupcake liners" == "12 " + "cupcake liners";
    Ingredients.QuantityPrefix("12 ", "cupcake liners");
    NoBreakAfter("12 ", "cupcake liners");
  }

  /** A line terminator after the quantity can only come from the rest. */
  lemma NoBreakAfter(qty: string, rest: string)
    requires forall k | 0 <= k < |rest| :: !IsLineTerminator(rest[k])
    ensures Ingredients.NoLineTerminatorFrom(qty + rest, |qty|)
  {
    forall m | |qty| <= m < |qty| + |rest|
      ensures !IsLineTerminator((qty + rest)[m])
    {
      assert (qty + rest)[m] == rest[m - |qty|];
    }
  }

  /** "cups" does not fit at the start of "cupcake", "cup" does. */
  lemma CupFitsInCupcake()
    ensures Ingredients.Units[1] == "cup"
    ensures Ingredients.FirstUnit("12 cupcake liners", 3, Ingredients.Units, Ingredients.RestOfInput) == Some(1)
  {
    var text := "12 cupcake liners";
    assert Ingredients.Units[0] == Ingredients.CupsAndSpoons[0] == "cups";
    assert Ingredients.Units[1] == Ingredients.CupsAndSpoons[1] == "cup";
    assert Ingredients.FoldStr(text[3..7]) == "cupc";
    assert Ingredients.FoldStr(text[3..6]) == "cup";
    assert Ingredients.NoLineTerminatorFrom(text, 6);
    assert Ingredients.FirstUnitFrom(text, 3, Ingredients.Units, Ingredients.RestOfInput, 1) == Some(1);
  }

  /** As written, the unit "cup" is cut off the front of "cupcake". */
  lemma ExampleCupcakeAsWritten()
    ensures SplitLegacyAsWritten("12 cupcake liners") == QtyName("12 cup", "cake liners")
    ensures ShowItem(Legacy("12 cupcake liners")) == QtyName("12 cup", "cake liners")
  {
    var text := "12 cupcake liners";
    CupcakeQuantity();
    CupFitsInCupcake();
    assert text[..6] == "12 cup" && text[6..] == "cake liners";
    TrimOfTrimmed("12 cup");
    TrimOfTrimmed("cake liners");
    SplitLegacyAt(text, Ingredients.RestOfInput, 6);
  }

  /** "cupcake", the first word after the quantity, is not a unit. */
  lemma CupcakeIsNoUnit()
    ensures Ingredients.FoldedWordAt("cupcake liners", 0) == "cupcake"
    ensures "cupcake" !in Ingredients.Units
  {
    var rest := "cupcake liners";
    Ingredients.WordEndIs(rest, 0, 7);
    assert rest[0..7] == "cupcake";
    assert Ingredients.FoldStr("cupcake") == "cupcake";
    Ingredients.NotAUnit("cupcake");
  }

  /** With the boundary, "cupcake" is the name's first word and is kept. */
  lemma ExampleCupcake()
    ensures SplitLegacy("12 cupcake liners") == QtyName("12", "cupcake liners")
  {
    var text := "12 cupcake liners";
    CupcakeQuantity();
    NoUnitInCupcake();
    assert text[..3] == "" + "12" + " ";
    assert text[3..] == "cupcake liners";
    TrimSurrounded("", "12", " ");
    TrimOfTrimmed("cupcake liners");
    SplitLegacyAt(text, Ingredients.WordBoundary, 3);
  }

  /** With the boundary no unit is found in "12 cupcake liners". */
  lemma NoUnitInCupcake()
    ensures Ingredients.FirstUnit("12 cupcake liners", 3, Ingredients.Units, Ingredients.WordBoundary).None?
  {
    var qty, rest := "12 ", "cupcake liners";
    assert qty + rest == "12 cupcake liners";
    CupcakeIsNoUnit();
    Ingredients.UnitsAreWords();
    Ingredients.WordAtOffset(qty, rest);
    Ingredients.UnitRemovedIffWholeWord(qty + rest, 3, Ingredients.Units);
  }

  // ---------------------------------------------------------------------
  // Opening a recipe in the form.

  /** A saved item as the edit button shows it: its two fields, or the split
      of a free-text line as written. */
  function ShowItem(it: Item): (r: Row)
    ensures r.QtyName?
    ensures it.Structured? ==> r == QtyName(it.quantity, it.name)
    ensures it.Legacy? ==> IsTrimmed(r.quantity)
    ensures it.Legacy? ==> var q := Ingredients.QuantityEnd(it.text, 0);
      q == 0 || !Ingredients.NoLineTerminatorFrom(it.text, q) <==> r == QtyName("", it.text)
  {
    match it
    case Structured(q, n) => QtyName(q, n)
    case Legacy(t) => SplitLegacyAsWritten(t)
  }

  function ShowItems(items: seq<Item>): (r: seq<Row>)
    ensures |r| == |items|
    ensures forall i | 0 <= i < |r| :: r[i] == ShowItem(items[i])
  {
    if |items| == 0 then [] else [ShowItem(items[0])] + ShowItems(items[1..])
  }

  function ShowSections(secs: seq<IngredientSection>): (r: seq<SectionInput>)
    ensures |r| == |secs|
  {
    if |secs| == 0 then []
    else [SectionInput(secs[0].title, ShowItems(secs[0].items))] + ShowSections(secs[1..])
  }

  function ShowStepSections(secs: seq<StepSection>): (r: seq<StepsInput>)
    ensures |r| == |secs|
  {
    if |secs| == 0 then []
    else [StepsInput(secs[0].title, secs[0].steps)] + ShowStepSections(secs[1..])
  }

  /** The edit button: the form filled from the recipe, or nothing when its
      labels are a non-empty string. */
  function EditForm(r: Recipe): (f: Option<FormInput>)
    ensures f.None? <==> r.labels.LabelText? && r.labels.text != ""
    ensures f.Some? ==> f.value.editId == r.id && f.value.title == r.title && f.value.existingImage == r.image
    ensures f.Some? ==> f.value.totalTime == r.totalTime && f.value.rating == r.rating
    ensures f.Some? ==> Some(f.value.labels) == EditLabels(r.labels)
    ensures f.Some? ==> f.value.ingredients == ShowSections(r.ingredients) && f.value.instructions == ShowStepSections(r.instructions)
  {
    match EditLabels(r.labels)
    case None => None
    case Some(labels) =>
      Some(FormInput(r.id, r.title, r.totalTime, r.rating, labels,
        ShowSections(r.ingredients), ShowStepSections(r.instructions), r.image))
  }

  // ---------------------------------------------------------------------
  // Opening and saving again.

  lemma {:induction false} SaveShowItems(items: seq<Item>)
    requires StructuredItems(items)
    requires forall i | 0 <= i < |items| :: NormalItem(items[i])
    ensures SaveRows(ShowItems(items)) == items
  {
    if |items| > 0 {
      var it := items[0];
      TrimOfTrimmed(it.quantity);
      TrimOfTrimmed(it.name);
      assert ShowItems(items)[1..] == ShowItems(items[1..]);
      SaveShowItems(items[1..]);
      assert items == [it] + items[1..];
    }
  }

  lemma {:induction false} SaveShowSections(secs: seq<IngredientSection>)
    requires forall i | 0 <= i < |secs| :: NormalSection(secs[i])
    requires forall i | 0 <= i < |secs| :: StructuredItems(secs[i].items)
    ensures SaveSections(ShowSections(secs)) == secs
  {
    if |secs| > 0 {
      SaveShowItems(secs[0].items);
      assert ShowSections(secs)[1..] == ShowSections(secs[1..]);
      SaveShowSections(secs[1..]);
      assert secs == [secs[0]] + secs[1..];
    }
  }

  lemma {:induction false} SaveShowSteps(steps: seq<string>)
    requires forall i | 0 <= i < |steps| :: NormalStep(steps[i])
    ensures SaveSteps(steps) == steps
  {
    if |steps| > 0 {
      TrimOfTrimmed(steps[0]);
      SaveShowSteps(steps[1..]);
      assert steps == [steps[0]] + steps[1..];
    }
  }

  lemma {:induction false} SaveShowStepSections(secs: seq<StepSection>)
    requires forall i | 0 <= i < |secs| :: NormalStepSection(secs[i])
    ensures SaveStepSections(ShowStepSections(secs)) == secs
  {
    if |secs| > 0 {
      SaveShowSteps(secs[0].steps);
      assert ShowStepSections(secs)[1..] == ShowStepSections(secs[1..]);
      SaveShowStepSections(secs[1..]);
      assert secs == [secs[0]] + secs[1..];
    }
  }

  /** Opening a saved recipe in the edit form and saving it without a change
      gives the same recipe back. */
  lemma EditSaveRoundTrip(r: Recipe, now: nat)
    requires Normalised(r) && AllStructured(r) && r.id != ""
    ensures EditForm(r).Some?
    ensures Submit(EditForm(r).value, now, None) == Some(r)
  {
    LabelsRoundTrip(r.labels.list);
    SaveShowSections(r.ingredients);
    SaveShowStepSections(r.instructions);
  }

  /** Saving is stable: what the form saves from quantity/name rows, opened
      and saved again, stays the same. */
  lemma SaveIsStable(f: FormInput, now: nat, upload: Option<string>, later: nat)
    requires '@' !in f.title
    requires forall i | 0 <= i < |f.ingredients| :: PairRows(f.ingredients[i].rows)
    ensures var r := Submit(f, now, upload).value;
      EditForm(r).Some? && Submit(EditForm(r).value, later, None) == Some(r)
  {
    var r := Submit(f, now, upload).value;
    EditSaveRoundTrip(r, later);
  }

  // ---------------------------------------------------------------------
  // The tag autocomplete of the label field.

  /** `getCurrentTag`: what follows the last comma, trimmed. */
  function CurrentTag(value: string): (r: string)
    ensures IsTrimmed(r) && ',' !in r
  {
    var t := value[LastIndexOf(value, ',') + 1..];
    TrimWithin(t);
    Trim(t)
  }

  /** The filter of `showSuggestions`: the tag contains the lower-cased tag
      being typed, that is not empty, and the tag is not entered yet. */
  predicate Offered(tag: string, value: string) {
    var fragment := LowerStr(CurrentTag(value));
    Contains(LowerStr(tag), fragment) && |fragment| > 0 && tag !in SplitLabels(value)
  }

  /** `showSuggestions`: the sorted distinct labels of the catalogue that pass
      the filter, in their order. */
  function TagSuggestions(recipes: seq<Recipe>, value: string): (r: seq<string>)
    ensures forall t :: t in r <==> t in Filters.TagOptions(recipes) && Offered(t, value)
    ensures IsSubsequence(r, Filters.TagOptions(recipes))
  {
    Filter(Filters.TagOptions(recipes), t => Offered(t, value))
  }

  /** `selectTag`: the text after the last comma replaced by the tag and
      ", ". */
  function SelectTag(value: string, tag: string): (r: string)
    ensures |r| >= |tag| + 2 && r[|r| - 2..] == ", "
  {
    var lc := LastIndexOf(value, ',');
    if lc == -1 then tag + ", " else value[..lc + 1] + " " + tag + ", "
  }

  /** A piece without a comma reads as its trimmed self, or as nothing when
      it is blank. */
  lemma SplitLabelsOne(w: string)
    requires ',' !in w
    ensures SplitLabels(w) == TagOf(w)
  {
    SplitJoin([w], ',');
    assert Tags([w]) == TagOf(w) + Tags([]);
  }

  /** The labels on either side of a comma. */
  lemma SplitLabelsAround(a: string, b: string)
    ensures SplitLabels(a + "," + b) == SplitLabels(a) + SplitLabels(b)
  {
    SplitAround(a, ',', b);
    TagsAppend(Split(a, ','), Split(b, ','));
  }

  /** What follows the last comma is the tag being typed. */
  lemma CurrentTagAfterComma(head: string, rest: string)
    requires ',' !in rest
    ensures CurrentTag(head + "," + rest) == Trim(rest)
  {
    LastIndexOfAfter(head, ',', rest);
    assert (head + "," + rest)[|head| + 1..] == rest;
  }

  /** With nothing being typed, nothing is suggested. */
  lemma NoFragmentNoSuggestion(recipes: seq<Recipe>, value: string)
    requires CurrentTag(value) == ""
    ensures TagSuggestions(recipes, value) == []
  {
    var r := TagSuggestions(recipes, value);
    ghost var first := if |r| > 0 then r[0] else "";
    assert LowerStr(CurrentTag(value)) == "";
  }

  lemma BlankLabels()
    ensures SplitLabels("") == [] && SplitLabels(" ") == []
    ensures Trim(" ") == ""
  {
    assert AllSpaces(" ") && AllSpaces("");
    SplitLabelsOne("");
    SplitLabelsOne(" ");
  }

  lemma LabelAlone(tag: string)
    requires NormalLabel(tag)
    ensures SplitLabels(tag) == [tag] && SplitLabels(" " + tag) == [tag]
  {
    TrimOfTrimmed(tag);
    SplitLabelsOne(tag);
    TrimSurrounded(" ", tag, "");
    assert " " + tag + "" == " " + tag;
    SplitLabelsOne(" " + tag);
  }

  /** A comma at the end adds no label. */
  lemma SplitLabelsTrailingComma(p: string)
    ensures SplitLabels(p + ",") == SplitLabels(p)
  {
    BlankLabels();
    SplitLabelsAround(p, "");
    assert p + "," + "" == p + ",";
  }

  /** `selectTag` puts the tag after the last comma and ends with ", ". */
  lemma SelectTagShape(value: string, tag: string)
    ensures var lc := LastIndexOf(value, ',');
      var head := if lc == -1 then tag else value[..lc] + "," + " " + tag;
      SelectTag(value, tag) == head + "," + " "
  {
  }

  /** After `selectTag` nothing is being typed. */
  lemma SelectTagClearsFragment(value: string, tag: string)
    ensures CurrentTag(SelectTag(value, tag)) == ""
  {
    var lc := LastIndexOf(value, ',');
    var head := if lc == -1 then tag else value[..lc] + "," + " " + tag;
    SelectTagShape(value, tag);
    BlankLabels();
    CurrentTagAfterComma(head, " ");
  }

  lemma FirstTagLabels(tag: string)
    requires NormalLabel(tag)
    ensures SplitLabels(tag + ", ") == [tag]
  {
    assert tag + ", " == tag + "," + " ";
    BlankLabels();
    LabelAlone(tag);
    SplitLabelsAround(tag, " ");
  }

  lemma LaterTagLabels(p: string, tag: string)
    requires NormalLabel(tag)
    ensures SplitLabels(p + "," + " " + tag + ", ") == SplitLabels(p + ",") + [tag]
  {
    assert p + "," + " " + tag + ", " == p + "," + (" " + tag) + "," + " ";
    BlankLabels();
    LabelAlone(tag);
    SplitLabelsAround(p + "," + (" " + tag), " ");
    SplitLabelsAround(p, " " + tag);
    SplitLabelsTrailingComma(p);
  }

  /** `selectTag` keeps the labels before the last comma and adds the tag. */
  lemma SelectTagLabels(value: string, tag: string)
    requires NormalLabel(tag)
    ensures SplitLabels(SelectTag(value, tag)) == SplitLabels(value[..LastIndexOf(value, ',') + 1]) + [tag]
  {
    var lc := LastIndexOf(value, ',');
    if lc == -1 {
      FirstTagLabels(tag);
      BlankLabels();
      assert value[..0] == "";
    } else {
      var p := value[..lc];
      assert value[..lc + 1] == p + ",";
      LaterTagLabels(p, tag);
    }
  }

  /** Selecting a tag keeps the tags before the last comma, adds the tag,
      and leaves nothing being typed, so no suggestion is shown. */
  lemma SelectTagReplacesFragment(value: string, tag: string, recipes: seq<Recipe>)
    requires NormalLabel(tag)
    ensures var r := SelectTag(value, tag);
      && CurrentTag(r) == ""
      && SplitLabels(r) == SplitLabels(value[..LastIndexOf(value, ',') + 1]) + [tag]
      && TagSuggestions(recipes, r) == []
  {
    SelectTagClearsFragment(value, tag);
    SelectTagLabels(value, tag);
    NoFragmentNoSuggestion(recipes, SelectTag(value, tag));
  }

  /** The label field and its dropdown. */
  datatype TagField = TagField(value: string, menu: Autocomplete.Menu)

  /** One key press in the label field; with `asWritten` the dropdown's
      handler as written, otherwise the one that ignores a hidden list.  A
      selection is inserted with `selectTag`, which sets the value without an
      `input` event, so the dropdown is not refreshed. */
  function TagPress(f: TagField, key: Autocomplete.Key, asWritten: bool): (r: TagField)
    requires Autocomplete.Valid(f.menu)
    ensures Autocomplete.Valid(r.menu) && r.menu.items == f.menu.items
  {
    var p := if asWritten then Autocomplete.TagKeyAsWritten(f.menu, key) else Autocomplete.TagKey(f.menu, key);
    match p.chosen
    case Some(t) => TagField(SelectTag(f.value, t), p.menu)
    case None => TagField(f.value, p.menu)
  }

  /** As written: typing "pas", pressing `ArrowDown` and `Enter` inserts
      "pasta"; a second `Enter` inserts it again. */
  lemma ExampleDoubleInsertAsWritten()
    ensures var f0 := TagField("pas", Autocomplete.TagShow(["pasta"]));
      var f1 := TagPress(f0, Autocomplete.ArrowDown, true);
      var f2 := TagPress(f1, Autocomplete.Enter, true);
      var f3 := TagPress(f2, Autocomplete.Enter, true);
      f2.value == "pasta, " && f3.value == "pasta, pasta, "
  {
    assert LastIndexOf("pas", ',') == -1;
    LastIndexOfAfter("pasta", ',', " ");
    assert "pasta, " == "pasta" + "," + " ";
    assert "pasta, "[..6] + " " + "pasta" + ", " == "pasta, pasta, ";
  }

  /** Ignoring the hidden list, the second `Enter` changes nothing. */
  lemma ExampleSingleInsert()
    ensures var f0 := TagField("pas", Autocomplete.TagShow(["pasta"]));
      var f1 := TagPress(f0, Autocomplete.ArrowDown, false);
      var f2 := TagPress(f1, Autocomplete.Enter, false);
      var f3 := TagPress(f2, Autocomplete.Enter, false);
      f2.value == "pasta, " && f3.value == "pasta, "
  {
    assert LastIndexOf("pas", ',') == -1;
  }
}

=== FILE: ingredient.dfy ===
/** Extracting the ingredient name from a free-text ingredient line such as
    "2 cups of flour" (`parseIngredient` in renderer/modules/utils.js).

    The code removes one leading match of
    `^[\d\s/.¼-¾⅐-⅞↉]+(?:(units)\b)?\s*(?:of\b)?\s*` (case-insensitive), then
    trims and lower-cases the rest.  Every part after the quantity run is
    optional, so the expression never backtracks into the quantity run; the
    model reads it left to right with the same greedy choices. */
module Ingredients {
  import opened Text
  import opened Wrappers

  /** The quantity character class: digits, white space, `/`, `.`, the Latin-1
      fractions U+00BC..U+00BE, the number forms U+2150..U+215E and U+2189. */
  predicate IsQuantityChar(c: char) {
    || IsDigit(c)
    || IsSpace(c)
    || c == '/'
    || c == '.'
    || '\U{00BC}' <= c <= '\U{00BE}'
    || '\U{2150}' <= c <= '\U{215E}'
    || c == '\U{2189}'
  }

  /** The unit alternatives in the order the expression tries them (an optional
      plural `s?` is greedy, so the plural form comes first), in five groups. */
  const Units: seq<string> := CupsAndSpoons + Weights + Measures + Pieces + Containers

  const CupsAndSpoons: seq<string> :=
    ["cups", "cup", "tsp", "tbsp", "teaspoons", "teaspoon", "tablespoons", "tablespoon"]
  const Weights: seq<string> :=
    ["grams", "gram", "g", "kg", "oz", "ounces", "ounce", "lbs", "lb", "pounds", "pound"]
  const Measures: seq<string> := ["ml", "l", "liters", "liter", "pinch", "dash"]
  const Pieces: seq<string> := ["cloves", "clove", "slices", "slice", "pieces", "piece"]
  const Containers: seq<string> :=
    ["cans", "can", "jars", "jar", "packages", "package", "bags", "bag", "box", "boxes", "sticks", "stick"]

  /** Every unit is a non-empty word of lower-case ASCII letters. */
  predicate IsUnitWord(u: string) {
    |u| > 0 && forall m | 0 <= m < |u| :: 'a' <= u[m] <= 'z'
  }

  predicate AllUnitWords(units: seq<string>) {
    forall i | 0 <= i < |units| :: IsUnitWord(units[i])
  }

  lemma AllUnitWordsAppend(a: seq<string>, b: seq<string>)
    requires AllUnitWords(a) && AllUnitWords(b)
    ensures AllUnitWords(a + b)
  {
    assert forall i | |a| <= i < |a + b| :: (a + b)[i] == b[i - |a|];
  }

  lemma UnitsAreWords()
    ensures AllUnitWords(Units)
  {
    CupsAndSpoonsAreWords();
    WeightsAreWords();
    MeasuresAreWords();
    PiecesAreWords();
    ContainersAreWords();
    AllUnitWordsAppend(CupsAndSpoons, Weights);
    AllUnitWordsAppend(CupsAndSpoons + Weights, Measures);
    AllUnitWordsAppend(CupsAndSpoons + Weights + Measures, Pieces);
    AllUnitWordsAppend(CupsAndSpoons + Weights + Measures + Pieces, Containers);
  }

  /** A word outside each of the five groups is not a unit. */
  lemma NotAUnit(w: string)
    requires w !in CupsAndSpoons && w !in Weights && w !in Measures
    requires w !in Pieces && w !in Containers
    ensures w !in Units
  {
  }

  lemma CupsAndSpoonsAreWords() ensures AllUnitWords(CupsAndSpoons) {}
  lemma WeightsAreWords() ensures AllUnitWords(Weights) {}
  lemma MeasuresAreWords() ensures AllUnitWords(Measures) {}
  lemma PiecesAreWords() ensures AllUnitWords(Pieces) {}
  lemma ContainersAreWords() ensures AllUnitWords(Containers) {}

  /** The end of the run of characters satisfying the quantity class from `i`. */
  function QuantityEnd(s: string, i: nat): (j: nat)
    requires i <= |s|
    ensures i <= j <= |s|
    ensures forall k | i <= k < j :: IsQuantityChar(s[k])
    ensures j == |s| || !IsQuantityChar(s[j])
    decreases |s| - i
  {
    if i < |s| && IsQuantityChar(s[i]) then QuantityEnd(s, i + 1) else i
  }

  lemma {:induction false} QuantityEndIs(s: string, i: nat, j: nat)
    requires i <= j <= |s|
    requires forall k | i <= k < j :: IsQuantityChar(s[k])
    requires j == |s| || !IsQuantityChar(s[j])
    ensures QuantityEnd(s, i) == j
    decreases j - i
  {
    if i < j {
      QuantityEndIs(s, i + 1, j);
    }
  }

  /** Case-insensitive comparison for the ASCII letters the patterns use. */
  function Fold(c: char): char {
    if 'A' <= c <= 'Z' then (c as int + 32) as char else c
  }

  function FoldStr(s: string): (r: string)
    ensures |r| == |s|
    ensures forall i | 0 <= i < |s| :: r[i] == Fold(s[i])
  {
    seq(|s|, i requires 0 <= i < |s| => Fold(s[i]))
  }

  /** `w` matches case-insensitively at index `p` of `s`. */
  predicate MatchesFolded(s: string, p: nat, w: string) {
    p + |w| <= |s| && FoldStr(s[p..p + |w|]) == w
  }

  /** `\b` at index `p`: exactly one of the neighbouring characters is a word character. */
  predicate BoundaryAt(s: string, p: nat)
    requires p <= |s|
  {
    (p > 0 && IsWordChar(s[p - 1])) != (p < |s| && IsWordChar(s[p]))
  }

  predicate NoLineTerminatorFrom(s: string, p: nat)
    requires p <= |s|
  {
    forall m | p <= m < |s| :: !IsLineTerminator(s[m])
  }

  /** What must follow a unit for the alternative to be kept: a word boundary
      (this module), or the rest of the input up to its end without a line
      terminator (the edit form's quantity splitter). */
  datatype UnitEnd = WordBoundary | RestOfInput

  predicate UnitFits(s: string, p: nat, u: string, follow: UnitEnd) {
    && MatchesFolded(s, p, u)
    && match follow
       case WordBoundary => BoundaryAt(s, p + |u|)
       case RestOfInput => NoLineTerminatorFrom(s, p + |u|)
  }

  /** The first alternative of `units`, from the `k`-th on, that fits at `p`. */
  function FirstUnitFrom(s: string, p: nat, units: seq<string>, follow: UnitEnd, k: nat): (r: Option<nat>)
    requires k <= |units|
    ensures r.Some? ==> k <= r.value < |units| && p + |units[r.value]| <= |s|
    decreases |units| - k
  {
    if k == |units| then None
    else if UnitFits(s, p, units[k], follow) then Some(k)
    else FirstUnitFrom(s, p, units, follow, k + 1)
  }

  lemma {:induction false} FirstUnitFromSpec(s: string, p: nat, units: seq<string>, follow: UnitEnd, k: nat)
    requires k <= |units|
    ensures var r := FirstUnitFrom(s, p, units, follow, k);
      && (r.Some? ==> UnitFits(s, p, units[r.value], follow))
      && (r.Some? ==> forall j | k <= j < r.value :: !UnitFits(s, p, units[j], follow))
      && (r.None? <==> forall j | k <= j < |units| :: !UnitFits(s, p, units[j], follow))
    decreases |units| - k
  {
    if k < |units| && !UnitFits(s, p, units[k], follow) {
      FirstUnitFromSpec(s, p, units, follow, k + 1);
    }
  }

  /** The alternative of `units` the expression settles on at `p`, as an index:
      alternatives are tried in order and the first that fits is kept. */
  function FirstUnit(s: string, p: nat, units: seq<string>, follow: UnitEnd): (r: Option<nat>)
    ensures r.Some? ==> r.value < |units| && p + |units[r.value]| <= |s|
  {
    FirstUnitFrom(s, p, units, follow, 0)
  }

  /** `FirstUnit` picks the first alternative that fits, in the order given, and
      finds none only when no alternative fits. */
  lemma FirstUnitSpec(s: string, p: nat, units: seq<string>, follow: UnitEnd)
    ensures var r := FirstUnit(s, p, units, follow);
      && (r.Some? ==> UnitFits(s, p, units[r.value], follow))
      && (r.Some? ==> forall j | 0 <= j < r.value :: !UnitFits(s, p, units[j], follow))
      && (r.None? <==> forall j | 0 <= j < |units| :: !UnitFits(s, p, units[j], follow))
  {
    FirstUnitFromSpec(s, p, units, follow, 0);
  }

  /** The end of the run of word characters from `p`. */
  function WordEnd(s: string, p: nat): (j: nat)
    requires p <= |s|
    ensures p <= j <= |s|
    ensures forall k | p <= k < j :: IsWordChar(s[k])
    ensures j == |s| || !IsWordChar(s[j])
    decreases |s| - p
  {
    if p < |s| && IsWordChar(s[p]) then WordEnd(s, p + 1) else p
  }

  lemma {:induction false} WordEndIs(s: string, p: nat, j: nat)
    requires p <= j <= |s|
    requires forall k | p <= k < j :: IsWordChar(s[k])
    requires j == |s| || !IsWordChar(s[j])
    ensures WordEnd(s, p) == j
    decreases j - p
  {
    if p < j {
      WordEndIs(s, p + 1, j);
    }
  }

  /** The word starting at `p`, case-folded. */
  function FoldedWordAt(s: string, p: nat): string
    requires p <= |s|
  {
    FoldStr(s[p..WordEnd(s, p)])
  }

  /** A word that matches case-insensitively and is followed by a word boundary
      is the whole word at that position. */
  lemma FittingWordIsWholeWord(s: string, p: nat, u: string)
    requires p <= |s| && IsUnitWord(u) && UnitFits(s, p, u, WordBoundary)
    ensures WordEnd(s, p) == p + |u|
    ensures FoldedWordAt(s, p) == u
  {
    forall m | p <= m < p + |u|
      ensures IsWordChar(s[m])
    {
      assert Fold(s[m]) == FoldStr(s[p..p + |u|])[m - p] == u[m - p];
    }
    WordEndIs(s, p, p + |u|);
  }

  /** With the word boundary required, a unit is removed exactly when the whole
      word after the quantity is one of the units, whatever the order of the
      alternatives; a unit that is only the beginning of a longer word stays. */
  lemma UnitRemovedIffWholeWord(s: string, p: nat, units: seq<string>)
    requires p <= |s| && AllUnitWords(units)
    ensures FirstUnit(s, p, units, WordBoundary).Some? <==> FoldedWordAt(s, p) in units
    ensures FirstUnit(s, p, units, WordBoundary).Some? ==> units[FirstUnit(s, p, units, WordBoundary).value] == FoldedWordAt(s, p)
  {
    FirstUnitSpec(s, p, units, WordBoundary);
    var r := FirstUnit(s, p, units, WordBoundary);
    if r.Some? {
      FittingWordIsWholeWord(s, p, units[r.value]);
    }
    var w := FoldedWordAt(s, p);
    if w in units {
      var i :| 0 <= i < |units| && units[i] == w;
      var e := WordEnd(s, p);
      assert MatchesFolded(s, p, w);
      assert |w| > 0;
      assert IsWordChar(s[e - 1]);
      assert UnitFits(s, p, units[i], WordBoundary);
    }
  }

  /** The index after the optional unit at `q`. */
  function AfterUnit(text: string, q: nat, units: seq<string>): (e: nat)
    requires q <= |text|
    ensures q <= e <= |text|
  {
    match FirstUnit(text, q, units, WordBoundary)
    case None => q
    case Some(k) => q + |units[k]|
  }

  /** The index after the optional word "of" (followed by a word boundary) at `p`. */
  function AfterOf(text: string, p: nat): (e: nat)
    requires p <= |text|
    ensures e == p || e == p + 2
    ensures e <= |text|
  {
    if MatchesFolded(text, p, "of") && BoundaryAt(text, p + 2) then p + 2 else p
  }

  /** Where the removed prefix ends: 0 when the text does not begin with a
      quantity character, otherwise after the quantity run, the unit (if any),
      white space, the word "of" (if present) and white space again. */
  function StripEnd(text: string, units: seq<string>): (e: nat)
    ensures e <= |text|
    ensures e == 0 <==> (text == [] || !IsQuantityChar(text[0]))
  {
    var q := QuantityEnd(text, 0);
    if q == 0 then 0
    else SkipSpaces(text, AfterOf(text, SkipSpaces(text, AfterUnit(text, q, units))))
  }

  /** `StripEnd` from its steps. */
  lemma StripEndFromSteps(text: string, units: seq<string>, q: nat, unitEnd: nat, ofStart: nat, ofEnd: nat, e: nat)
    requires 0 < q <= |text| && QuantityEnd(text, 0) == q
    requires AfterUnit(text, q, units) == unitEnd
    requires SkipSpaces(text, unitEnd) == ofStart
    requires AfterOf(text, ofStart) == ofEnd
    requires SkipSpaces(text, ofEnd) == e
    ensures StripEnd(text, units) == e
  {
  }

  /** The text after the removed prefix, trimmed and lower-cased, for a given
      list of unit alternatives; the empty string for empty input. */
  function Clean(text: string, units: seq<string>): (r: string)
    ensures text == "" ==> r == ""
    ensures IsTrimmed(r) && IsLowerStr(r)
    ensures |r| <= |text|
  {
    if text == "" then ""
    else
      var rest := Trim(text[StripEnd(text, units)..]);
      LowerStrIsLower(rest);
      TrimLower(text[StripEnd(text, units)..]);
      LowerStr(rest)
  }

  /** `parseIngredient(text)`: the ingredient name, trimmed and lower-case. */
  function ParseIngredient(text: string): (r: string)
    ensures text == "" ==> r == ""
    ensures IsTrimmed(r) && IsLowerStr(r)
    ensures |r| <= |text|
  {
    Clean(text, Units)
  }

  /** Nothing after the removed prefix is lost: every character that is not
      white space is kept, lower-cased. */
  lemma KeepsRest(text: string, units: seq<string>, k: nat)
    requires StripEnd(text, units) <= k < |text| && !IsSpace(text[k])
    ensures Lower(text[k]) in Clean(text, units)
  {
    var e := StripEnd(text, units);
    var rest := Trim(text[e..]);
    assert text[e..][k - e] == text[k];
    TrimKeeps(text[e..], k - e);
    var i :| 0 <= i < |rest| && rest[i] == text[k];
    assert LowerStr(rest)[i] == Lower(text[k]);
  }

  /** Text that does not begin with a quantity character is only trimmed and
      lower-cased. */
  lemma NoQuantityNoStrip(text: string, units: seq<string>)
    requires text != "" && !IsQuantityChar(text[0])
    ensures Clean(text, units) == LowerStr(Trim(text))
  {
    assert text[0..] == text;
  }

  /** The quantity run of `qty + rest` is `qty` when `rest` does not begin with
      a quantity character. */
  lemma QuantityPrefix(qty: string, rest: string)
    requires |qty| > 0 && forall k | 0 <= k < |qty| :: IsQuantityChar(qty[k])
    requires |rest| > 0 && !IsQuantityChar(rest[0])
    ensures QuantityEnd(qty + rest, 0) == |qty|
  {
    var text := qty + rest;
    assert forall k | 0 <= k < |qty| :: text[k] == qty[k];
    assert text[|qty|] == rest[0];
    QuantityEndIs(text, 0, |qty|);
  }

  /** A unit word in any letter case right after the quantity is removed whole. */
  lemma UnitAfterQuantity(qty: string, unit: string, rest: string, units: seq<string>)
    requires AllUnitWords(units) && FoldStr(unit) in units
    requires |rest| > 0 && !IsWordChar(rest[0])
    ensures AfterUnit(qty + unit + rest, |qty|, units) == |qty| + |unit|
    ensures |unit| > 0 && !IsQuantityChar(unit[0])
  {
    var text := qty + unit + rest;
    var q := |qty|;
    var u := FoldStr(unit);
    assert IsUnitWord(u);
    forall m | 0 <= m < |unit| ensures IsWordChar(unit[m]) {
      assert Fold(unit[m]) == u[m];
    }
    assert text[q..q + |unit|] == unit;
    forall m | q <= m < q + |unit| ensures IsWordChar(text[m]) {
      assert text[m] == unit[m - q];
    }
    assert text[q + |unit|] == rest[0];
    WordEndIs(text, q, q + |unit|);
    UnitRemovedIffWholeWord(text, q, units);
  }

  /** White space `gap` at `e` followed by a character that is not white space is skipped. */
  lemma SkipGap(text: string, e: nat, gap: string)
    requires e + |gap| < |text| && text[e..e + |gap|] == gap && AllSpaces(gap)
    requires !IsSpace(text[e + |gap|])
    ensures SkipSpaces(text, e) == e + |gap|
  {
    forall m | e <= m < e + |gap| ensures IsSpace(text[m]) {
      assert text[m] == gap[m - e];
    }
    SkipSpacesIs(text, e, e + |gap|);
  }

  /** The quantity run stops at a unit word that follows it. */
  lemma QuantityBeforeUnit(qty: string, unit: string, rest: string)
    requires |qty| > 0 && forall k | 0 <= k < |qty| :: IsQuantityChar(qty[k])
    requires |unit| > 0 && !IsQuantityChar(unit[0])
    ensures QuantityEnd(qty + unit + rest, 0) == |qty|
  {
    var tail := unit + rest;
    assert tail[0] == unit[0];
    assert qty + unit + rest == qty + tail;
    QuantityPrefix(qty, tail);
  }

  /** When the removed prefix ends at `e` and the rest is already trimmed, the
      result is the rest, lower-cased. */
  lemma CleanFrom(text: string, units: seq<string>, e: nat)
    requires e < |text| && StripEnd(text, units) == e && IsTrimmed(text[e..])
    ensures Clean(text, units) == LowerStr(text[e..])
  {
    TrimOfTrimmed(text[e..]);
  }

  /** After the unit, white space and a name that does not begin with "of":
      the prefix ends where the name begins. */
  lemma GapThenName(text: string, e: nat, gap: string, name: string)
    requires e <= |text| && text[e..] == gap + name
    requires AllSpaces(gap) && IsTrimmed(name) && |name| > 0
    requires !MatchesFolded(name, 0, "of")
    ensures SkipSpaces(text, e) == e + |gap|
    ensures AfterOf(text, e + |gap|) == e + |gap|
    ensures SkipSpaces(text, e + |gap|) == e + |gap|
  {
    var n := e + |gap|;
    assert text[e..n] == gap;
    assert text[n] == name[0];
    SkipGap(text, e, gap);
    assert !MatchesFolded(text, n, "of") by {
      if n + 2 <= |text| {
        assert text[n..n + 2] == name[0..2];
      }
    }
    SkipSpacesIs(text, n, n);
  }

  /** A quantity, a unit word in any letter case, white space and a name that
      does not begin with "of": the name alone is kept, lower-cased. */
  lemma QuantityUnitName(qty: string, unit: string, gap: string, name: string, units: seq<string>)
    requires |qty| > 0 && forall k | 0 <= k < |qty| :: IsQuantityChar(qty[k])
    requires AllUnitWords(units) && FoldStr(unit) in units
    requires |gap| > 0 && AllSpaces(gap)
    requires IsTrimmed(name) && |name| > 0
    requires !MatchesFolded(name, 0, "of")
    ensures Clean(qty + unit + gap + name, units) == LowerStr(name)
  {
    var text := qty + unit + gap + name;
    var n := |qty| + |unit| + |gap|;
    UnitNamePrefix(qty, unit, gap, name, units);
    assert text[n..] == name;
    CleanFrom(text, units, n);
  }

  lemma UnitNamePrefix(qty: string, unit: string, gap: string, name: string, units: seq<string>)
    requires |qty| > 0 && forall k | 0 <= k < |qty| :: IsQuantityChar(qty[k])
    requires AllUnitWords(units) && FoldStr(unit) in units
    requires |gap| > 0 && AllSpaces(gap)
    requires IsTrimmed(name) && |name| > 0
    requires !MatchesFolded(name, 0, "of")
    ensures StripEnd(qty + unit + gap + name, units) == |qty| + |unit| + |gap|
  {
    var text := qty + unit + (gap + name);
    assert text == qty + unit + gap + name;
    UnitAfterQuantity(qty, unit, gap + name, units);
    QuantityBeforeUnit(qty, unit, gap + name);
    var e := |qty| + |unit|;
    assert text[e..] == gap + name;
    GapThenName(text, e, gap, name);
    StripEndFromSteps(text, units, |qty|, e, e + |gap|, e + |gap|, e + |gap|);
  }

  /** After the unit, " of " and a name that does not begin with white space:
      the prefix ends where the name begins. */
  lemma GapOfGap(text: string, e: nat, name: string)
    requires e <= |text| && text[e..] == " of " + name
    requires |name| > 0 && !IsSpace(name[0])
    ensures SkipSpaces(text, e) == e + 1
    ensures AfterOf(text, e + 1) == e + 3
    ensures SkipSpaces(text, e + 3) == e + 4
  {
    assert text[e] == ' ' && text[e + 1] == 'o' && text[e + 2] == 'f' && text[e + 3] == ' ';
    assert text[e + 4] == name[0];
    SkipSpacesIs(text, e, e + 1);
    assert text[e + 1..e + 3] == "of";
    SkipSpacesIs(text, e + 3, e + 4);
  }

  /** A quantity, a unit word, " of " and a name: the name alone is kept. */
  lemma QuantityUnitOfName(qty: string, unit: string, name: string, units: seq<string>)
    requires |qty| > 0 && forall k | 0 <= k < |qty| :: IsQuantityChar(qty[k])
    requires AllUnitWords(units) && FoldStr(unit) in units
    requires IsTrimmed(name) && |name| > 0
    ensures Clean(qty + unit + " of " + name, units) == LowerStr(name)
  {
    var text := qty + unit + " of " + name;
    var e := |qty| + |unit|;
    UnitOfNamePrefix(qty, unit, name, units);
    assert text[e + 4..] == name;
    CleanFrom(text, units, e + 4);
  }

  lemma UnitOfNamePrefix(qty: string, unit: string, name: string, units: seq<string>)
    requires |qty| > 0 && forall k | 0 <= k < |qty| :: IsQuantityChar(qty[k])
    requires AllUnitWords(units) && FoldStr(unit) in units
    requires IsTrimmed(name) && |name| > 0
    ensures StripEnd(qty + unit + " of " + name, units) == |qty| + |unit| + 4
  {
    var text := qty + unit + (" of " + name);
    assert text == qty + unit + " of " + name;
    UnitAfterQuantity(qty, unit, " of " + name, units);
    QuantityBeforeUnit(qty, unit, " of " + name);
    var e := |qty| + |unit|;
    assert text[e..] == " of " + name;
    GapOfGap(text, e, name);
    StripEndFromSteps(text, units, |qty|, e, e + 1, e + 3, e + 4);
  }

  /** A quantity followed by a word that is not a unit (nor "of"): only the
      quantity is removed, even when the word begins with a unit such as "l". */
  lemma QuantityThenOtherWord(qty: string, rest: string, units: seq<string>)
    requires |qty| > 0 && forall k | 0 <= k < |qty| :: IsQuantityChar(qty[k])
    requires |rest| > 0 && !IsQuantityChar(rest[0]) && IsTrimmed(rest)
    requires AllUnitWords(units) && FoldedWordAt(rest, 0) !in units
    requires FoldedWordAt(rest, 0) != "of"
    ensures Clean(qty + rest, units) == LowerStr(rest)
  {
    var text := qty + rest;
    var q := |qty|;
    QuantityPrefix(qty, rest);
    assert text[q..] == rest;
    WordAtOffset(qty, rest);
    UnitRemovedIffWholeWord(text, q, units);
    assert AfterUnit(text, q, units) == q;
    assert !IsSpace(text[q]) by { assert text[q] == rest[0]; }
    SkipSpacesIs(text, q, q);
    assert !(MatchesFolded(text, q, "of") && BoundaryAt(text, q + 2)) by {
      if MatchesFolded(text, q, "of") && BoundaryAt(text, q + 2) {
        OfIsWholeWord(text, q);
      }
    }
    StripEndFromSteps(text, units, q, q, q, q, q);
    TrimOfTrimmed(rest);
  }

  /** The folded word at the start of `rest` is the folded word at `|qty|` in `qty + rest`. */
  lemma WordAtOffset(qty: string, rest: string)
    ensures FoldedWordAt(qty + rest, |qty|) == FoldedWordAt(rest, 0)
  {
    var text := qty + rest;
    var e := WordEnd(rest, 0);
    forall m | |qty| <= m < |qty| + e ensures IsWordChar(text[m]) {
      assert text[m] == rest[m - |qty|];
    }
    assert |qty| + e == |text| || text[|qty| + e] == rest[e];
    WordEndIs(text, |qty|, |qty| + e);
    assert text[|qty|..|qty| + e] == rest[0..e];
  }

  lemma OfIsWholeWord(s: string, p: nat)
    requires p <= |s| && MatchesFolded(s, p, "of") && BoundaryAt(s, p + 2)
    ensures FoldedWordAt(s, p) == "of"
  {
    assert IsUnitWord("of");
    FittingWordIsWholeWord(s, p, "of");
  }

  lemma ExampleUnitAndOf()
    ensures ParseIngredient("1 cup of flour") == "flour"
  {
    var qty, unit, name := "1 ", "cup", "flour";
    assert qty + unit + " of " + name == "1 cup of flour";
    assert FoldStr(unit) == unit == CupsAndSpoons[1] == Units[1];
    assert IsLowerStr(name);
    LowerStrOfLower(name);
    UnitsAreWords();
    QuantityUnitOfName(qty, unit, name, Units);
  }

  lemma ExampleUpperCaseUnit()
    ensures ParseIngredient("2 TBSP Butter") == "butter"
  {
    var qty, unit, gap, name := "2 ", "TBSP", " ", "Butter";
    assert qty + unit + gap + name == "2 TBSP Butter";
    TbspIsAUnit();
    ButterIsAName();
    UnitsAreWords();
    QuantityUnitName(qty, unit, gap, name, Units);
  }

  lemma TbspIsAUnit()
    ensures FoldStr("TBSP") in Units
  {
    assert FoldStr("TBSP") == "tbsp" == CupsAndSpoons[3] == Units[3];
  }

  lemma ButterIsAName()
    ensures IsTrimmed("Butter") && !MatchesFolded("Butter", 0, "of")
    ensures LowerStr("Butter") == "butter"
  {
    var name := "Butter";
    assert FoldStr(name[0..2]) == "bu";
    assert LowerStr(name) == "butter";
  }

  /** "l" is a unit, but the boundary after it fails inside "large", so the
      word is kept. */
  lemma ExampleUnitPrefixKept()
    ensures ParseIngredient("2 large eggs") == "large eggs"
  {
    var qty, rest := "2 ", "large eggs";
    assert qty + rest == "2 large eggs";
    LargeIsNoUnit();
    UnitsAreWords();
    QuantityThenOtherWord(qty, rest, Units);
  }

  lemma LargeIsNoUnit()
    ensures FoldedWordAt("large eggs", 0) == "large"
    ensures "large" !in Units
    ensures LowerStr("large eggs") == "large eggs"
  {
    var rest := "large eggs";
    WordEndIs(rest, 0, 5);
    assert FoldedWordAt(rest, 0) == "large";
    NotAUnit("large");
    assert IsLowerStr(rest);
    LowerStrOfLower(rest);
  }
}

=== FILE: mapview.dfy ===
/** The world map of renderer/mapController.js: which countries are
    highlighted for the current list of recipes, the count each one shows, the
    "other" indicator for recipes no country takes, and the lists a click opens.

    The country resolver and the set of element ids the map's SVG holds are
    parameters, so that the counting logic is independent of the country table;
    `UpdateMapData` instantiates the resolver with `getCountryIdFromTag`. */
module MapView {
  import opened Wrappers
  import opened Text
  import opened Seqs
  import opened Recipes
  import CountryTable

  /** The tags the map reads off a recipe's labels: a non-empty array as it is,
      a non-empty string split at its commas with every piece trimmed, and no
      tag at all for absent or empty labels. */
  function RecipeTags(labels: Labels): (r: seq<string>)
    ensures labels.LabelList? ==> r == labels.list
    ensures labels.LabelText? ==> forall i | 0 <= i < |r| :: IsTrimmed(r[i])
    ensures labels.LabelText? && labels.text != "" ==> |r| == |Split(labels.text, ',')|
    ensures labels.NoLabels? ==> r == []
  {
    match labels
    case LabelList(list) => list
    case LabelText(text) =>
      if text == "" then []
      else
        var ps := Split(text, ',');
        seq(|ps|, i requires 0 <= i < |ps| => Trim(ps[i]))
    case NoLabels => []
  }

  /** Labels written as one string the way the edit form shows them, joined
      with ", ", are read back by the map as the same tags. */
  lemma LabelStringRoundTrip(ls: seq<string>)
    requires forall i | 0 <= i < |ls| :: ls[i] != "" && IsTrimmed(ls[i]) && ',' !in ls[i]
    ensures RecipeTags(LabelText(Join(ls, ", "))) == ls
  {
    if |ls| > 0 {
      SplitCommaSpaceJoin(ls);
      assert |Join(ls, ", ")| >= |ls[0]|;
    }
  }

  /** `tags.some(tag => getCountryIdFromTag(tag) === countryId)`. */
  predicate HasTagFor(tags: seq<string>, resolve: string -> Option<string>, id: string) {
    exists i | 0 <= i < |tags| :: resolve(tags[i]) == Some(id)
  }

  /** The country ids the tags resolve to that the map has an element for, one
      per such tag and in tag order: the increments one recipe makes to
      `countryCounts`. */
  function Hits(tags: seq<string>, resolve: string -> Option<string>, svg: set<string>): (r: seq<string>)
    ensures |r| <= |tags|
    ensures forall c :: c in r <==> c in svg && HasTagFor(tags, resolve, c)
  {
    if |tags| == 0 then []
    else
      var rest := Hits(tags[1..], resolve, svg);
      assert forall c :: HasTagFor(tags, resolve, c) <==> resolve(tags[0]) == Some(c) || HasTagFor(tags[1..], resolve, c) by {
        forall c ensures HasTagFor(tags, resolve, c) ==> resolve(tags[0]) == Some(c) || HasTagFor(tags[1..], resolve, c) {
          if HasTagFor(tags, resolve, c) {
            var i :| 0 <= i < |tags| && resolve(tags[i]) == Some(c);
            if i > 0 {
              assert tags[1..][i - 1] == tags[i];
            }
          }
        }
        forall c ensures HasTagFor(tags[1..], resolve, c) ==> HasTagFor(tags, resolve, c) {
          if HasTagFor(tags[1..], resolve, c) {
            var j :| 0 <= j < |tags[1..]| && resolve(tags[1..][j]) == Some(c);
            assert tags[j + 1] == tags[1..][j];
          }
        }
      }
      match resolve(tags[0])
      case Some(c) => if c in svg then [c] + rest else rest
      case None => rest
  }

  /** `placed`: some tag of the recipe resolves to a country the map has. */
  predicate Placed(x: Recipe, resolve: string -> Option<string>, svg: set<string>) {
    |Hits(RecipeTags(x.labels), resolve, svg)| > 0
  }

  /** What one recipe adds to the counts: one per matching tag as the source
      counts, or each country once when counting recipes per country. */
  function Contribution(x: Recipe, resolve: string -> Option<string>, svg: set<string>, perRecipe: bool): (r: seq<string>)
    ensures forall c :: c in r <==> c in svg && HasTagFor(RecipeTags(x.labels), resolve, c)
    ensures |r| == 0 <==> !Placed(x, resolve, svg)
    ensures perRecipe ==> NoDuplicates(r)
  {
    var h := Hits(RecipeTags(x.labels), resolve, svg);
    if perRecipe then
      var d := Distinct(h);
      assert |h| > 0 ==> h[0] in d;
      d
    else h
  }

  /** The contributions of all recipes, recipe after recipe. */
  function AllContributions(recipes: seq<Recipe>, resolve: string -> Option<string>, svg: set<string>, perRecipe: bool): seq<string>
  {
    if |recipes| == 0 then []
    else
      var n := |recipes| - 1;
      AllContributions(recipes[..n], resolve, svg, perRecipe) + Contribution(recipes[n], resolve, svg, perRecipe)
  }

  /** Some recipe of the list has a tag for the country. */
  predicate SomeTagFor(recipes: seq<Recipe>, resolve: string -> Option<string>, c: string) {
    exists i | 0 <= i < |recipes| :: HasTagFor(RecipeTags(recipes[i].labels), resolve, c)
  }

  /** A country is contributed exactly when the map has it and some recipe
      has a tag for it. */
  lemma {:induction false} AllContributionsMembers(recipes: seq<Recipe>, resolve: string -> Option<string>, svg: set<string>, perRecipe: bool, c: string)
    ensures c in AllContributions(recipes, resolve, svg, perRecipe) <==> c in svg && SomeTagFor(recipes, resolve, c)
  {
    if |recipes| > 0 {
      var n := |recipes| - 1;
      var init := recipes[..n];
      var a, b := AllContributions(init, resolve, svg, perRecipe), Contribution(recipes[n], resolve, svg, perRecipe);
      assert AllContributions(recipes, resolve, svg, perRecipe) == a + b;
      AllContributionsMembers(init, resolve, svg, perRecipe, c);
      SomeTagForLast(recipes, resolve, c);
    }
  }

  /** The tags of a list are those of all but its last recipe and those of
      the last. */
  lemma SomeTagForLast(recipes: seq<Recipe>, resolve: string -> Option<string>, c: string)
    requires |recipes| > 0
    ensures var n := |recipes| - 1;
      SomeTagFor(recipes, resolve, c)
      <==> SomeTagFor(recipes[..n], resolve, c) || HasTagFor(RecipeTags(recipes[n].labels), resolve, c)
  {
    var n := |recipes| - 1;
    assert recipes == recipes[..n] + [recipes[n]];
    ExistsLast(recipes[..n], recipes[n], (x: Recipe) => HasTagFor(RecipeTags(x.labels), resolve, c));
  }

  /** The recipes no country takes, in catalogue order: the "other" list. */
  function Unplaced(recipes: seq<Recipe>, resolve: string -> Option<string>, svg: set<string>): (r: seq<Recipe>)
    ensures forall x :: x in r <==> x in recipes && !Placed(x, resolve, svg)
    ensures IsSubsequence(r, recipes)
  {
    if |recipes| == 0 then []
    else
      var n := |recipes| - 1;
      var rest := Unplaced(recipes[..n], resolve, svg);
      assert recipes == recipes[..n] + [recipes[n]];
      if Placed(recipes[n], resolve, svg) then
        SubsequenceExtend(rest, recipes[..n], recipes[n]);
        rest
      else
        SubsequenceAppend(rest, recipes[..n], recipes[n]);
        rest + [recipes[n]]
  }

  /** The recipes with a tag for country `id`, in catalogue order. */
  function Tagged(recipes: seq<Recipe>, id: string, resolve: string -> Option<string>): (r: seq<Recipe>)
    ensures forall x :: x in r <==> x in recipes && HasTagFor(RecipeTags(x.labels), resolve, id)
    ensures IsSubsequence(r, recipes)
  {
    if |recipes| == 0 then []
    else
      var n := |recipes| - 1;
      var rest := Tagged(recipes[..n], id, resolve);
      assert recipes == recipes[..n] + [recipes[n]];
      if HasTagFor(RecipeTags(recipes[n].labels), resolve, id) then
        SubsequenceAppend(rest, recipes[..n], recipes[n]);
        rest + [recipes[n]]
      else
        SubsequenceExtend(rest, recipes[..n], recipes[n]);
        rest
  }

  /** `showCountryRecipes`: for "other" the recipes no country on the map
      takes; for a country every recipe with a tag resolving to it, whether
      or not the map has that country. */
  function ShowCountryRecipes(recipes: seq<Recipe>, id: string, resolve: string -> Option<string>, svg: set<string>): (r: seq<Recipe>)
    ensures IsSubsequence(r, recipes)
    ensures id == "other" ==> forall x :: x in r <==> x in recipes && !Placed(x, resolve, svg)
    ensures id != "other" ==> forall x :: x in r <==> x in recipes && HasTagFor(RecipeTags(x.labels), resolve, id)
  {
    if id == "other" then Unplaced(recipes, resolve, svg) else Tagged(recipes, id, resolve)
  }

  /** Adding one to the count of each id in `codes`, starting from zero for an
      id not counted yet. */
  function AddHits(counts: map<string, nat>, codes: seq<string>): (r: map<string, nat>)
    ensures forall c :: c in r <==> c in counts || c in codes
    ensures forall c | c in r :: r[c] == (if c in counts then counts[c] else 0) + multiset(codes)[c]
    decreases |codes|
  {
    if |codes| == 0 then counts
    else
      var c0 := codes[0];
      assert codes == [c0] + codes[1..];
      var n := if c0 in counts then counts[c0] else 0;
      AddHits(counts[c0 := n + 1], codes[1..])
  }

  /** `counts` holds, for each id in `hits`, the number of its occurrences. */
  ghost predicate Counted(counts: map<string, nat>, hits: seq<string>) {
    && (forall c :: c in counts <==> c in hits)
    && (forall c | c in counts :: counts[c] == multiset(hits)[c])
  }

  /** Counting further hits extends the counts of the earlier ones. */
  lemma AddHitsCounted(counts: map<string, nat>, a: seq<string>, b: seq<string>)
    requires Counted(counts, a)
    ensures Counted(AddHits(counts, b), a + b)
  {
  }

  /** The loop of `updateMapData`: `countryCounts` and `otherCount`.  With
      `perRecipe` false it counts as the source does, once per matching tag. */
  method Tally(recipes: seq<Recipe>, resolve: string -> Option<string>, svg: set<string>, perRecipe: bool)
    returns (counts: map<string, nat>, other: nat)
    ensures forall c :: c in counts <==> c in svg && SomeTagFor(recipes, resolve, c)
    ensures forall c | c in counts :: counts[c] == multiset(AllContributions(recipes, resolve, svg, perRecipe))[c] > 0
    ensures other == |ShowCountryRecipes(recipes, "other", resolve, svg)|
  {
    counts, other := map[], 0;
    var i := 0;
    while i < |recipes|
      invariant 0 <= i <= |recipes|
      invariant Counted(counts, AllContributions(recipes[..i], resolve, svg, perRecipe))
      invariant other == |Unplaced(recipes[..i], resolve, svg)|
    {
      var codes := Contribution(recipes[i], resolve, svg, perRecipe);
      PrefixStep(recipes, resolve, svg, perRecipe, i);
      AddHitsCounted(counts, AllContributions(recipes[..i], resolve, svg, perRecipe), codes);
      counts := AddHits(counts, codes);
      if |codes| == 0 {
        other := other + 1;
      }
      i := i + 1;
    }
    assert recipes[..i] == recipes;
    forall c
      ensures c in counts <==> c in svg && SomeTagFor(recipes, resolve, c)
    {
      AllContributionsMembers(recipes, resolve, svg, perRecipe, c);
    }
  }

  /** What one more recipe adds to the contributions and the "other" list. */
  lemma PrefixStep(recipes: seq<Recipe>, resolve: string -> Option<string>, svg: set<string>, perRecipe: bool, i: nat)
    requires i < |recipes|
    ensures AllContributions(recipes[..i + 1], resolve, svg, perRecipe)
      == AllContributions(recipes[..i], resolve, svg, perRecipe) + Contribution(recipes[i], resolve, svg, perRecipe)
    ensures |Unplaced(recipes[..i + 1], resolve, svg)|
      == |Unplaced(recipes[..i], resolve, svg)| + if Placed(recipes[i], resolve, svg) then 0 else 1
  {
    assert recipes[..i + 1][..i] == recipes[..i];
  }

  /** The recipes some country on the map takes, in catalogue order. */
  function PlacedRecipes(recipes: seq<Recipe>, resolve: string -> Option<string>, svg: set<string>): (r: seq<Recipe>)
    ensures forall x :: x in r <==> x in recipes && Placed(x, resolve, svg)
    ensures IsSubsequence(r, recipes)
  {
    if |recipes| == 0 then []
    else
      var n := |recipes| - 1;
      var rest := PlacedRecipes(recipes[..n], resolve, svg);
      assert recipes == recipes[..n] + [recipes[n]];
      if Placed(recipes[n], resolve, svg) then
        SubsequenceAppend(rest, recipes[..n], recipes[n]);
        rest + [recipes[n]]
      else
        SubsequenceExtend(rest, recipes[..n], recipes[n]);
        rest
  }

  /** Every recipe is either placed on the map or in the "other" list: the
      placed recipes and `otherCount` add up to the catalogue. */
  lemma {:induction false} PlacedPlusOther(recipes: seq<Recipe>, resolve: string -> Option<string>, svg: set<string>)
    ensures |PlacedRecipes(recipes, resolve, svg)| + |Unplaced(recipes, resolve, svg)| == |recipes|
  {
    if |recipes| > 0 {
      PlacedPlusOther(recipes[..|recipes| - 1], resolve, svg);
    }
  }

  /** The "other" indicator is lit exactly when some recipe is unplaced. */
  lemma OtherIndicator(recipes: seq<Recipe>, resolve: string -> Option<string>, svg: set<string>)
    ensures |ShowCountryRecipes(recipes, "other", resolve, svg)| > 0
      <==> exists i | 0 <= i < |recipes| :: !Placed(recipes[i], resolve, svg)
  {
    var u := ShowCountryRecipes(recipes, "other", resolve, svg);
    if |u| > 0 {
      assert u[0] in u;
    }
    if i :| 0 <= i < |recipes| && !Placed(recipes[i], resolve, svg) {
      assert recipes[i] in u;
    }
  }

  /** Once a recipe counts at most one for a country, the count shown on the
      country is the length of the list its click opens. */
  lemma {:induction false} CountIsListLength(recipes: seq<Recipe>, resolve: string -> Option<string>, svg: set<string>, c: string)
    requires c in svg && c != "other"
    ensures multiset(AllContributions(recipes, resolve, svg, true))[c] == |ShowCountryRecipes(recipes, c, resolve, svg)|
  {
    if |recipes| > 0 {
      var n := |recipes| - 1;
      CountIsListLength(recipes[..n], resolve, svg, c);
      var d := Contribution(recipes[n], resolve, svg, true);
      NoDuplicatesCount(d, c);
      assert multiset(d)[c] == if c in d then 1 else 0;
    }
  }

  /** As the source counts, a recipe with two tags for the same country counts
      twice on it, while the country's list holds the recipe once. */
  lemma DoubleCountAsWritten(resolve: string -> Option<string>, x: Recipe)
    requires x.labels == LabelList([" France ", "france"])
    requires resolve(" France ") == Some("FR") && resolve("france") == Some("FR")
    ensures multiset(AllContributions([x], resolve, {"FR"}, false))["FR"] == 2
    ensures |ShowCountryRecipes([x], "FR", resolve, {"FR"})| == 1
  {
    var tags := [" France ", "france"];
    assert tags[1..] == ["france"] && tags[1..][1..] == [];
    assert Hits(tags, resolve, {"FR"}) == ["FR", "FR"];
    assert [x][..0] == [];
    assert HasTagFor(tags, resolve, "FR") by { assert resolve(tags[0]) == Some("FR"); }
  }

  /** With the real country table: one recipe tagged " France " and "france"
      counts two on France, so its tooltip says "recipes", while the list
      France opens holds one recipe. */
  lemma ExampleDoubleCount(x: Recipe)
    requires x.labels == LabelList([" France ", "france"])
    ensures multiset(AllContributions([x], CountryTable.GetCountryIdFromTag, {"FR"}, false))["FR"] == 2
    ensures |ShowCountryRecipes([x], "FR", CountryTable.GetCountryIdFromTag, {"FR"})| == 1
  {
    CountryTable.ExampleFrance();
    DoubleCountAsWritten(CountryTable.GetCountryIdFromTag, x);
  }

  /** The number of tags that resolve to country `c`. */
  function TagsFor(tags: seq<string>, resolve: string -> Option<string>, c: string): nat {
    if |tags| == 0 then 0
    else (if resolve(tags[0]) == Some(c) then 1 else 0) + TagsFor(tags[1..], resolve, c)
  }

  /** The number of tags, over all recipes, that resolve to country `c`. */
  function TagCount(recipes: seq<Recipe>, resolve: string -> Option<string>, c: string): nat {
    if |recipes| == 0 then 0
    else
      var n := |recipes| - 1;
      TagCount(recipes[..n], resolve, c) + TagsFor(RecipeTags(recipes[n].labels), resolve, c)
  }

  /** A country the map has is hit once per tag that resolves to it. */
  lemma {:induction false} HitsAreTags(tags: seq<string>, resolve: string -> Option<string>, svg: set<string>, c: string)
    requires c in svg
    ensures multiset(Hits(tags, resolve, svg))[c] == TagsFor(tags, resolve, c)
  {
    if |tags| > 0 {
      HitsAreTags(tags[1..], resolve, svg, c);
    }
  }

  /** Counting per tag, a country the map has counts every tag for it in every recipe. */
  lemma {:induction false} CountIsTagCount(recipes: seq<Recipe>, resolve: string -> Option<string>, svg: set<string>, c: string)
    requires c in svg
    ensures multiset(AllContributions(recipes, resolve, svg, false))[c] == TagCount(recipes, resolve, c)
  {
    if |recipes| > 0 {
      var n := |recipes| - 1;
      CountIsTagCount(recipes[..n], resolve, svg, c);
      HitsAreTags(RecipeTags(recipes[n].labels), resolve, svg, c);
    }
  }

  /** A recipe has a tag for a country exactly when one or more of its tags resolve to it. */
  lemma {:induction false} TagsForPositive(tags: seq<string>, resolve: string -> Option<string>, c: string)
    ensures TagsFor(tags, resolve, c) > 0 <==> HasTagFor(tags, resolve, c)
  {
    if |tags| > 0 {
      TagsForPositive(tags[1..], resolve, c);
      if HasTagFor(tags, resolve, c) && resolve(tags[0]) != Some(c) {
        var i :| 0 <= i < |tags| && resolve(tags[i]) == Some(c);
        assert tags[1..][i - 1] == tags[i];
      }
      if HasTagFor(tags[1..], resolve, c) {
        var j :| 0 <= j < |tags[1..]| && resolve(tags[1..][j]) == Some(c);
        assert tags[j + 1] == tags[1..][j];
      }
    }
  }

  /** The count shown on a country is never below the length of the list its
      click opens: each recipe on the list has at least one tag for it. */
  lemma {:induction false} CountAtLeastListLength(recipes: seq<Recipe>, resolve: string -> Option<string>, c: string)
    ensures TagCount(recipes, resolve, c) >= |Tagged(recipes, c, resolve)|
  {
    if |recipes| > 0 {
      var n := |recipes| - 1;
      CountAtLeastListLength(recipes[..n], resolve, c);
      TagsForPositive(RecipeTags(recipes[n].labels), resolve, c);
    }
  }

  /** `updateMapData`: the map lights exactly the countries some recipe has a
      tag for, each showing the number of tags, over all recipes, that resolve
      to it, and `otherCount` is the length of the "other" list. */
  method UpdateMapData(recipes: seq<Recipe>, svg: set<string>) returns (counts: map<string, nat>, other: nat)
    ensures forall c :: c in counts <==> c in svg && SomeTagFor(recipes, CountryTable.GetCountryIdFromTag, c)
    ensures forall c | c in counts :: counts[c] == TagCount(recipes, CountryTable.GetCountryIdFromTag, c) > 0
    ensures other == |ShowCountryRecipes(recipes, "other", CountryTable.GetCountryIdFromTag, svg)|
  {
    counts, other := Tally(recipes, CountryTable.GetCountryIdFromTag, svg, false);
    forall c | c in counts
      ensures counts[c] == TagCount(recipes, CountryTable.GetCountryIdFromTag, c)
    {
      CountIsTagCount(recipes, CountryTable.GetCountryIdFromTag, svg, c);
    }
  }

  /** `updateMapData` corrected: recipes counted once per country, over the
      corrected country table.  Each lit country shows the length of the list a
      click on it opens. */
  method UpdateMapDataPerRecipe(recipes: seq<Recipe>, svg: set<string>) returns (counts: map<string, nat>, other: nat)
    ensures forall c :: c in counts <==> c in svg && SomeTagFor(recipes, CountryTable.GetCountryIdFromTagCorrected, c)
    ensures forall c | c in counts && c != "other" :: counts[c] == |ShowCountryRecipes(recipes, c, CountryTable.GetCountryIdFromTagCorrected, svg)| > 0
    ensures other == |ShowCountryRecipes(recipes, "other", CountryTable.GetCountryIdFromTagCorrected, svg)|
  {
    counts, other := Tally(recipes, CountryTable.GetCountryIdFromTagCorrected, svg, true);
    forall c | c in counts && c != "other"
      ensures counts[c] == |ShowCountryRecipes(recipes, c, CountryTable.GetCountryIdFromTagCorrected, svg)|
    {
      CountIsListLength(recipes, CountryTable.GetCountryIdFromTagCorrected, svg, c);
    }
  }

  /** The tooltip of a highlighted country: its `title` attribute, or its id
      when that is empty, then the count, with "recipe" in the plural exactly
      when the count is above one. */
  function Tooltip(title: string, id: string, count: nat): (r: string)
    ensures var name := if title != "" then title else id;
      |r| > |name| + 2 && r[..|name| + 2] == name + ": "
    ensures r[|r| - 1] == 's' <==> count > 1
  {
    var name := if title != "" then title else id;
    name + ": " + NatToString(count) + " recipe" + (if count > 1 then "s" else "")
  }

  /** `openRecipeListModal`'s heading for a given adjective: the adjective and
      "Recipes", or "Recipes" alone when there is no adjective. */
  function TitleFor(adjective: Option<string>): (r: string)
    ensures |r| >= 7 && r[|r| - 7..] == "Recipes"
    ensures r == "Recipes" <==> adjective.None? || adjective.value == ""
    ensures adjective.Some? ==> |r| >= |adjective.value| && r[..|adjective.value|] == adjective.value
    ensures adjective.None? ==> r == "Recipes"
  {
    match adjective
    case Some(a) => if a != "" then a + " Recipes" else "Recipes"
    case None => "Recipes"
  }

  /** `openRecipeListModal`'s heading for a country id. */
  function ListTitle(id: string): (r: string)
    ensures id == "" ==> r == "Recipes"
    ensures |r| >= 7 && r[|r| - 7..] == "Recipes"
  {
    TitleFor(CountryTable.GetAdjectiveFromId(id))
  }

  /** The "other" list is headed "Global / Other Recipes". */
  lemma ExampleListTitleOther()
    ensures ListTitle("other") == "Global / Other Recipes"
  {
    assert CountryTable.GetAdjectiveFromId("other") == Some("Global / Other");
    TitleGlobal();
  }

  lemma TitleGlobal()
    ensures TitleFor(Some("Global / Other")) == "Global / Other Recipes"
  {
  }

  /** The list of American recipes is headed "American Recipes". */
  lemma ExampleListTitleUs()
    ensures ListTitle("US") == "American Recipes"
  {
    CountryTable.ExampleAdjectiveUs();
    TitleAmerican();
  }

  lemma TitleAmerican()
    ensures TitleFor(Some("American")) == "American Recipes"
  {
  }
}

=== FILE: recipe.dfy ===
/** The recipe record as the catalog keeps it in `state.recipes` and in
    recipes.json, restricted to the fields the modelled logic reads or writes. */
module Recipes {
  import opened Wrappers

  /** One ingredient entry: the `{quantity, name}` object the edit form saves,
      or a free-text line such as "2 cups of flour" kept from older data.  A
      missing `name` is the empty string. */
  datatype Item = Structured(quantity: string, name: string) | Legacy(text: string)

  /** `{title, items}`; a section without an `items` array has no items. */
  datatype IngredientSection = IngredientSection(title: string, items: seq<Item>)

  /** `{title, steps}`. */
  datatype StepSection = StepSection(title: string, steps: seq<string>)

  /** `labels`: an array (what the edit form saves), one comma-separated string
      (older data), or absent. */
  datatype Labels = LabelList(list: seq<string>) | LabelText(text: string) | NoLabels

  /** A recipe.  `rating` counts half-stars (a rating of 3.5 is 7), with an
      absent rating as 0; `totalTime` and `image` are "" when absent. */
  datatype Recipe = Recipe(
    id: string,
    title: string,
    totalTime: string,
    rating: nat,
    labels: Labels,
    ingredients: seq<IngredientSection>,
    instructions: seq<StepSection>,
    image: string)

  /** The items of all sections, section by section. */
  function AllItems(sections: seq<IngredientSection>): (r: seq<Item>)
    ensures forall x :: x in r <==> exists i | 0 <= i < |sections| :: x in sections[i].items
  {
    if |sections| == 0 then []
    else
      var rest := AllItems(sections[1..]);
      assert forall i | 1 <= i < |sections| :: sections[i] == sections[1..][i - 1];
      sections[0].items + rest
  }

  /** The labels `Array.isArray(labels)` lets through: those of an array. */
  function ListLabels(labels: Labels): seq<string> {
    if labels.LabelList? then labels.list else []
  }

  /** The values `f` picks out of `items`, in order. */
  function Picked(items: seq<Item>, f: Item -> Option<string>): (r: seq<string>)
    ensures forall x :: x in r <==> exists it | it in items :: f(it) == Some(x)
  {
    if |items| == 0 then []
    else
      var rest := Picked(items[1..], f);
      assert forall it | it in items[1..] :: it in items;
      assert forall it | it in items && it != items[0] :: it in items[1..];
      match f(items[0])
      case Some(k) => [k] + rest
      case None => rest
  }
}

=== FILE: references.dfy ===
/** Recipe references written as `@Name` in notes, steps and ingredient names
    (renderer/modules/recipe-references.js): finding them, resolving a name to
    a recipe, rewriting resolved ones as links, and the text side of the
    `@` autocomplete: when it opens, what it searches for, which titles it
    offers and how a chosen title is spliced into the input. */
module References {
  import opened Wrappers
  import opened Text
  import opened Seqs
  import opened Recipes

  /** The class `[\p{L}\p{N}\s\-_]` of the reference expression. */
  predicate IsNameChar(c: char) {
    IsLetter(c) || IsNumeric(c) || IsSpace(c) || c == '-' || c == '_'
  }

  lemma AtIsNoNameChar()
    ensures !IsNameChar('@')
  {
  }

  /** The end of the run of name characters from `i`: the greedy `+`. */
  function NameEnd(s: string, i: nat): (j: nat)
    requires i <= |s|
    ensures i <= j <= |s|
    decreases |s| - i
  {
    if i < |s| && IsNameChar(s[i]) then NameEnd(s, i + 1) else i
  }

  /** The run is made of name characters and is not followed by one. */
  lemma {:induction false} NameEndRun(s: string, i: nat)
    requires i <= |s|
    ensures forall k | i <= k < NameEnd(s, i) :: IsNameChar(s[k])
    ensures NameEnd(s, i) == |s| || !IsNameChar(s[NameEnd(s, i)])
    decreases |s| - i
  {
    if i < |s| && IsNameChar(s[i]) {
      NameEndRun(s, i + 1);
    }
  }

  lemma {:induction false} NameEndIs(s: string, i: nat, j: nat)
    requires i <= j <= |s|
    requires forall k | i <= k < j :: IsNameChar(s[k])
    requires j == |s| || !IsNameChar(s[j])
    ensures NameEnd(s, i) == j
    decreases j - i
  {
    if i < j {
      NameEndIs(s, i + 1, j);
    }
  }

  /** One match of `/@([\p{L}\p{N}\s\-_]+)/gu`: the captured name, the index
      of the `@` and the length of the whole match. */
  datatype Reference = Reference(name: string, index: nat, length: nat)

  /** The expression can match at `p`: an `@` followed by a name character. */
  predicate StartsReference(s: string, p: nat) {
    p + 1 < |s| && s[p] == '@' && IsNameChar(s[p + 1])
  }

  /** `m` is the match the expression makes when it starts at `m.index`. */
  predicate IsMatchIn(s: string, m: Reference) {
    && StartsReference(s, m.index)
    && m.index + m.length == NameEnd(s, m.index + 1)
    && m.name == s[m.index + 1..m.index + m.length]
  }

  /** The matches of a global `exec` loop started at `from`: each search
      resumes where the previous match ended. */
  function DetectFrom(s: string, from: nat): seq<Reference>
    requires from <= |s|
    decreases |s| - from
  {
    if from == |s| then []
    else if StartsReference(s, from) then
      var e := NameEnd(s, from + 1);
      [Reference(s[from + 1..e], from, e - from)] + DetectFrom(s, e)
    else
      DetectFrom(s, from + 1)
  }

  /** Each match starts after the previous one ended. */
  predicate Ordered(ms: seq<Reference>) {
    forall k | 0 <= k < |ms| - 1 :: ms[k].index + ms[k].length <= ms[k + 1].index
  }

  lemma OrderedCons(m: Reference, ms: seq<Reference>)
    requires Ordered(ms)
    requires |ms| > 0 ==> m.index + m.length <= ms[0].index
    ensures Ordered([m] + ms)
  {
    assert forall k | 1 <= k < |ms| + 1 :: ([m] + ms)[k] == ms[k - 1];
  }

  /** Every match the loop reports is one the expression makes, at or after
      `from`, and each starts after the previous one ended. */
  lemma {:induction false} DetectFromSound(s: string, from: nat)
    requires from <= |s|
    ensures forall m | m in DetectFrom(s, from) :: IsMatchIn(s, m) && from <= m.index
    ensures Ordered(DetectFrom(s, from))
    decreases |s| - from
  {
    if from < |s| {
      if StartsReference(s, from) {
        var e := NameEnd(s, from + 1);
        DetectFromSound(s, e);
        DetectAt(s, from);
        var rest := DetectFrom(s, e);
        if |rest| > 0 {
          assert rest[0] in rest;
        }
        OrderedCons(Reference(s[from + 1..e], from, e - from), rest);
      } else {
        DetectFromSound(s, from + 1);
        DetectPlain(s, from);
      }
    }
  }

  /** A match starting at `from` is reported first. */
  lemma DetectAt(s: string, from: nat)
    requires from < |s| && StartsReference(s, from)
    ensures var e := NameEnd(s, from + 1);
      var m := Reference(s[from + 1..e], from, e - from);
      IsMatchIn(s, m) && DetectFrom(s, from) == [m] + DetectFrom(s, e)
  {
  }

  /** Where no match starts, the scan moves on by one character. */
  lemma DetectPlain(s: string, from: nat)
    requires from < |s| && !StartsReference(s, from)
    ensures DetectFrom(s, from) == DetectFrom(s, from + 1)
  {
  }

  /** No `@` can start a match inside the name of another: every `@` after
      `from` that is followed by a name character starts one of the matches. */
  lemma {:induction false} DetectComplete(s: string, from: nat, p: nat)
    requires from <= p < |s| && StartsReference(s, p)
    ensures exists k | 0 <= k < |DetectFrom(s, from)| :: DetectFrom(s, from)[k].index == p
    decreases |s| - from
  {
    var r := DetectFrom(s, from);
    if StartsReference(s, from) {
      var e := NameEnd(s, from + 1);
      AtIsNoNameChar();
      NameEndRun(s, from + 1);
      assert p == from || p >= e;
      if p == from {
        assert r[0].index == p;
      } else {
        DetectComplete(s, e, p);
        var k :| 0 <= k < |DetectFrom(s, e)| && DetectFrom(s, e)[k].index == p;
        assert r[k + 1] == DetectFrom(s, e)[k];
      }
    } else {
      DetectComplete(s, from + 1, p);
    }
  }

  /** `detectRecipeReferences(text)`: every `@` followed by a name character
      starts exactly one match, the matches come in increasing order without
      overlapping, and each takes the longest run of name characters. */
  function Detect(text: string): (r: seq<Reference>)
    ensures forall m | m in r :: IsMatchIn(text, m)
    ensures Ordered(r)
    ensures forall p | 0 <= p < |text| && StartsReference(text, p) :: exists k | 0 <= k < |r| :: r[k].index == p
  {
    DetectFromSound(text, 0);
    assert forall p | 0 <= p < |text| && StartsReference(text, p) ::
      exists k | 0 <= k < |DetectFrom(text, 0)| :: DetectFrom(text, 0)[k].index == p
    by {
      forall p | 0 <= p < |text| && StartsReference(text, p)
        ensures exists k | 0 <= k < |DetectFrom(text, 0)| :: DetectFrom(text, 0)[k].index == p
      {
        DetectComplete(text, 0, p);
      }
    }
    DetectFrom(text, 0)
  }

  /** The shape of a match: an `@` at its index, a non-empty name of name
      characters that cannot be extended, and a length of one more than the
      name's. */
  lemma MatchShape(s: string, m: Reference)
    requires IsMatchIn(s, m)
    ensures s[m.index] == '@' && m.length == 1 + |m.name| && |m.name| > 0
    ensures forall k | 0 <= k < |m.name| :: IsNameChar(m.name[k])
    ensures m.index + m.length == |s| || !IsNameChar(s[m.index + m.length])
  {
    var e := m.index + m.length;
    NameEndRun(s, m.index + 1);
    assert forall k | 0 <= k < |m.name| :: m.name[k] == s[m.index + 1 + k];
  }

  /** Scanning skips text in which no match can start. */
  lemma {:induction false} DetectSkips(s: string, from: nat, to: nat)
    requires from <= to <= |s|
    requires forall p | from <= p < to :: !StartsReference(s, p)
    ensures DetectFrom(s, from) == DetectFrom(s, to)
    decreases |s| - from
  {
    if from < to {
      DetectSkips(s, from + 1, to);
    }
  }

  /** `findRecipeByName(name)`: nothing for an empty name, otherwise the first
      recipe, in collection order, whose lower-cased title is the lower-cased
      name.  The name is not trimmed here. */
  function FindRecipeByName(recipes: seq<Recipe>, name: string): (r: Option<Recipe>)
    ensures name == "" ==> r.None?
    ensures r.Some? ==> exists i | 0 <= i < |recipes| ::
      && recipes[i] == r.value
      && LowerStr(recipes[i].title) == LowerStr(name)
      && forall j | 0 <= j < i :: LowerStr(recipes[j].title) != LowerStr(name)
    ensures r.None? && name != "" ==> forall i | 0 <= i < |recipes| :: LowerStr(recipes[i].title) != LowerStr(name)
  {
    if name == "" then None
    else
      var key := LowerStr(name);
      match FindFirst(recipes, (x: Recipe) => LowerStr(x.title) == key)
      case None => None
      case Some(i) => Some(recipes[i])
  }

  const SpanOpen := "<span class=\"recipe-reference\" data-msg-id=\""
  const SpanClose := "</span>"

  /** The link a resolved match becomes: the recipe's id, and the untrimmed
      name after the `@`. */
  function Link(id: string, name: string): (r: string)
    ensures |r| > 1 + |name|
  {
    SpanOpen + id + "\">@" + name + SpanClose
  }

  /** Reads a link back: the id runs up to the first `"` after the opening tag,
      and the name follows `">@` up to the closing tag. */
  function ParseLink(r: string): (p: Option<(string, string)>)
    ensures p.Some? ==> Link(p.value.0, p.value.1) == r
  {
    var o, c := |SpanOpen|, |SpanClose|;
    if |r| < o + c || r[..o] != SpanOpen || r[|r| - c..] != SpanClose then None
    else
      var m := r[o..|r| - c];
      var i := IndexOf(m, "\"");
      if i < 0 || !OccursAt(m, "\">@", i) then None
      else
        Enclosed(r, SpanOpen, SpanClose);
        SplitAround(m, i, "\">@");
        Regroup(SpanOpen, m[..i], "\">@", m[i + 3..], SpanClose);
        Some((m[..i], m[i + 3..]))
  }

  /** A text that starts with `o` and ends with `c` is `o`, the middle, `c`. */
  lemma Enclosed(r: string, o: string, c: string)
    requires |r| >= |o| + |c| && r[..|o|] == o && r[|r| - |c|..] == c
    ensures r == o + r[|o|..|r| - |c|] + c
  {
    assert r == r[..|o|] + r[|o|..|r| - |c|] + r[|r| - |c|..];
  }

  /** A text with `sep` at `i` is what comes before, `sep`, and what follows. */
  lemma SplitAround(m: string, i: int, sep: string)
    requires 0 <= i && OccursAt(m, sep, i)
    ensures m == m[..i] + sep + m[i + |sep|..]
  {
    assert m == m[..i] + m[i..i + |sep|] + m[i + |sep|..];
  }

  lemma Regroup(o: string, x: string, q: string, y: string, c: string)
    ensures o + x + q + y + c == o + (x + q + y) + c
  {
  }

  /** A link gives back the recipe's id and the name, for an id without `"`. */
  lemma LinkReadBack(id: string, name: string)
    requires '"' !in id
    ensures ParseLink(Link(id, name)) == Some((id, name))
  {
    var r := Link(id, name);
    var m := id + "\">@" + name;
    assert r == SpanOpen + m + SpanClose;
    assert r[..|SpanOpen|] == SpanOpen;
    assert r[|r| - |SpanClose|..] == SpanClose;
    assert r[|SpanOpen|..|r| - |SpanClose|] == m;
    assert OccursAt(m, "\"", |id|) && OccursAt(m, "\">@", |id|);
    forall k | 0 <= k < |id|
      ensures !OccursAt(m, "\"", k)
    {
      assert m[k..k + 1] == [id[k]];
    }
    assert IndexOf(m, "\"") == |id|;
    assert m[..|id|] == id && m[|id| + 3..] == name;
  }

  /** The id a captured name resolves to: that of the recipe
      `findRecipeByName` finds for the trimmed name. */
  function Resolve(recipes: seq<Recipe>, name: string): Option<string> {
    match FindRecipeByName(recipes, Trim(name))
    case Some(recipe) => Some(recipe.id)
    case None => None
  }

  /** What a match with name `name` is replaced by: a link when the name
      resolves, the match itself otherwise. */
  function Replacement(name: string, resolve: string -> Option<string>): (r: string)
    ensures |r| >= 1 + |name|
    ensures r == "@" + name <==> resolve(name).None?
  {
    match resolve(name)
    case Some(id) => Link(id, name)
    case None => "@" + name
  }

  /** `text.replace(expression, callback)` from index `from` on: every match is
      replaced by what `callback` gives for its captured name, and the text
      between matches stays as it is. */
  function ReplaceFrom(s: string, from: nat, callback: string -> string): string
    requires from <= |s|
    decreases |s| - from
  {
    if from == |s| then ""
    else if StartsReference(s, from) then
      var e := NameEnd(s, from + 1);
      callback(s[from + 1..e]) + ReplaceFrom(s, e, callback)
    else
      [s[from]] + ReplaceFrom(s, from + 1, callback)
  }

  /** The callback `renderRecipeReferences` passes to `replace`. */
  function Replacer(resolve: string -> Option<string>): string -> string {
    (name: string) => Replacement(name, resolve)
  }

  /** The rendering from index `from` on, for a resolver `resolve` from names
      to recipe ids: a match whose name resolves becomes a link, any other
      match and all text between matches stay as they are. */
  function RenderFrom(s: string, from: nat, resolve: string -> Option<string>): (r: string)
    requires from <= |s|
    ensures |r| >= |s| - from
  {
    ReplaceNoShorter(s, from, resolve);
    ReplaceFrom(s, from, Replacer(resolve))
  }

  /** Each replacement is at least as long as its match. */
  lemma {:induction false} ReplaceNoShorter(s: string, from: nat, resolve: string -> Option<string>)
    requires from <= |s|
    ensures |ReplaceFrom(s, from, Replacer(resolve))| >= |s| - from
    decreases |s| - from
  {
    if from < |s| {
      if StartsReference(s, from) {
        ReplaceNoShorter(s, NameEnd(s, from + 1), resolve);
      } else {
        ReplaceNoShorter(s, from + 1, resolve);
      }
    }
  }

  /** No match in `ms` resolves. */
  predicate NoneResolves(resolve: string -> Option<string>, ms: seq<Reference>) {
    |ms| == 0 || (resolve(ms[0].name).None? && NoneResolves(resolve, ms[1..]))
  }

  /** `NoneResolves` checks every match. */
  lemma {:induction false} NoneResolvesAll(resolve: string -> Option<string>, ms: seq<Reference>)
    ensures NoneResolves(resolve, ms) <==> forall k | 0 <= k < |ms| :: resolve(ms[k].name).None?
  {
    if |ms| > 0 {
      NoneResolvesAll(resolve, ms[1..]);
      assert forall k | 1 <= k < |ms| :: ms[k] == ms[1..][k - 1];
    }
  }

  /** Rendering leaves the text as it is exactly when none of its matches
      resolves: each link is longer than the match it replaces. */
  lemma {:induction false} RenderUnchangedIff(s: string, from: nat, resolve: string -> Option<string>)
    requires from <= |s|
    ensures RenderFrom(s, from, resolve) == s[from..] <==> NoneResolves(resolve, DetectFrom(s, from))
    decreases |s| - from
  {
    if from < |s| {
      if StartsReference(s, from) {
        var e := NameEnd(s, from + 1);
        RenderUnchangedIff(s, e, resolve);
        RenderMatchStep(s, from, resolve);
      } else {
        RenderUnchangedIff(s, from + 1, resolve);
        RenderPlainStep(s, from, resolve);
      }
    }
  }

  /** One step of `RenderUnchangedIff` where no match starts. */
  lemma RenderPlainStep(s: string, from: nat, resolve: string -> Option<string>)
    requires from < |s| && !StartsReference(s, from)
    requires RenderFrom(s, from + 1, resolve) == s[from + 1..] <==> NoneResolves(resolve, DetectFrom(s, from + 1))
    ensures RenderFrom(s, from, resolve) == s[from..] <==> NoneResolves(resolve, DetectFrom(s, from))
  {
    RenderPlain(s, from, resolve);
    DetectPlain(s, from);
    DropFirst(s, from);
    UnchangedSplit([s[from]], RenderFrom(s, from + 1, resolve), [s[from]], s[from + 1..]);
  }

  /** One step of `RenderUnchangedIff` at a match. */
  lemma RenderMatchStep(s: string, from: nat, resolve: string -> Option<string>)
    requires from < |s| && StartsReference(s, from)
    requires var e := NameEnd(s, from + 1);
      RenderFrom(s, e, resolve) == s[e..] <==> NoneResolves(resolve, DetectFrom(s, e))
    ensures RenderFrom(s, from, resolve) == s[from..] <==> NoneResolves(resolve, DetectFrom(s, from))
  {
    var e := NameEnd(s, from + 1);
    var name := s[from + 1..e];
    DetectHead(s, from);
    RenderAt(s, from, resolve);
    UnchangedSplit(Replacement(name, resolve), RenderFrom(s, e, resolve), "@" + name, s[e..]);
  }

  /** Both sides of `RenderUnchangedIff` split at the first match. */
  lemma RenderAt(s: string, from: nat, resolve: string -> Option<string>)
    requires from < |s| && StartsReference(s, from)
    ensures var e := NameEnd(s, from + 1);
      && RenderFrom(s, from, resolve) == Replacement(s[from + 1..e], resolve) + RenderFrom(s, e, resolve)
      && s[from..] == "@" + s[from + 1..e] + s[e..]
  {
    var e := NameEnd(s, from + 1);
    assert s[from..] == [s[from]] + s[from + 1..e] + s[e..];
  }

  lemma DropFirst(s: string, from: nat)
    requires from < |s|
    ensures s[from..] == [s[from]] + s[from + 1..]
  {
  }

  /** Where no match starts, the character is copied. */
  lemma RenderPlain(s: string, from: nat, resolve: string -> Option<string>)
    requires from < |s| && !StartsReference(s, from)
    ensures RenderFrom(s, from, resolve) == [s[from]] + RenderFrom(s, from + 1, resolve)
  {
  }

  /** The first match when one starts at `from`, and the matches after it. */
  lemma DetectHead(s: string, from: nat)
    requires from < |s| && StartsReference(s, from)
    ensures var e := NameEnd(s, from + 1);
      && DetectFrom(s, from)[0] == Reference(s[from + 1..e], from, e - from)
      && DetectFrom(s, from)[1..] == DetectFrom(s, e)
  {
  }

  /** A concatenation equals another whose first part is no longer and whose
      second part is no longer exactly when both parts are equal. */
  lemma UnchangedSplit(a: string, b: string, c: string, d: string)
    requires |a| >= |c| && |b| >= |d|
    ensures a + b == c + d <==> a == c && b == d
  {
    if a + b == c + d {
      assert |a| == |c|;
      assert (a + b)[..|a|] == a && (c + d)[..|c|] == c;
      assert (a + b)[|a|..] == b && (c + d)[|c|..] == d;
    }
  }

  /** `renderRecipeReferences(text)`: the empty string for empty text; the text
      itself exactly when no match's trimmed name finds a recipe. */
  function Render(text: string, recipes: seq<Recipe>): (r: string)
    ensures text == "" ==> r == ""
    ensures r == text <==> forall k | 0 <= k < |Detect(text)| ::
      FindRecipeByName(recipes, Trim(Detect(text)[k].name)).None?
  {
    var resolve := Resolver(recipes);
    RenderUnchangedIff(text, 0, resolve);
    NoneResolvesAll(resolve, Detect(text));
    assert text[0..] == text;
    RenderFrom(text, 0, resolve)
  }

  /** `Resolve` over a fixed collection. */
  function Resolver(recipes: seq<Recipe>): string -> Option<string> {
    (name: string) => Resolve(recipes, name)
  }

  /** A resolved reference becomes the link with the recipe's id and the name
      as written: text before the first match is copied, the match `@n` (its
      name `n` taken whole) is replaced by the link, and the rest is rendered
      on its own. */
  lemma RenderResolved(a: string, n: string, b: string, recipes: seq<Recipe>, id: string)
    requires forall p | 0 <= p < |a| :: !StartsReference(a + "@" + n + b, p)
    requires |n| > 0 && forall k | 0 <= k < |n| :: IsNameChar(n[k])
    requires b == "" || !IsNameChar(b[0])
    requires Resolve(recipes, n) == Some(id)
    ensures Render(a + "@" + n + b, recipes) == a + Link(id, n) + Render(b, recipes)
  {
    var resolve := Resolver(recipes);
    ReplaceAfterPrefix(a, n, b, Replacer(resolve));
    ResolvedReplacement(n, resolve, id);
  }

  /** A name that resolves is replaced by its link. */
  lemma ResolvedReplacement(n: string, resolve: string -> Option<string>, id: string)
    requires resolve(n) == Some(id)
    ensures Replacement(n, resolve) == Link(id, n)
  {
  }

  /** Text without matches, a match `@n` taken whole, and the rest: the text is
      copied, the match replaced and the rest replaced on its own. */
  lemma ReplaceAfterPrefix(a: string, n: string, b: string, callback: string -> string)
    requires forall p | 0 <= p < |a| :: !StartsReference(a + "@" + n + b, p)
    requires |n| > 0 && forall k | 0 <= k < |n| :: IsNameChar(n[k])
    requires b == "" || !IsNameChar(b[0])
    ensures ReplaceFrom(a + "@" + n + b, 0, callback) == a + callback(n) + ReplaceFrom(b, 0, callback)
  {
    var t := a + "@" + n + b;
    MatchAfterPrefix(a, n, b);
    ReplaceFirstMatch(t, |a|, n, callback);
    PrefixOfConcat(a, n, b);
    RestOfConcat(a + "@" + n, b, callback);
    assert |a + "@" + n| == |a| + 1 + |n|;
    Associative(a, callback(n), ReplaceFrom(b, 0, callback));
  }

  /** Text without matches up to a match at `i` with name `n`: the text, then
      the replacement, then the rest. */
  lemma ReplaceFirstMatch(t: string, i: nat, n: string, callback: string -> string)
    requires i < |t| && forall p | 0 <= p < i :: !StartsReference(t, p)
    requires StartsReference(t, i) && NameEnd(t, i + 1) == i + 1 + |n| && t[i + 1..i + 1 + |n|] == n
    ensures ReplaceFrom(t, 0, callback) == t[0..i] + (callback(n) + ReplaceFrom(t, i + 1 + |n|, callback))
  {
    ReplaceSkips(t, 0, i, callback);
  }

  lemma PrefixOfConcat(a: string, n: string, b: string)
    ensures (a + "@" + n + b)[0..|a|] == a
  {
    assert (a + "@" + n + b)[0..|a|] == (a + ("@" + n + b))[0..|a|];
  }

  /** After its prefix `w`, `w + b` is replaced as `b` is. */
  lemma RestOfConcat(w: string, b: string, callback: string -> string)
    ensures ReplaceFrom(w + b, |w|, callback) == ReplaceFrom(b, 0, callback)
  {
    SuffixOfConcat(w, b);
    ReplaceSuffix(w + b, |w|, b, callback);
  }

  /** Replacing in `t` from where its suffix `s` starts is replacing in `s`. */
  lemma ReplaceSuffix(t: string, q: nat, s: string, callback: string -> string)
    requires SuffixAt(t, q, s)
    ensures ReplaceFrom(t, q, callback) == ReplaceFrom(s, 0, callback)
  {
    ReplaceShift(t, q, s, 0, callback);
  }

  lemma Associative(x: string, y: string, z: string)
    ensures x + (y + z) == x + y + z
  {
  }

  /** In `a + "@" + n + b`, with `n` a run of name characters that `b` does not
      continue, a match starts at the `@` and captures `n`. */
  lemma MatchAfterPrefix(a: string, n: string, b: string)
    requires |n| > 0 && forall k | 0 <= k < |n| :: IsNameChar(n[k])
    requires b == "" || !IsNameChar(b[0])
    ensures var t := a + "@" + n + b;
      StartsReference(t, |a|) && NameEnd(t, |a| + 1) == |a| + 1 + |n| && t[|a| + 1..|a| + 1 + |n|] == n
  {
    var t := a + "@" + n + b;
    var e := |a| + 1 + |n|;
    forall k | |a| + 1 <= k < e
      ensures IsNameChar(t[k])
    {
      InMiddle(a + "@", n, b, k - |a| - 1);
    }
    assert e < |t| ==> t[e] == b[0];
    NameEndIs(t, |a| + 1, e);
    MiddleSlice(a + "@", n, b);
  }

  lemma InMiddle(w: string, n: string, b: string, k: nat)
    requires k < |n|
    ensures (w + n + b)[|w| + k] == n[k]
  {
  }

  lemma MiddleSlice(w: string, n: string, b: string)
    ensures (w + n + b)[|w|..|w| + |n|] == n
  {
    assert (w + n + b)[..|w| + |n|] == w + n;
  }

  /** `s` is the part of `t` from index `q` on. */
  predicate SuffixAt(t: string, q: nat, s: string) {
    |t| == q + |s| && forall k | 0 <= k < |s| :: t[q + k] == s[k]
  }

  lemma SuffixOfConcat(w: string, s: string)
    ensures SuffixAt(w + s, |w|, s)
  {
  }

  /** Matches depend only on the text from where they start: replacing in `t`
      from inside its suffix `s` is replacing in `s`. */
  lemma {:induction false} ReplaceShift(t: string, q: nat, s: string, i: nat, callback: string -> string)
    requires SuffixAt(t, q, s) && i <= |s|
    ensures ReplaceFrom(t, q + i, callback) == ReplaceFrom(s, i, callback)
    decreases |s| - i, 1
  {
    if i == |s| {
    } else if StartsReference(s, i) {
      ShiftAtMatch(t, q, s, i, callback);
    } else {
      ShiftAtPlain(t, q, s, i, callback);
    }
  }

  lemma {:induction false} ShiftAtMatch(t: string, q: nat, s: string, i: nat, callback: string -> string)
    requires SuffixAt(t, q, s) && i < |s| && StartsReference(s, i)
    ensures ReplaceFrom(t, q + i, callback) == ReplaceFrom(s, i, callback)
    decreases |s| - i, 0
  {
    ReplaceShift(t, q, s, NameEnd(s, i + 1), callback);
    ShiftMatch(t, q, s, i);
    SameMatchStep(t, q, s, i, callback);
  }

  lemma {:induction false} ShiftAtPlain(t: string, q: nat, s: string, i: nat, callback: string -> string)
    requires SuffixAt(t, q, s) && i < |s| && !StartsReference(s, i)
    ensures ReplaceFrom(t, q + i, callback) == ReplaceFrom(s, i, callback)
    decreases |s| - i, 0
  {
    ReplaceShift(t, q, s, i + 1, callback);
    ShiftPlainStep(t, q, s, i, callback);
  }

  /** A match in the suffix is the same match in the whole text. */
  lemma ShiftMatch(t: string, q: nat, s: string, i: nat)
    requires SuffixAt(t, q, s) && i < |s| && StartsReference(s, i)
    ensures q + i < |t| && StartsReference(t, q + i)
    ensures NameEnd(t, q + i + 1) == q + NameEnd(s, i + 1)
    ensures t[q + i + 1..NameEnd(t, q + i + 1)] == s[i + 1..NameEnd(s, i + 1)]
  {
    assert t[q + i] == s[i] && t[q + i + 1] == s[i + 1];
    NameEndShift(t, q, s, i + 1);
    SliceShift(t, q, s, i + 1, NameEnd(s, i + 1));
  }

  lemma SliceShift(t: string, q: nat, s: string, j: nat, k: nat)
    requires SuffixAt(t, q, s) && j <= k <= |s|
    ensures t[q + j..q + k] == s[j..k]
  {
    forall x | 0 <= x < k - j
      ensures t[q + j..q + k][x] == s[j..k][x]
    {
      assert t[q + j + x] == s[j + x];
    }
  }

  /** Where `t` from `q + i` has the match `s` has at `i`, and the same
      result after it, both give the same result from the match on. */
  lemma SameMatchStep(t: string, q: nat, s: string, i: nat, callback: string -> string)
    requires q + i < |t| && i < |s| && StartsReference(t, q + i) && StartsReference(s, i)
    requires NameEnd(t, q + i + 1) == q + NameEnd(s, i + 1)
    requires t[q + i + 1..NameEnd(t, q + i + 1)] == s[i + 1..NameEnd(s, i + 1)]
    requires ReplaceFrom(t, q + NameEnd(s, i + 1), callback) == ReplaceFrom(s, NameEnd(s, i + 1), callback)
    ensures ReplaceFrom(t, q + i, callback) == ReplaceFrom(s, i, callback)
  {
  }

  lemma ShiftPlainStep(t: string, q: nat, s: string, i: nat, callback: string -> string)
    requires SuffixAt(t, q, s) && i < |s| && !StartsReference(s, i)
    requires ReplaceFrom(t, q + i + 1, callback) == ReplaceFrom(s, i + 1, callback)
    ensures ReplaceFrom(t, q + i, callback) == ReplaceFrom(s, i, callback)
  {
    assert t[q + i] == s[i];
    assert i + 1 < |s| ==> t[q + i + 1] == s[i + 1];
  }

  lemma {:induction false} NameEndShift(t: string, q: nat, s: string, j: nat)
    requires SuffixAt(t, q, s) && j <= |s|
    ensures NameEnd(t, q + j) == q + NameEnd(s, j)
    decreases |s| - j
  {
    if j < |s| {
      assert t[q + j] == s[j];
      NameEndShift(t, q, s, j + 1);
    }
  }


  /** Text in which no match starts is copied unchanged, character for character. */
  lemma {:induction false} ReplaceSkips(s: string, from: nat, to: nat, callback: string -> string)
    requires from <= to <= |s|
    requires forall p | from <= p < to :: !StartsReference(s, p)
    ensures ReplaceFrom(s, from, callback) == s[from..to] + ReplaceFrom(s, to, callback)
    decreases |s| - from
  {
    if from < to {
      ReplaceSkips(s, from + 1, to, callback);
      SliceCons(s, from, to, ReplaceFrom(s, to, callback));
    }
  }

  /** Taking the first character off a slice, with a tail appended. */
  lemma SliceCons(s: string, from: nat, to: nat, tail: string)
    requires from < to <= |s|
    ensures [s[from]] + (s[from + 1..to] + tail) == s[from..to] + tail
  {
    assert s[from..to] == [s[from]] + s[from + 1..to];
  }

  // ---------------------------------------------------------------------
  // The greedy capture, on the example "See @Tomato Soup for base".

  const GreedyText := "See @Tomato Soup for base"
  const GreedyName := "Tomato Soup for base"

  lemma GreedyTextScan()
    ensures forall p | 0 <= p < 4 :: !StartsReference(GreedyText, p)
    ensures StartsReference(GreedyText, 4)
    ensures forall k | 5 <= k < 25 :: IsNameChar(GreedyText[k])
    ensures |GreedyText| == 25 && GreedyText[5..] == GreedyName
  {
  }

  /** The name runs over the spaces to the end of the text. */
  lemma ExampleGreedyDetect()
    ensures Detect(GreedyText) == [Reference(GreedyName, 4, 21)]
  {
    var s := GreedyText;
    GreedyTextScan();
    DetectSkips(s, 0, 4);
    NameEndIs(s, 5, 25);
    DetectHead(s, 4);
    assert DetectFrom(s, 25) == [];
    var ms := DetectFrom(s, 4);
    assert |ms| == 1 && ms[0] == Reference(s[5..25], 4, 21);
    assert s[5..25] == GreedyName;
    assert ms == [Reference(GreedyName, 4, 21)];
    assert Detect(s) == DetectFrom(s, 0);
  }

  /** The captured name is not the title "Tomato Soup". */
  lemma GreedyNameUnresolved(soup: Recipe)
    requires soup.title == "Tomato Soup"
    ensures FindRecipeByName([soup], Trim(GreedyName)).None?
  {
    TrimOfTrimmed(GreedyName);
    assert |LowerStr(soup.title)| != |LowerStr(GreedyName)|;
  }

  /** So the reference does not resolve to the recipe titled "Tomato Soup",
      and the text is rendered as it is. */
  lemma ExampleGreedyName(soup: Recipe)
    requires soup.title == "Tomato Soup"
    ensures Render(GreedyText, [soup]) == GreedyText
  {
    ExampleGreedyDetect();
    GreedyNameUnresolved(soup);
  }

  // ---------------------------------------------------------------------
  // The `@` autocomplete on a plain input.

  /** Whether the suggestion list opens, and for which `@` and query. */
  datatype Trigger = Closed | Open(at: nat, query: string)

  /** `s.substring(0, n)`, which clamps `n` to the length. */
  function Prefix(s: string, n: nat): (r: string)
    ensures |r| <= |s| && r == s[..|r|]
    ensures n <= |s| ==> |r| == n
  {
    if n <= |s| then s[..n] else s
  }

  /** `handleInput` on a plain input: find the last `@` before the caret; it
      opens the list only at the very start or after white space, and the
      query is the text between it and the caret. */
  function PlainTrigger(value: string, caret: nat): (r: Trigger)
    ensures r.Open? ==> var before := Prefix(value, caret);
      && r.at < |before| && before[r.at] == '@'
      && r.query == before[r.at + 1..]
      && '@' !in r.query
      && (r.at == 0 || IsSpace(before[r.at - 1]))
  {
    var before := Prefix(value, caret);
    var at := LastIndexOf(before, '@');
    if at == -1 then Closed
    else if at > 0 && !IsSpace(before[at - 1]) then Closed
    else
      Open(at, before[at + 1..])
  }

  /** The rich-text editor's rule, which also accepts a no-break space
      (character code 160) before the `@`. */
  function RichTrigger(text: string, caret: nat): (r: Trigger) {
    var before := Prefix(text, caret);
    var at := LastIndexOf(before, '@');
    if at == -1 then Closed
    else if at > 0 && !IsSpace(before[at - 1]) && before[at - 1] != '\U{00A0}' then Closed
    else Open(at, before[at + 1..])
  }

  /** The no-break space already counts as white space, so the rich-text rule
      opens in exactly the same places, with the same query. */
  lemma RichIsPlain(text: string, caret: nat)
    ensures RichTrigger(text, caret) == PlainTrigger(text, caret)
  {
  }

  /** An `@` inside a word, as in an e-mail address, does not open the list. */
  lemma ExampleEmail()
    ensures PlainTrigger("user@example", 12) == Closed
  {
    var s := "user@example";
    assert Prefix(s, 12) == s;
    assert s[4] == '@';
    LastIndexOfIs(s, '@', 4);
  }

  /** `@` at the start, or after a space, opens the list with the text typed
      since, whatever follows the caret. */
  lemma TriggerAfterSpace(value: string, caret: nat, a: string, q: string)
    requires Prefix(value, caret) == a + "@" + q
    requires '@' !in q
    requires |a| == 0 || IsSpace(a[|a| - 1])
    ensures PlainTrigger(value, caret) == Open(|a|, q)
  {
    var s := a + "@" + q;
    LastIndexOfAfter(a, '@', q);
    assert |a| > 0 ==> s[|a| - 1] == a[|a| - 1];
    assert s[|a| + 1..] == q;
  }

  /** `showSuggestions`: the first five recipes, in collection order, whose
      title contains the query, both lower-cased. */
  function Candidates(recipes: seq<Recipe>, query: string): (r: seq<Recipe>)
    ensures |r| <= 5
    ensures forall i | 0 <= i < |r| :: Contains(LowerStr(r[i].title), LowerStr(query))
    ensures IsSubsequence(r, recipes)
    ensures var n := Count(recipes, (x: Recipe) => Contains(LowerStr(x.title), LowerStr(query)));
      |r| == if n < 5 then n else 5
    ensures r == Filter(recipes, (x: Recipe) => Contains(LowerStr(x.title), LowerStr(query)))[..|r|]
  {
    var all := Filter(recipes, (x: Recipe) => Contains(LowerStr(x.title), LowerStr(query)));
    if |all| <= 5 then all
    else
      SubsequencePrefix(all, recipes, 5);
      all[..5]
  }

  /** An empty query matches every title, so the list offers the first five recipes. */
  lemma EmptyQueryOffersFirst(recipes: seq<Recipe>)
    ensures Candidates(recipes, "") == if |recipes| <= 5 then recipes else recipes[..5]
  {
    forall i | 0 <= i < |recipes| ensures Contains(LowerStr(recipes[i].title), LowerStr("")) {
      ContainsEmpty(LowerStr(recipes[i].title));
    }
    FilterAll(recipes, (x: Recipe) => Contains(LowerStr(x.title), LowerStr("")));
  }

  /** The plain-input splice of `selectSuggestion`: the text before the `@`,
      then `@`, the title and a space, then the text from the caret on; the
      new caret sits after that space. */
  datatype Spliced = Spliced(value: string, caret: nat)

  function SpliceTitle(value: string, at: nat, caret: nat, title: string): (r: Spliced)
    ensures r.caret == |Prefix(value, at)| + |title| + 2
    ensures at <= |value| ==> |r.value| >= r.caret && r.value[..at] == value[..at]
    ensures at <= caret <= |value| ==> r.value[r.caret..] == value[caret..]
    ensures at <= |value| ==> r.value[at..r.caret] == "@" + title + " "
  {
    var before := Prefix(value, at);
    var after := if caret <= |value| then value[caret..] else "";
    Spliced(before + "@" + title + " " + after, |before| + |title| + 2)
  }

  /** After a title without `@` has been spliced in where the list opened,
      reading the trigger again just before the inserted space gives back that
      `@` and the title as the query. */
  lemma SpliceRetriggers(value: string, caret: nat, title: string, at: nat, query: string)
    requires PlainTrigger(value, caret) == Open(at, query) && caret <= |value|
    requires '@' !in title
    ensures var r := SpliceTitle(value, at, caret, title);
      PlainTrigger(r.value, r.caret - 1) == Open(at, title)
  {
    OpenAfterSpace(value, caret, at, query);
    SpliceAfterSpace(value, at, caret, title);
  }

  /** An open list's `@` lies before the caret, at the start or after white space. */
  lemma OpenAfterSpace(value: string, caret: nat, at: nat, query: string)
    requires PlainTrigger(value, caret) == Open(at, query) && caret <= |value|
    ensures at < caret && value[at] == '@' && (at == 0 || IsSpace(value[at - 1]))
  {
    assert Prefix(value, caret) == value[..caret];
    assert at > 0 ==> value[..caret][at - 1] == value[at - 1];
  }

  /** `SpliceRetriggers` for an `@` at `at`, at the start or after white space. */
  lemma SpliceAfterSpace(value: string, at: nat, caret: nat, title: string)
    requires at < caret <= |value|
    requires at == 0 || IsSpace(value[at - 1])
    requires '@' !in title
    ensures var r := SpliceTitle(value, at, caret, title);
      PlainTrigger(r.value, r.caret - 1) == Open(at, title)
  {
    var a := value[..at];
    var r := SpliceTitle(value, at, caret, title);
    SplicePrefix(value, at, caret, title);
    assert at > 0 ==> a[at - 1] == value[at - 1];
    TriggerAfterSpace(r.value, r.caret - 1, a, title);
  }

  /** Up to the inserted space, the spliced value is the text before the `@`,
      the `@` and the title. */
  lemma SplicePrefix(value: string, at: nat, caret: nat, title: string)
    requires at <= caret <= |value|
    ensures var r := SpliceTitle(value, at, caret, title);
      r.caret >= 1 && Prefix(r.value, r.caret - 1) == value[..at] + "@" + title
  {
    var a := value[..at];
    var r := SpliceTitle(value, at, caret, title);
    assert r.value == a + "@" + title + " " + value[caret..];
    assert r.caret - 1 == |a + "@" + title|;
  }
}

=== FILE: seqs.dfy ===
/** Sequence operations the catalog builds on: `Array.prototype.filter`,
    de-duplication through a `Set` (which keeps first-insertion order), and the
    default `Array.prototype.sort` on strings. */
module Seqs {
  import opened Wrappers

  /** `a` can be obtained from `b` by deleting elements: order is kept. */
  ghost predicate IsSubsequence<T>(a: seq<T>, b: seq<T>)
    decreases |b|
  {
    |a| == 0 || (|b| > 0 && (IsSubsequence(a, b[1..]) || (a[0] == b[0] && IsSubsequence(a[1..], b[1..]))))
  }

  lemma {:induction false} SubsequenceAppend<T>(a: seq<T>, b: seq<T>, x: T)
    requires IsSubsequence(a, b)
    ensures IsSubsequence(a + [x], b + [x])
    decreases |b|
  {
    if |a| == 0 {
      if |b| > 0 {
        assert (b + [x])[1..] == b[1..] + [x];
        SubsequenceAppend(a, b[1..], x);
      } else {
        assert IsSubsequence<T>([], []);
      }
    } else {
      assert (b + [x])[1..] == b[1..] + [x];
      assert (a + [x])[1..] == a[1..] + [x];
      if IsSubsequence(a, b[1..]) {
        SubsequenceAppend(a, b[1..], x);
      } else {
        SubsequenceAppend(a[1..], b[1..], x);
      }
    }
  }

  lemma {:induction false} SubsequenceExtend<T>(a: seq<T>, b: seq<T>, x: T)
    requires IsSubsequence(a, b)
    ensures IsSubsequence(a, b + [x])
    decreases |b|
  {
    if |a| > 0 {
      assert (b + [x])[1..] == b[1..] + [x];
      if IsSubsequence(a, b[1..]) {
        SubsequenceExtend(a, b[1..], x);
      } else {
        SubsequenceExtend(a[1..], b[1..], x);
      }
    }
  }

  /** A prefix of a subsequence is a subsequence. */
  lemma {:induction false} SubsequencePrefix<T>(a: seq<T>, b: seq<T>, n: nat)
    requires IsSubsequence(a, b) && n <= |a|
    ensures IsSubsequence(a[..n], b)
    decreases |b|
  {
    if n > 0 {
      if IsSubsequence(a, b[1..]) {
        SubsequencePrefix(a, b[1..], n);
      } else {
        SubsequencePrefix(a[1..], b[1..], n - 1);
        assert a[..n][1..] == a[1..][..n - 1];
      }
    }
  }

  /** `s.filter(p)`. */
  function Filter<T>(s: seq<T>, p: T -> bool): (r: seq<T>)
    ensures |r| <= |s|
    ensures forall i | 0 <= i < |r| :: r[i] in s && p(r[i])
    ensures forall i | 0 <= i < |s| :: p(s[i]) ==> s[i] in r
    ensures IsSubsequence(r, s)
  {
    if |s| == 0 then []
    else if p(s[0]) then
      var r := [s[0]] + Filter(s[1..], p);
      assert r[1..] == Filter(s[1..], p);
      r
    else
      Filter(s[1..], p)
  }

  lemma {:induction false} FilterAppend<T>(a: seq<T>, b: seq<T>, p: T -> bool)
    ensures Filter(a + b, p) == Filter(a, p) + Filter(b, p)
  {
    if |a| > 0 {
      assert (a + b)[1..] == a[1..] + b;
      FilterAppend(a[1..], b, p);
    } else {
      assert a + b == b;
    }
  }

  /** Filtering keeps exactly the elements that pass: when every element passes,
      nothing changes, and when none does, nothing is left. */
  lemma {:induction false} FilterAll<T>(s: seq<T>, p: T -> bool)
    requires forall i | 0 <= i < |s| :: p(s[i])
    ensures Filter(s, p) == s
  {
    if |s| > 0 {
      FilterAll(s[1..], p);
    }
  }

  /** Filtering twice by two tests is filtering once by both. */
  lemma {:induction false} FilterFilter<T>(s: seq<T>, p: T -> bool, q: T -> bool)
    ensures Filter(Filter(s, p), q) == Filter(s, x => p(x) && q(x))
  {
    if |s| > 0 {
      FilterFilter(s[1..], p, q);
      if p(s[0]) {
        assert ([s[0]] + Filter(s[1..], p))[1..] == Filter(s[1..], p);
      }
    }
  }

  /** Filtering by a weaker test keeps at least as many elements. */
  lemma {:induction false} FilterMonotone<T>(s: seq<T>, p: T -> bool, q: T -> bool)
    requires forall x :: p(x) ==> q(x)
    ensures |Filter(s, p)| <= |Filter(s, q)|
    ensures IsSubsequence(Filter(s, p), Filter(s, q))
  {
    if |s| > 0 {
      var fp, fq := Filter(s[1..], p), Filter(s[1..], q);
      FilterMonotone(s[1..], p, q);
      if p(s[0]) {
        assert ([s[0]] + fp)[1..] == fp && ([s[0]] + fq)[1..] == fq;
      } else if q(s[0]) {
        assert ([s[0]] + fq)[1..] == fq;
        SubsequenceCons(fp, fq, s[0]);
      }
    }
  }

  lemma {:induction false} SubsequenceCons<T>(a: seq<T>, b: seq<T>, x: T)
    requires IsSubsequence(a, b)
    ensures IsSubsequence(a, [x] + b)
  {
    assert ([x] + b)[1..] == b;
  }

  /** Some element of `init + [x]` satisfies `p` exactly when one of `init`
      does or `x` does. */
  lemma ExistsLast<T>(init: seq<T>, x: T, p: T -> bool)
    ensures (exists i | 0 <= i < |init + [x]| :: p((init + [x])[i]))
      <==> (exists i | 0 <= i < |init| :: p(init[i])) || p(x)
  {
    var s := init + [x];
    if i :| 0 <= i < |s| && p(s[i]) {
      if i < |init| {
        assert s[i] == init[i];
      }
    }
    if i :| 0 <= i < |init| && p(init[i]) {
      assert s[i] == init[i];
    }
    assert s[|init|] == x;
  }

  /** The number of elements of `s` that pass `p`, counted by hand; it agrees
      with the length of `Filter(s, p)`. */
  function Count<T>(s: seq<T>, p: T -> bool): (n: nat)
    ensures n == |Filter(s, p)|
    ensures n <= |s|
  {
    if |s| == 0 then 0 else (if p(s[0]) then 1 else 0) + Count(s[1..], p)
  }

  lemma {:induction false} CountComplement<T>(s: seq<T>, p: T -> bool)
    ensures Count(s, p) + Count(s, x => !p(x)) == |s|
  {
    if |s| > 0 {
      CountComplement(s[1..], p);
    }
  }

  /** `s.findIndex(p)`, with -1 as `None`: the first index whose element passes. */
  function FindFirst<T>(s: seq<T>, p: T -> bool): (r: Option<nat>)
    ensures r.Some? ==> r.value < |s| && p(s[r.value])
    ensures r.Some? ==> forall j | 0 <= j < r.value :: !p(s[j])
    ensures r.None? <==> forall j | 0 <= j < |s| :: !p(s[j])
  {
    if |s| == 0 then None
    else if p(s[0]) then Some(0)
    else
      match FindFirst(s[1..], p)
      case None => None
      case Some(i) => Some(i + 1)
  }

  /** No element occurs twice. */
  predicate NoDuplicates<T(==)>(s: seq<T>) {
    forall i, j | 0 <= i < j < |s| :: s[i] != s[j]
  }

  /** `Array.from(new Set(s))`: the distinct elements of `s` in the order of their
      first occurrence. */
  function Distinct<T(==)>(s: seq<T>): (r: seq<T>)
    ensures forall i | 0 <= i < |r| :: r[i] in s
    ensures forall i | 0 <= i < |s| :: s[i] in r
    ensures NoDuplicates(r)
    ensures IsSubsequence(r, s)
    ensures |r| <= |s|
  {
    if |s| == 0 then []
    else
      var d := Distinct(s[..|s| - 1]);
      var x := s[|s| - 1];
      assert s == s[..|s| - 1] + [x];
      if x in d then
        SubsequenceExtend(d, s[..|s| - 1], x);
        d
      else
        SubsequenceAppend(d, s[..|s| - 1], x);
        d + [x]
  }

  lemma {:induction false} DistinctOfDistinct<T>(s: seq<T>)
    requires NoDuplicates(s)
    ensures Distinct(s) == s
  {
    if |s| > 0 {
      var init := s[..|s| - 1];
      assert NoDuplicates(init);
      DistinctOfDistinct(init);
      assert s[|s| - 1] !in init;
      assert s == init + [s[|s| - 1]];
    }
  }

  /** `x` occurs in `s` before the first occurrence of `y`, if `y` occurs at all. */
  predicate FirstBefore<T(==)>(s: seq<T>, x: T, y: T) {
    exists i | 0 <= i < |s| :: s[i] == x && y !in s[..i + 1]
  }

  /** Of two different elements that both occur, one occurs first. */
  lemma {:induction false} FirstBeforeTotal<T>(s: seq<T>, x: T, y: T)
    requires x in s && y in s && x != y
    ensures FirstBefore(s, x, y) || FirstBefore(s, y, x)
  {
    if s[0] == x {
      assert s[..1] == [x];
    } else if s[0] == y {
      assert s[..1] == [y];
    } else {
      var u := s[1..];
      assert s == [s[0]] + u;
      FirstBeforeTotal(u, x, y);
      if FirstBefore(u, x, y) {
        FirstBeforeCons(s[0], u, x, y);
      } else {
        FirstBeforeCons(s[0], u, y, x);
      }
    }
  }

  lemma FirstBeforeCons<T>(h: T, u: seq<T>, x: T, y: T)
    requires FirstBefore(u, x, y) && h != y
    ensures FirstBefore([h] + u, x, y)
  {
    var i :| 0 <= i < |u| && u[i] == x && y !in u[..i + 1];
    assert ([h] + u)[..i + 2] == [h] + u[..i + 1];
    assert ([h] + u)[i + 1] == x;
  }

  /** An `x` can only come first if it occurs before position `j`, where `y` is. */
  lemma NotFirstBefore<T>(s: seq<T>, x: T, y: T, j: nat)
    requires j < |s| && s[j] == y
    requires forall i | 0 <= i < j :: s[i] != x
    ensures !FirstBefore(s, x, y)
  {
    forall i | 0 <= i < |s| && s[i] == x ensures y in s[..i + 1] {
      assert s[..i + 1][j] == y;
    }
  }

  lemma FirstBeforeIrreflexive<T>(s: seq<T>, x: T)
    ensures !FirstBefore(s, x, x)
  {
    forall i | 0 <= i < |s| && s[i] == x ensures x in s[..i + 1] {
      assert s[..i + 1][i] == x;
    }
  }

  /** Replacing an element that is neither `x` nor `y` by another such element does
      not change which of the two comes first. */
  lemma FirstBeforeSplice<T>(a: seq<T>, u: T, v: T, b: seq<T>, x: T, y: T)
    requires x != u && x != v && y != u && y != v
    ensures FirstBefore(a + [u] + b, x, y) <==> FirstBefore(a + [v] + b, x, y)
  {
    if FirstBefore(a + [u] + b, x, y) {
      FirstBeforeSpliceOneWay(a, u, v, b, x, y);
    }
    if FirstBefore(a + [v] + b, x, y) {
      FirstBeforeSpliceOneWay(a, v, u, b, x, y);
    }
  }

  lemma FirstBeforeSpliceOneWay<T>(a: seq<T>, u: T, v: T, b: seq<T>, x: T, y: T)
    requires x != u && x != v && y != u && y != v
    requires FirstBefore(a + [u] + b, x, y)
    ensures FirstBefore(a + [v] + b, x, y)
  {
    var s, s' := a + [u] + b, a + [v] + b;
    var i :| 0 <= i < |s| && s[i] == x && y !in s[..i + 1];
    assert forall j | 0 <= j < |s| && j != |a| :: s'[j] == s[j];
    assert s'[i] == x;
    forall j | 0 <= j <= i ensures s'[j] != y {
      if j != |a| {
        assert s[..i + 1][j] == s[j];
      }
    }
    assert y !in s'[..i + 1];
  }

  /** Splitting a sequence round one of its elements, and replacing that element. */
  lemma SpliceAt<T>(w: seq<T>, s: seq<T>, i: nat, e: T, z: seq<T>)
    requires i < |s|
    ensures w + s + z == (w + s[..i]) + [s[i]] + (s[i + 1..] + z)
    ensures w + s[i := e] + z == (w + s[..i]) + [e] + (s[i + 1..] + z)
  {
    assert s == s[..i] + [s[i]] + s[i + 1..];
    assert s[i := e] == s[..i] + [e] + s[i + 1..];
  }

  /** De-duplicating a prefix gives a prefix of the de-duplicated whole. */
  lemma {:induction false} DistinctPrefix<T>(s: seq<T>, m: nat)
    requires m <= |s|
    ensures |Distinct(s[..m])| <= |Distinct(s)|
    ensures Distinct(s)[..|Distinct(s[..m])|] == Distinct(s[..m])
  {
    if m < |s| {
      var init := s[..|s| - 1];
      assert init[..m] == s[..m];
      DistinctPrefix(init, m);
    } else {
      assert s[..m] == s;
    }
  }

  /** De-duplication keeps the order of first occurrences. */
  lemma DistinctKeepsFirstOrder<T>(s: seq<T>, x: T, y: T, q: nat)
    requires FirstBefore(s, x, y)
    requires q < |Distinct(s)| && Distinct(s)[q] == y
    ensures exists p | 0 <= p < q :: Distinct(s)[p] == x
  {
    var i :| 0 <= i < |s| && s[i] == x && y !in s[..i + 1];
    var d := Distinct(s[..i + 1]);
    DistinctPrefix(s, i + 1);
    assert s[..i + 1][i] == x;
    var p :| 0 <= p < |d| && d[p] == x;
    assert y !in d;
    assert Distinct(s)[p] == x;
  }

  /** The order `Array.prototype.sort` uses for strings when no comparator is given:
      code point by code point, a proper prefix first, which is JavaScript's
      code-unit order for strings inside the Basic Multilingual Plane. */
  predicate StrLess(a: string, b: string) {
    |b| > 0 && (|a| == 0 || a[0] < b[0] || (a[0] == b[0] && StrLess(a[1..], b[1..])))
  }

  predicate StrLe(a: string, b: string) {
    a == b || StrLess(a, b)
  }

  lemma {:induction false} StrLessIrreflexive(a: string)
    ensures !StrLess(a, a)
  {
    if |a| > 0 {
      StrLessIrreflexive(a[1..]);
    }
  }

  lemma {:induction false} StrLessTransitive(a: string, b: string, c: string)
    requires StrLess(a, b) && StrLess(b, c)
    ensures StrLess(a, c)
  {
    if |a| > 0 && a[0] == b[0] && b[0] == c[0] {
      StrLessTransitive(a[1..], b[1..], c[1..]);
    }
  }

  lemma {:induction false} StrLessTotal(a: string, b: string)
    ensures a == b || StrLess(a, b) || StrLess(b, a)
  {
    if |a| > 0 && |b| > 0 && a[0] == b[0] {
      StrLessTotal(a[1..], b[1..]);
      if a[1..] == b[1..] {
        assert a == [a[0]] + a[1..] && b == [b[0]] + b[1..];
      }
    }
  }

  lemma StrLeTotal(a: string, b: string)
    ensures StrLe(a, b) || StrLe(b, a)
  {
    StrLessTotal(a, b);
  }

  lemma StrLeTransitive(a: string, b: string, c: string)
    requires StrLe(a, b) && StrLe(b, c)
    ensures StrLe(a, c)
  {
    if a != b && b != c {
      StrLessTransitive(a, b, c);
    }
  }

  predicate Sorted(s: seq<string>) {
    forall i, j | 0 <= i < j < |s| :: StrLe(s[i], s[j])
  }

  /** Putting `h` in front of a sorted sequence whose elements are all at least
      `h` keeps it sorted. */
  lemma SortedCons(h: string, t: seq<string>)
    requires Sorted(t) && forall j | 0 <= j < |t| :: StrLe(h, t[j])
    ensures Sorted([h] + t)
  {
    var r := [h] + t;
    forall i, j | 0 <= i < j < |r| ensures StrLe(r[i], r[j]) {
      assert r[j] == t[j - 1];
      if i > 0 {
        assert r[i] == t[i - 1];
      }
    }
  }

  /** Inserts `x` into the sorted `s` before the first element greater than it. */
  function Insert(x: string, s: seq<string>): (r: seq<string>)
    requires Sorted(s)
    ensures Sorted(r)
    ensures multiset(r) == multiset(s) + multiset{x}
  {
    if |s| == 0 then [x]
    else if StrLe(x, s[0]) then
      forall j | 0 <= j < |s| ensures StrLe(x, s[j]) {
        StrLeTransitive(x, s[0], s[j]);
      }
      SortedCons(x, s);
      [x] + s
    else
      var t := Insert(x, s[1..]);
      StrLeTotal(x, s[0]);
      assert s == [s[0]] + s[1..];
      forall j | 0 <= j < |t| ensures StrLe(s[0], t[j]) {
        assert t[j] in multiset(t);
        if t[j] != x {
          assert t[j] in multiset(s[1..]);
        }
      }
      SortedCons(s[0], t);
      [s[0]] + t
  }

  /** `s.sort()` on strings: an ascending permutation of `s`. */
  function SortStrings(s: seq<string>): (r: seq<string>)
    ensures Sorted(r)
    ensures multiset(r) == multiset(s)
    ensures |r| == |s|
  {
    if |s| == 0 then []
    else
      assert s == [s[0]] + s[1..];
      Insert(s[0], SortStrings(s[1..]))
  }

  /** Sorting a duplicate-free sequence leaves it duplicate-free, with the same
      elements, now strictly ascending. */
  lemma SortDistinct(s: seq<string>)
    requires NoDuplicates(s)
    ensures NoDuplicates(SortStrings(s))
    ensures forall x :: x in SortStrings(s) <==> x in s
    ensures forall i, j | 0 <= i < j < |SortStrings(s)| :: StrLess(SortStrings(s)[i], SortStrings(s)[j])
  {
    var r := SortStrings(s);
    assert forall x :: x in r <==> x in multiset(r);
    assert forall x :: x in s <==> x in multiset(s);
    forall x ensures multiset(s)[x] <= 1 {
      NoDuplicatesCount(s, x);
    }
    forall i, j | 0 <= i < j < |r| ensures r[i] != r[j] {
      if r[i] == r[j] {
        TwoIndicesCount(r, i, j);
      }
    }
  }

  /** `Array.from(new Set(s)).sort()`: the distinct elements of `s`, ascending. */
  function SortedSet(s: seq<string>): (r: seq<string>)
    ensures Sorted(r) && NoDuplicates(r)
    ensures forall x :: x in r <==> x in s
  {
    var d := Distinct(s);
    assert forall x :: x in d <==> x in s by {
      forall x | x in s ensures x in d {
        var i :| 0 <= i < |s| && s[i] == x;
      }
    }
    SortDistinct(d);
    SortStrings(d)
  }

  lemma {:induction false} NoDuplicatesCount<T>(s: seq<T>, x: T)
    requires NoDuplicates(s)
    ensures multiset(s)[x] <= 1
  {
    if |s| > 0 {
      assert s == [s[0]] + s[1..];
      NoDuplicatesCount(s[1..], x);
      if s[0] == x {
        assert x !in s[1..];
      }
    }
  }

  lemma TwoIndicesCount<T>(s: seq<T>, i: nat, j: nat)
    requires i < j < |s| && s[i] == s[j]
    ensures multiset(s)[s[i]] >= 2
  {
    assert s == s[..i] + [s[i]] + s[i + 1..j] + [s[j]] + s[j + 1..];
  }
}

=== FILE: store.dfy ===
/** The recipe list kept by the main process (main.js): the `save-recipe`
    handler replaces the recipe with the same id or appends it, the
    `delete-recipe` handler removes every recipe with the id, and
    `save-image` names a stored picture.  Reading and writing the JSON file
    and the picture files are left to the caller: the handlers are modelled
    as functions from the list read to the list written, and the pictures to
    remove are returned rather than removed. */
module Store {
  import opened Wrappers
  import opened Text
  import opened Seqs
  import opened Recipes

  /** No recipe of the list carries the id. */
  predicate Absent(recipes: seq<Recipe>, id: string) {
    forall k | 0 <= k < |recipes| :: recipes[k].id != id
  }

  /** `findIndex(r => r.id === id)`: the first position holding the id, or -1. */
  function FindIndex(recipes: seq<Recipe>, id: string): (r: int)
    ensures -1 <= r < |recipes|
    ensures r >= 0 ==> recipes[r].id == id && Absent(recipes[..r], id)
    ensures r == -1 <==> Absent(recipes, id)
  {
    if |recipes| == 0 then -1
    else if recipes[0].id == id then 0
    else
      var k := FindIndex(recipes[1..], id);
      assert forall m | 1 <= m < |recipes| :: recipes[1..][m - 1] == recipes[m];
      if k == -1 then -1
      else
        k + 1
  }

  /** The `save-recipe` handler: the first recipe with the same id is
      replaced in place, and when there is none the recipe is appended. */
  function Save(recipes: seq<Recipe>, recipe: Recipe): (r: seq<Recipe>)
    ensures var i := FindIndex(recipes, recipe.id);
      && (i >= 0 ==> |r| == |recipes| && r[i] == recipe
                     && forall k | 0 <= k < |r| && k != i :: r[k] == recipes[k])
      && (i == -1 ==> |r| == |recipes| + 1 && r[|recipes|] == recipe && r[..|recipes|] == recipes)
  {
    var i := FindIndex(recipes, recipe.id);
    if i >= 0 then recipes[i := recipe] else recipes + [recipe]
  }

  /** After a save, looking the id up finds the saved recipe. */
  lemma SaveThenFind(recipes: seq<Recipe>, recipe: Recipe)
    ensures var r := Save(recipes, recipe);
      var i := FindIndex(r, recipe.id);
      i >= 0 && r[i] == recipe
  {
    var r := Save(recipes, recipe);
    var i := FindIndex(recipes, recipe.id);
    if i >= 0 {
      FindIndexIs(r, recipe.id, i);
    } else {
      FindIndexIs(r, recipe.id, |recipes|);
    }
  }

  /** The first position holding the id is the one named. */
  lemma FindIndexIs(recipes: seq<Recipe>, id: string, i: nat)
    requires i < |recipes| && recipes[i].id == id
    requires forall k | 0 <= k < i :: recipes[k].id != id
    ensures FindIndex(recipes, id) == i
  {
  }

  /** Saving the same recipe twice is saving it once. */
  lemma SaveIdempotent(recipes: seq<Recipe>, recipe: Recipe)
    ensures Save(Save(recipes, recipe), recipe) == Save(recipes, recipe)
  {
    var r := Save(recipes, recipe);
    var i := FindIndex(recipes, recipe.id);
    if i >= 0 {
      FindIndexIs(r, recipe.id, i);
      assert r[i := recipe] == r;
    } else {
      FindIndexIs(r, recipe.id, |recipes|);
      assert r[|recipes| := recipe] == r;
    }
  }

  /** The ids of the list, in order. */
  function Ids(recipes: seq<Recipe>): (r: seq<string>)
    ensures |r| == |recipes|
    ensures forall k | 0 <= k < |r| :: r[k] == recipes[k].id
  {
    seq(|recipes|, k requires 0 <= k < |recipes| => recipes[k].id)
  }

  /** A list whose ids were distinct keeps them distinct after a save. */
  lemma SaveKeepsIdsDistinct(recipes: seq<Recipe>, recipe: Recipe)
    requires NoDuplicates(Ids(recipes))
    ensures NoDuplicates(Ids(Save(recipes, recipe)))
  {
    var r := Save(recipes, recipe);
    var i := FindIndex(recipes, recipe.id);
    forall a, b | 0 <= a < b < |r|
      ensures r[a].id != r[b].id
    {
      if i == -1 {
        if b == |recipes| {
          assert r[a] == recipes[a];
        } else {
          assert Ids(recipes)[a] != Ids(recipes)[b];
        }
      } else {
        assert Ids(recipes)[a] != Ids(recipes)[b];
      }
    }
  }

  /** The `delete-recipe` handler: every recipe with the id removed, the
      others kept in their order. */
  function Delete(recipes: seq<Recipe>, id: string): (r: seq<Recipe>)
    ensures Absent(r, id)
    ensures forall x :: x in r <==> x in recipes && x.id != id
    ensures IsSubsequence(r, recipes)
  {
    if |recipes| == 0 then []
    else
      var rest := Delete(recipes[1..], id);
      assert recipes == [recipes[0]] + recipes[1..];
      if recipes[0].id == id then rest
      else
        assert ([recipes[0]] + rest)[1..] == rest;
        [recipes[0]] + rest
  }

  /** Deleting an id that is not there changes nothing. */
  lemma {:induction false} DeleteAbsent(recipes: seq<Recipe>, id: string)
    requires Absent(recipes, id)
    ensures Delete(recipes, id) == recipes
  {
    if |recipes| > 0 {
      DeleteAbsent(recipes[1..], id);
      assert recipes == [recipes[0]] + recipes[1..];
    }
  }

  /** Deleting twice is deleting once. */
  lemma DeleteIdempotent(recipes: seq<Recipe>, id: string)
    ensures Delete(Delete(recipes, id), id) == Delete(recipes, id)
  {
    DeleteAbsent(Delete(recipes, id), id);
  }

  /** Deleting a recipe that was just added takes the list back to what it
      was. */
  lemma {:induction false} DeleteUndoesAdd(recipes: seq<Recipe>, recipe: Recipe)
    requires Absent(recipes, recipe.id)
    ensures Delete(Save(recipes, recipe), recipe.id) == recipes
  {
    DeleteAppended(recipes, recipe);
  }

  lemma {:induction false} DeleteAppended(recipes: seq<Recipe>, recipe: Recipe)
    requires Absent(recipes, recipe.id)
    ensures Delete(recipes + [recipe], recipe.id) == recipes
  {
    if |recipes| == 0 {
      assert recipes + [recipe] == [recipe];
      assert [recipe][1..] == [];
    } else {
      assert (recipes + [recipe])[1..] == recipes[1..] + [recipe];
      DeleteAppended(recipes[1..], recipe);
      assert recipes == [recipes[0]] + recipes[1..];
    }
  }

  /** The picture `save-recipe` removes: the old recipe's, when both the old
      and the new recipe have one and they differ. */
  function ReplacedImage(recipes: seq<Recipe>, recipe: Recipe): (r: Option<string>)
    ensures r.Some? ==> r.value != "" && r.value != recipe.image && recipe.image != ""
    ensures r.Some? ==> exists k | 0 <= k < |recipes| :: recipes[k].id == recipe.id && recipes[k].image == r.value
    ensures Absent(recipes, recipe.id) || recipe.image == "" ==> r.None?
    ensures forall k | 0 <= k < |recipes| && recipes[k].id == recipe.id && Absent(recipes[..k], recipe.id) ::
      (recipes[k].image != "" && recipe.image != "" && recipes[k].image != recipe.image ==> r == Some(recipes[k].image))
  {
    var i := FindIndex(recipes, recipe.id);
    if i >= 0 && recipes[i].image != "" && recipe.image != "" && recipes[i].image != recipe.image
    then Some(recipes[i].image)
    else None
  }

  /** Saving a recipe that keeps its picture, or has none, removes no picture. */
  lemma KeptImageNotRemoved(recipes: seq<Recipe>, recipe: Recipe)
    requires FindIndex(recipes, recipe.id) >= 0
    requires recipe.image == recipes[FindIndex(recipes, recipe.id)].image || recipe.image == ""
    ensures ReplacedImage(recipes, recipe).None?
  {
  }

  /** The picture `delete-recipe` removes: that of the first recipe with the
      id, if it has one. */
  function DeletedImage(recipes: seq<Recipe>, id: string): (r: Option<string>)
    ensures r.Some? ==> r.value != "" && exists k | 0 <= k < |recipes| :: recipes[k].id == id && recipes[k].image == r.value
    ensures Absent(recipes, id) ==> r.None?
    ensures forall k | 0 <= k < |recipes| && recipes[k].id == id && Absent(recipes[..k], id) ::
      (recipes[k].image != "" ==> r == Some(recipes[k].image))
  {
    var i := FindIndex(recipes, id);
    if i >= 0 && recipes[i].image != "" then Some(recipes[i].image) else None
  }

  /** The `save-image` handler: nothing without data, else the path under
      `images/` made of the timestamp `now`, '_' and the file name. */
  function SaveImage(fileName: string, hasBuffer: bool, now: nat): (r: Option<string>)
    ensures r.None? <==> !hasBuffer
    ensures r.Some? ==> exists stamp | stamp == NatToString(now) ::
      r.value == "images/" + stamp + "_" + fileName && |stamp| > 0 && AllDigits(stamp)
  {
    if hasBuffer then Some("images/" + NatToString(now) + "_" + fileName) else None
  }

  /** The text after the first `c`, or nothing when there is none. */
  function AfterFirst(s: string, c: char): (r: Option<string>)
    ensures r.None? <==> c !in s
    ensures r.Some? ==> |r.value| < |s| && s[|s| - |r.value|..] == r.value
    ensures r.Some? ==> s[|s| - |r.value| - 1] == c && c !in s[..|s| - |r.value| - 1]
  {
    if |s| == 0 then None
    else if s[0] == c then
      assert s[1..] == s[|s| - |s[1..]|..];
      Some(s[1..])
    else
      var r := AfterFirst(s[1..], c);
      assert s == [s[0]] + s[1..];
      if r.Some? then
        assert s[|s| - |r.value| - 1] == s[1..][|s| - 1 - |r.value| - 1];
        assert s[..|s| - |r.value| - 1] == [s[0]] + s[1..][..|s| - 1 - |r.value| - 1];
        assert s[|s| - |r.value|..] == s[1..][|s| - 1 - |r.value|..];
        r
      else r
  }

  /** The part after the first `c` of `p + [c] + q`, when `p` has no `c`. */
  lemma {:induction false} AfterFirstIs(p: string, c: char, q: string)
    requires c !in p
    ensures AfterFirst(p + [c] + q, c) == Some(q)
  {
    if |p| == 0 {
      assert p + [c] + q == [c] + q;
      assert ([c] + q)[1..] == q;
    } else {
      assert (p + [c] + q)[1..] == p[1..] + [c] + q;
      AfterFirstIs(p[1..], c, q);
    }
  }

  /** The file name can be read back from the stored path: it is what
      follows the first '_', since the folder and the digits hold none. */
  lemma SaveImageRoundTrip(fileName: string, now: nat)
    ensures AfterFirst(SaveImage(fileName, true, now).value, '_') == Some(fileName)
  {
    var stamp := NatToString(now);
    var p := "images/" + stamp;
    assert forall k | 0 <= k < |stamp| :: stamp[k] != '_';
    assert '_' !in "images/";
    assert '_' !in p;
    assert SaveImage(fileName, true, now).value == p + ['_'] + fileName;
    AfterFirstIs(p, '_', fileName);
  }
}

=== FILE: text.dfy ===
/** Character classes and string operations of JavaScript that the recipe catalog
    relies on: `\s`, `\d`, `\w`, `trim()`, `toLowerCase()`, `includes`, `indexOf`,
    `lastIndexOf`, `split` and `join` on a single separator, `parseInt` on a digit
    string and the decimal rendering of a number.  Strings are sequences of UTF-16
    code units in JavaScript; here they are `seq<char>`. */
module Text {

  /** `\d` outside Unicode mode. */
  predicate IsDigit(c: char) {
    '0' <= c <= '9'
  }

  /** `\s`, which is also exactly the set of characters `String.prototype.trim`
      removes: the ECMAScript WhiteSpace and LineTerminator code points
      (tab, line feed, vertical tab, form feed, carriage return, space, no-break
      space, the Unicode space separators, line and paragraph separators and the
      byte-order mark). */
  predicate IsSpace(c: char) {
    || c == ' '
    || '\t' <= c <= '\r'
    || c == '\U{00A0}'
    || c == '\U{1680}'
    || '\U{2000}' <= c <= '\U{200A}'
    || c == '\U{2028}'
    || c == '\U{2029}'
    || c == '\U{202F}'
    || c == '\U{205F}'
    || c == '\U{3000}'
    || c == '\U{FEFF}'
  }

  /** The characters `.` refuses to match when the `s` flag is absent. */
  predicate IsLineTerminator(c: char) {
    c == '\n' || c == '\r' || c == '\U{2028}' || c == '\U{2029}'
  }

  /** `\w` outside Unicode mode, which also decides `\b`. */
  predicate IsWordChar(c: char) {
    'a' <= c <= 'z' || 'A' <= c <= 'Z' || IsDigit(c) || c == '_'
  }

  /** `\p{L}`, restricted to the Latin letters below U+0250 (the multiplication and
      division signs excepted).  Letters of other scripts are not modelled. */
  predicate IsLetter(c: char) {
    || 'a' <= c <= 'z'
    || 'A' <= c <= 'Z'
    || c == '\U{00AA}'
    || c == '\U{00B5}'
    || c == '\U{00BA}'
    || ('\U{00C0}' <= c <= '\U{024F}' && c != '\U{00D7}' && c != '\U{00F7}')
  }

  /** `\p{N}`, restricted to the ASCII digits and the Latin-1 superscripts and
      vulgar fractions. */
  predicate IsNumeric(c: char) {
    || IsDigit(c)
    || c == '\U{00B2}'
    || c == '\U{00B3}'
    || c == '\U{00B9}'
    || '\U{00BC}' <= c <= '\U{00BE}'
  }

  /** `toLowerCase` on one character, for ASCII and the Latin-1 capitals. */
  function Lower(c: char): char {
    if 'A' <= c <= 'Z' || ('\U{00C0}' <= c <= '\U{00DE}' && c != '\U{00D7}') then
      (c as int + 32) as char
    else
      c
  }

  /** `toUpperCase` on one character, for ASCII and the Latin-1 small letters
      that have a single-character capital. */
  function Upper(c: char): char {
    if 'a' <= c <= 'z' || ('\U{00E0}' <= c <= '\U{00FE}' && c != '\U{00F7}') then
      (c as int - 32) as char
    else
      c
  }

  /** A character `toLowerCase` leaves unchanged. */
  predicate IsLowerChar(c: char) {
    Lower(c) == c
  }

  lemma LowerProperties(c: char)
    ensures IsLowerChar(Lower(c))
    ensures Upper(Lower(c)) == Upper(c)
    ensures IsSpace(Lower(c)) <==> IsSpace(c)
    ensures IsDigit(Lower(c)) <==> IsDigit(c)
    ensures Lower(c) == '@' <==> c == '@'
    ensures Lower(c) == ',' <==> c == ','
  {
  }

  /** `s.toLowerCase()`. */
  function LowerStr(s: string): (r: string)
    ensures |r| == |s|
    ensures forall i | 0 <= i < |s| :: r[i] == Lower(s[i])
  {
    seq(|s|, i requires 0 <= i < |s| => Lower(s[i]))
  }

  /** A string `toLowerCase` leaves unchanged. */
  predicate IsLowerStr(s: string) {
    forall i | 0 <= i < |s| :: IsLowerChar(s[i])
  }

  lemma LowerStrIsLower(s: string)
    ensures IsLowerStr(LowerStr(s))
    ensures LowerStr(LowerStr(s)) == LowerStr(s)
  {
    forall i | 0 <= i < |s|
      ensures IsLowerChar(LowerStr(s)[i])
    {
      LowerProperties(s[i]);
    }
  }

  lemma LowerStrOfLower(s: string)
    requires IsLowerStr(s)
    ensures LowerStr(s) == s
  {
  }

  lemma LowerStrAppend(a: string, b: string)
    ensures LowerStr(a + b) == LowerStr(a) + LowerStr(b)
  {
  }

  /** The index of the first character of `s` at or after `i` that is not white space. */
  function SkipSpaces(s: string, i: nat): (j: nat)
    requires i <= |s|
    ensures i <= j <= |s|
    ensures forall k | i <= k < j :: IsSpace(s[k])
    ensures j == |s| || !IsSpace(s[j])
    decreases |s| - i
  {
    if i < |s| && IsSpace(s[i]) then SkipSpaces(s, i + 1) else i
  }

  /** `SkipSpaces` is the one index that ends a maximal run of white space. */
  lemma {:induction false} SkipSpacesIs(s: string, j: nat, k: nat)
    requires j <= k <= |s|
    requires forall m | j <= m < k :: IsSpace(s[m])
    requires k == |s| || !IsSpace(s[k])
    ensures SkipSpaces(s, j) == k
    decreases k - j
  {
    if j < k {
      SkipSpacesIs(s, j + 1, k);
    }
  }

  /** The index just past the last character of `s[..j]` that is not white space. */
  function BackSpaces(s: string, j: nat): (i: nat)
    requires j <= |s|
    ensures i <= j
    ensures forall k | i <= k < j :: IsSpace(s[k])
    ensures i == 0 || !IsSpace(s[i - 1])
  {
    if j > 0 && IsSpace(s[j - 1]) then BackSpaces(s, j - 1) else j
  }

  /** A string with no white space at either end. */
  predicate IsTrimmed(s: string) {
    |s| == 0 || (!IsSpace(s[0]) && !IsSpace(s[|s| - 1]))
  }

  predicate AllSpaces(s: string) {
    forall i | 0 <= i < |s| :: IsSpace(s[i])
  }

  /** `s.trim()`. */
  function Trim(s: string): (r: string)
    ensures IsTrimmed(r)
    ensures r == [] <==> AllSpaces(s)
    ensures |r| <= |s|
  {
    var i := SkipSpaces(s, 0);
    if i == |s| then
      []
    else
      var j := BackSpaces(s, |s|);
      assert i < j;
      assert s[i..j][0] == s[i] && s[i..j][j - i - 1] == s[j - 1];
      assert forall k | i <= k < j :: s[k] == s[i..j][k - i];
      s[i..j]
  }

  /** Surrounding white space is all that `Trim` removes, whatever the string in between. */
  lemma TrimSurrounded(a: string, x: string, b: string)
    requires AllSpaces(a) && AllSpaces(b) && IsTrimmed(x)
    ensures Trim(a + x + b) == x
  {
    var s := a + x + b;
    if |x| == 0 {
      assert AllSpaces(s) by {
        forall k | 0 <= k < |s| ensures IsSpace(s[k]) {
          if k < |a| { assert s[k] == a[k]; } else { assert s[k] == b[k - |a|]; }
        }
      }
    } else {
      assert s[|a|] == x[0];
      assert s[|a| + |x| - 1] == x[|x| - 1];
      assert forall k | 0 <= k < |a| :: IsSpace(s[k]) by {
        forall k | 0 <= k < |a| ensures IsSpace(s[k]) { assert s[k] == a[k]; }
      }
      assert forall k | |a| + |x| <= k < |s| :: IsSpace(s[k]) by {
        forall k | |a| + |x| <= k < |s| ensures IsSpace(s[k]) { assert s[k] == b[k - |a| - |x|]; }
      }
      var i := SkipSpaces(s, 0);
      var j := BackSpaces(s, |s|);
      assert i == |a|;
      assert j == |a| + |x|;
      assert s[i..j] == x;
    }
  }

  /** `trim()` keeps a stretch of the string, so it adds no character. */
  lemma TrimWithin(s: string)
    ensures forall c | c in Trim(s) :: c in s
  {
    var i := SkipSpaces(s, 0);
    if i < |s| {
      var j := BackSpaces(s, |s|);
      assert Trim(s) == s[i..j];
    }
  }

  /** `trim()` removes white space only: every other character stays. */
  lemma TrimKeeps(s: string, k: nat)
    requires k < |s| && !IsSpace(s[k])
    ensures s[k] in Trim(s)
  {
    var i := SkipSpaces(s, 0);
    var j := BackSpaces(s, |s|);
    assert i <= k < j;
    assert Trim(s) == s[i..j];
    assert s[i..j][k - i] == s[k];
  }

  lemma TrimOfTrimmed(x: string)
    requires IsTrimmed(x)
    ensures Trim(x) == x
  {
    TrimSurrounded([], x, []);
    assert [] + x + [] == x;
  }

  lemma TrimLower(s: string)
    ensures Trim(LowerStr(s)) == LowerStr(Trim(s))
  {
    var l := LowerStr(s);
    forall k | 0 <= k < |s| ensures IsSpace(l[k]) <==> IsSpace(s[k]) {
      LowerProperties(s[k]);
    }
    var i := SkipSpaces(s, 0);
    assert SkipSpaces(l, 0) == i;
    if i < |s| {
      var j := BackSpaces(s, |s|);
      assert BackSpaces(l, |l|) == j;
      assert l[i..j] == LowerStr(s[i..j]);
    }
  }

  /** `sub` occurs in `s` starting at index `i`. */
  predicate OccursAt(s: string, sub: string, i: nat) {
    i + |sub| <= |s| && s[i..i + |sub|] == sub
  }

  /** `s.indexOf(sub, from)`: the first occurrence at or after `from`, or -1. */
  function IndexOfFrom(s: string, sub: string, from: nat): (r: int)
    requires from <= |s|
    ensures -1 <= r <= |s|
    ensures r >= 0 ==> from <= r && OccursAt(s, sub, r)
    ensures r >= 0 ==> forall k | from <= k < r :: !OccursAt(s, sub, k)
    ensures r == -1 ==> forall k | from <= k <= |s| :: !OccursAt(s, sub, k)
    decreases |s| - from
  {
    if OccursAt(s, sub, from) then from
    else if from == |s| then -1
    else IndexOfFrom(s, sub, from + 1)
  }

  /** `s.indexOf(sub)`. */
  function IndexOf(s: string, sub: string): (r: int)
    ensures -1 <= r <= |s|
    ensures r >= 0 ==> OccursAt(s, sub, r) && forall k | 0 <= k < r :: !OccursAt(s, sub, k)
    ensures r == -1 <==> forall k | 0 <= k <= |s| :: !OccursAt(s, sub, k)
  {
    IndexOfFrom(s, sub, 0)
  }

  /** `s.includes(sub)`. */
  predicate Contains(s: string, sub: string) {
    IndexOf(s, sub) >= 0
  }

  lemma ContainsAt(s: string, sub: string, i: nat)
    requires OccursAt(s, sub, i)
    ensures Contains(s, sub)
  {
  }

  lemma ContainsEmpty(s: string)
    ensures Contains(s, "")
  {
    assert OccursAt(s, "", 0);
  }

  lemma ContainsItself(s: string)
    ensures Contains(s, s)
  {
    assert OccursAt(s, s, 0);
  }

  /** `s.lastIndexOf(c)` for a one-character argument: `c` is at `r` and nowhere
      after it, and -1 means nowhere at all. */
  function LastIndexOf(s: string, c: char): (r: int)
    ensures -1 <= r < |s|
    ensures r >= 0 ==> s[r] == c
    ensures forall k | r < k < |s| :: s[k] != c
  {
    if |s| == 0 then -1
    else if s[|s| - 1] == c then |s| - 1
    else
      var r := LastIndexOf(s[..|s| - 1], c);
      assert forall k | r < k < |s| - 1 :: s[k] == s[..|s| - 1][k];
      r
  }

  lemma {:induction false} LastIndexOfAfter(p: string, c: char, q: string)
    requires c !in q
    ensures LastIndexOf(p + [c] + q, c) == |p|
  {
    var s := p + [c] + q;
    assert s[|p|] == c;
    forall k | |p| < k < |s| ensures s[k] != c {
      assert s[k] == q[k - |p| - 1];
    }
    LastIndexOfIs(s, c, |p|);
  }

  /** The last occurrence is the one with no occurrence after it. */
  lemma {:induction false} LastIndexOfIs(s: string, c: char, i: nat)
    requires i < |s| && s[i] == c
    requires forall k | i < k < |s| :: s[k] != c
    ensures LastIndexOf(s, c) == i
    decreases |s|
  {
    if i < |s| - 1 {
      var t := s[..|s| - 1];
      assert forall k | i < k < |t| :: t[k] == s[k];
      LastIndexOfIs(t, c, i);
    }
  }

  /** The concatenation of `ws` with `sep` between neighbours: `ws.join(sep)`. */
  function Join(ws: seq<string>, sep: string): string {
    if |ws| == 0 then ""
    else if |ws| == 1 then ws[0]
    else ws[0] + sep + Join(ws[1..], sep)
  }

  lemma {:induction false} JoinAppend(a: seq<string>, b: seq<string>, sep: string)
    requires |a| > 0 && |b| > 0
    ensures Join(a + b, sep) == Join(a, sep) + sep + Join(b, sep)
  {
    var ab := a + b;
    assert ab[0] == a[0];
    if |a| == 1 {
      assert ab[1..] == b;
    } else {
      assert ab[1..] == a[1..] + b;
      JoinAppend(a[1..], b, sep);
      assert Join(ab, sep) == a[0] + sep + (Join(a[1..], sep) + sep + Join(b, sep));
    }
  }

  /** Putting a character in front of the first piece puts it in front of the join. */
  lemma JoinPrepend(c: char, ws: seq<string>, sep: string)
    requires |ws| >= 1
    ensures Join([[c] + ws[0]] + ws[1..], sep) == [c] + Join(ws, sep)
  {
    var v := [[c] + ws[0]] + ws[1..];
    assert v[0] == [c] + ws[0] && v[1..] == ws[1..];
    if |ws| > 1 {
      assert Join(v, sep) == ([c] + ws[0]) + sep + Join(ws[1..], sep);
    }
  }

  /** `s.split(d)` for a one-character separator: the pieces between separators,
      empty pieces included, and always at least one piece. */
  function Split(s: string, d: char): (r: seq<string>)
    ensures |r| >= 1
    ensures forall i | 0 <= i < |r| :: d !in r[i]
    ensures Join(r, [d]) == s
  {
    if |s| == 0 then [""]
    else
      var rest := Split(s[1..], d);
      if s[0] == d then
        var r := [""] + rest;
        assert r[1..] == rest;
        assert s == [d] + s[1..];
        r
      else
        var r := [[s[0]] + rest[0]] + rest[1..];
        JoinPrepend(s[0], rest, [d]);
        assert s == [s[0]] + s[1..];
        assert forall i | 1 <= i < |r| :: r[i] == rest[i];
        r
  }

  /** Joining pieces free of the separator and splitting again gives the pieces back. */
  lemma {:induction false} SplitJoin(ws: seq<string>, d: char)
    requires |ws| >= 1
    requires forall i | 0 <= i < |ws| :: d !in ws[i]
    ensures Split(Join(ws, [d]), d) == ws
    decreases |Join(ws, [d])|
  {
    var s := Join(ws, [d]);
    if |ws[0]| > 0 {
      var w := ws[0];
      var v := [w[1..]] + ws[1..];
      assert v[0] == w[1..] && v[1..] == ws[1..];
      assert [w[0]] + w[1..] == w;
      JoinPrepend(w[0], v, [d]);
      assert [[w[0]] + v[0]] + v[1..] == ws;
      assert s == [w[0]] + Join(v, [d]);
      assert s[1..] == Join(v, [d]);
      SplitJoin(v, d);
    } else if |ws| > 1 {
      assert s == [d] + Join(ws[1..], [d]);
      assert s[1..] == Join(ws[1..], [d]);
      SplitJoin(ws[1..], d);
      assert [""] + ws[1..] == ws;
    }
  }

  /** The pieces of `ws` after the first, each with a space in front. */
  function Spaced(ws: seq<string>): (r: seq<string>)
    requires |ws| >= 1
    ensures |r| == |ws| && r[0] == ws[0]
    ensures forall i | 1 <= i < |ws| :: r[i] == " " + ws[i]
  {
    [ws[0]] + seq(|ws| - 1, i requires 0 <= i < |ws| - 1 => " " + ws[i + 1])
  }

  /** Joining with ", " is joining with "," after a space in front of every piece but the first. */
  lemma {:induction false} JoinCommaSpace(ws: seq<string>)
    requires |ws| >= 1
    ensures Join(ws, ", ") == Join(Spaced(ws), ",")
  {
    if |ws| > 1 {
      var t := Spaced(ws[1..]);
      JoinCommaSpace(ws[1..]);
      JoinPrepend(' ', t, ",");
      assert Spaced(ws)[1..] == [[' '] + t[0]] + t[1..];
      assert Join(Spaced(ws), ",") == ws[0] + "," + ([' '] + Join(t, ","));
    }
  }

  /** A space in front of pieces free of commas adds no comma. */
  lemma SpacedNoComma(ws: seq<string>)
    requires |ws| >= 1
    requires forall i | 0 <= i < |ws| :: ',' !in ws[i]
    ensures forall i | 0 <= i < |ws| :: ',' !in Spaced(ws)[i]
  {
    var v := Spaced(ws);
    forall i | 1 <= i < |ws| ensures ',' !in v[i] {
      assert v[i] == [' '] + ws[i];
    }
  }

  /** Trimming undoes the space in front of a trimmed piece. */
  lemma SpacedTrim(ws: seq<string>, i: nat)
    requires 1 <= i < |ws| && IsTrimmed(ws[i])
    ensures Trim(Spaced(ws)[i]) == ws[i]
  {
    TrimSurrounded(" ", ws[i], "");
    assert " " + ws[i] + "" == Spaced(ws)[i];
  }

  /** `ws.join(", ")` read back with `split(',')` and a `trim()` of every piece
      gives back pieces that are trimmed and free of commas. */
  lemma SplitCommaSpaceJoin(ws: seq<string>)
    requires |ws| >= 1
    requires forall i | 0 <= i < |ws| :: IsTrimmed(ws[i]) && ',' !in ws[i]
    ensures var ps := Split(Join(ws, ", "), ',');
      |ps| == |ws| && forall i | 0 <= i < |ws| :: Trim(ps[i]) == ws[i]
  {
    JoinCommaSpace(ws);
    SpacedNoComma(ws);
    SplitJoin(Spaced(ws), ',');
    TrimOfTrimmed(ws[0]);
    forall i | 1 <= i < |ws| ensures Trim(Spaced(ws)[i]) == ws[i] {
      SpacedTrim(ws, i);
    }
  }

  /** Splitting distributes over a separator placed between two strings. */
  lemma SplitAround(a: string, d: char, b: string)
    ensures Split(a + [d] + b, d) == Split(a, d) + Split(b, d)
  {
    var sa, sb := Split(a, d), Split(b, d);
    JoinAppend(sa, sb, [d]);
    SplitJoin(sa + sb, d);
  }

  /** A string made of digits only (possibly empty). */
  predicate AllDigits(s: string) {
    forall i | 0 <= i < |s| :: IsDigit(s[i])
  }

  /** The number a digit string denotes in base ten, as `parseInt(s, 10)` reads it. */
  function DigitsValue(s: string): nat
    requires AllDigits(s)
  {
    if |s| == 0 then 0 else 10 * DigitsValue(s[..|s| - 1]) + (s[|s| - 1] as int - '0' as int)
  }

  /** The decimal rendering of `n`, as a template literal `${n}` produces it. */
  function NatToString(n: nat): (r: string)
    ensures |r| > 0 && AllDigits(r)
    ensures DigitsValue(r) == n
    ensures |r| > 1 ==> r[0] != '0'
  {
    var last := [('0' as int + n % 10) as char];
    if n < 10 then last
    else
      var r := NatToString(n / 10) + last;
      assert r[..|r| - 1] == NatToString(n / 10);
      r
  }
}

=== FILE: wrappers.dfy ===
/** The optional-value datatype used wherever the JavaScript code returns `null`
    or `undefined` in place of a value. */
module Wrappers {

  /** `None` stands for JavaScript's `null`/`undefined`; `Some(v)` for a present value. */
  datatype Option<+T> = None | Some(value: T) {

    /** Returns the encapsulated value, or `default` when there is none. */
    function GetOr(default: T): T {
      match this
      case Some(v) => v
      case None() => default
    }
  }
}
